=== FILE: README.md ===
# CedarLogic editor core in Dafny

CedarLogic is a digital-logic simulator whose editor (the GUI side) builds
circuits from gates and wires, and sends a separate simulation core text
messages about them. This project models the sequential, deterministic part
of that editor as pure Dafny functions over immutable data, and proves what
the editor promises about it.

The modules follow the source files:

- `ParamMap` is a `std::map<string, string>`: a key-sorted sequence of
  entries. It gives map iteration order, `operator[]` (which inserts "" when
  it reads an absent key) and plain lookup.
- `Strings` and `StreamExtract` model the standard-library behaviour the
  editor relies on (libstdc++, C++11, LP64):
  - `string::find` and `substr`;
  - `getline`;
  - `istream >> int`, `>> unsigned` and `>> unsigned long`, including a
    failed read that keeps the old value, the clamping of an out-of-range
    `int`, and the modulo reduction of an unsigned read;
  - decimal output with `operator<<`.
- `Gates` is the gate data model of `guiGate.h`:
  - hotspots, each with a bus width;
  - the `connections` map from hotspot to wire ID (a Dafny map, so each
    hotspot has at most one wire by construction);
  - input/output declarations;
  - the GUI and logic parameter maps.
- `WireRegistry` is the canvas wire list, which maps every bus ID to the
  wire whose primary ID it is, and every other bus ID to a null placeholder.
  It models `insertWire` and `removeWire`.
- `Connection` holds the three connection-command factories of `GUICanvas`.
  `CanvasEvents` holds the mouse-up connect dispatch, the automatic
  connection of overlapping hotspots after a drop, right-click
  disconnect/rotate and the key-down drag-state rules. Commands are a tagged
  datatype; bus validation and fresh wire IDs are parameters.
- `GateTypes` builds gate type names (`getGate`, `getLatch`, `getFlipFlop`,
  `replaceGate`). `PldMap` and `GateStructs` model the validation in
  `createGatesStruct`: the PLD `CONNECTIONS` map and the `%%_34_CIRCUIT`
  input names and terms.
- `CircuitParse` normalises the gate and wire records read from a circuit
  file:
  - the version check;
  - legacy type renames and hotspot names;
  - the parameter filter;
  - the not-found placeholder;
  - the library defaults;
  - the messages a loaded gate sends to the simulation core;
  - the dropping of connections to placeholder gates;
  - the wire-registry guard.
- `SetParams` is the `cmdSetParams` command: its text form (with a
  round-trip proof), Do, Undo and `setPointers`.
- `ParamDialog` holds the initial control values of the parameter dialog and
  its OK logic: range checks, routing to GUI or logic parameters, and change
  detection.
- `Keypad` is the keypad gate: hex formatting of `OUTPUT_NUM`, value-box
  selection, and click decoding.
- `Settings` is `MainApp::loadSettings`: the executable's directory, the
  defaults, the `key=value` lines, the refresh-rate check and the
  screen-fit reset, with a round trip from a written settings file.

Where C++ leaves behaviour undefined (an uninitialised `int` read, an index
of -1), the model says so with an explicit `Undefined` outcome or excludes
the case by a precondition named below.

## Model

| member | source | states |
|---|---|---|
| WireRegistry.Insert | src/gui/GUICanvas.cpp:95-108 | every bus ID of the wire becomes a key; the primary ID maps to the wire, the other bus IDs to the null placeholder, and all other entries are kept |
| WireRegistry.Remove | src/gui/GUICanvas.cpp:124-139 | an unknown ID leaves the list unchanged; otherwise exactly the wire's bus IDs are erased and every remaining entry is untouched |
| WireRegistry.InsertConsistent | src/gui/GUICanvas.cpp:95-108 | insertion keeps every wire entry under its own primary ID |
| WireRegistry.RemoveConsistent | src/gui/GUICanvas.cpp:124-139 | removal keeps every wire entry under its own primary ID |
| WireRegistry.RemoveAfterInsert | src/gui/GUICanvas.cpp:95-139 | removing a freshly inserted wire whose bus IDs include its primary ID restores the list as it was |
| WireRegistry.RemoveKeepsUnlistedPrimary | src/gui/GUICanvas.cpp:95-139 | a wire whose primary ID is not one of its bus IDs leaves that primary entry behind when removed |
| Connection.GateWireCommand | src/gui/GUICanvas.cpp:1529-1549 | no command when the hotspot already holds that very wire; otherwise a Connect of that hotspot to the wire exactly when the bus check accepts it |
| Connection.WireWireCommand | src/gui/GUICanvas.cpp:1617-1639 | no command for equal wire IDs; a Merge carries exactly as many fresh IDs as the first wire has bus IDs, always passed the bus check, and is given whenever the check accepts it |
| Connection.NoSelfConnection | src/gui/GUICanvas.cpp:1556-1559 | connecting a hotspot to itself gives no command |
| Connection.AlreadyOnSameWire | src/gui/GUICanvas.cpp:1561-1566 | two hotspots already on the same wire give no command |
| Connection.BothFreeCreatesWire | src/gui/GUICanvas.cpp:1568-1596 | two free hotspots give a Create with one fresh ID per bus line of the first hotspot and both connects on the first new ID, or nothing when the bus check fails |
| Connection.OneConnectedAttaches | src/gui/GUICanvas.cpp:1598-1609 | with exactly one hotspot connected, the result is the gate-wire command attaching the free hotspot to the other one's wire |
| Connection.GateGateCommand | src/gui/GUICanvas.cpp:1551-1611 | no command for a hotspot onto itself or for two hotspots already on one wire; every command given passed the bus check and is a Create exactly when neither hotspot was connected, else a Connect of the free hotspot to the other one's wire; a Create takes one fresh ID per bus line of the first hotspot and attaches both ends to the first new ID, and two distinct free hotspots always get it when the bus check accepts |
| CanvasEvents.ConnectCommand | src/gui/GUICanvas.cpp:982-1055 | with no target nothing is submitted; when both ends carry wires the result is the merge of those two wires; a free hotspot at either end of a hotspot-to-hotspot drag hands the decision to the hotspot factory, and a free hotspot dragged to or from a wire hands it to the gate-wire factory with that wire; every command given passed the bus check, and a new wire needs two free hotspots |
| CanvasEvents.HotspotTakesPriority | src/gui/GUICanvas.cpp:984-1043 | a highlighted hotspot is the target whether or not a wire is hovered as well |
| CanvasEvents.WireOntoItself | src/gui/GUICanvas.cpp:1035-1043 | a wire dragged onto itself submits nothing |
| CanvasEvents.JoinStep | src/gui/GUICanvas.cpp:1079-1097 | a pair is skipped unless neither hotspot holds a wire and one of its gates is selected, and a hotspot overlapping itself is skipped; otherwise the hotspot factory draws one fresh ID per bus line of the first hotspot, and a wire it gives joins exactly the two hotspots, passed the bus check, uses the next unused IDs and is applied to the canvas before the next pair |
| CanvasEvents.JoinStepMakesWire | src/gui/GUICanvas.cpp:1079-1086 | a joinable pair of two different hotspots gets its new wire whenever the bus check accepts it |
| CanvasEvents.AutoConnect | src/gui/GUICanvas.cpp:1060-1107 | the pass keeps the wires made before it, makes at most one wire per reported pair, and every wire it makes passed the bus check and joins the two hotspots of a reported pair one of whose gates is selected |
| CanvasEvents.AutoJoinsFreeHotspots | src/gui/GUICanvas.cpp:1079-1086 | when applying a wire whose ends are on the page keeps the gates and the existing connections and connects its two ends, every wire of the pass joins two hotspots that were free when the pass began |
| CanvasEvents.AutoJoinsEachHotspotOnce | src/gui/GUICanvas.cpp:1064-1106 | under the same hypothesis, no two wires of the pass share a hotspot, so a pair reported again from the other gate's side makes nothing |
| CanvasEvents.AttachingEndsAppliesWires | src/gui/GUICanvas.cpp:1085-1086 | the hypothesis about `createwire->Do()` can be met: attaching the two ends of each new wire to their hotspots meets it |
| CanvasEvents.MouseUp | src/gui/GUICanvas.cpp:818-1120 | every mouse-up ends in the no-drag state; a connect-drag gives exactly the command the connect branch decides; a double-click on a single gate that does not take the click itself ends the drag with no wires; otherwise a dropped new gate or moved selection with recorded potential hotspots gets exactly the wires of the automatic pass over the canvas, at most one per reported pair, each a new wire that passed the bus check between the hotspots of a reported pair with a selected gate; the outcome is undefined exactly when the dropped gate is a dynamic "%%_" gate and the pass makes a wire, which it hands to a create-gate command that was never made |
| CanvasEvents.DropJoinsFreeHotspotsOnce | src/gui/GUICanvas.cpp:1060-1107 | on a drop that reaches the pass, the automatic wires are those of the pass over the canvas at the mouse-up: each joins two hotspots free at the mouse-up, and no hotspot gets two |
| CanvasEvents.ToggleMirror | src/gui/GUICanvas.cpp:608-611 | the new mirror flag is "true" exactly when the old one was not "true", and is always "true" or "false" |
| CanvasEvents.ToggleMirrorTwice | src/gui/GUICanvas.cpp:608-611 | toggling a "true"/"false" flag twice gives it back |
| CanvasEvents.TurnParams | src/gui/GUICanvas.cpp:595-612 | Shift or Ctrl toggles only the mirror flag; otherwise only the angle is replaced by its next quarter turn; every other GUI parameter is kept |
| CanvasEvents.TurnCommands | src/gui/GUICanvas.cpp:565-618 | with Alt nothing is submitted; every command sets the turned GUI parameters of a hit gate that has no connected hotspot |
| CanvasEvents.FreeGatesTurned | src/gui/GUICanvas.cpp:565-618 | without Alt, every hit gate with no connected hotspot gets its turn command |
| CanvasEvents.ConnectedGateNotTurned | src/gui/GUICanvas.cpp:579-591 | a gate with any connected hotspot is never turned or mirrored |
| CanvasEvents.RightClick | src/gui/GUICanvas.cpp:525-621 | nothing happens while pasting, dragging or locked; a highlighted hotspot yields at most one command and none when it holds no wire; otherwise the hit gates are turned |
| CanvasEvents.RightClickOnWire | src/gui/GUICanvas.cpp:553-562 | a connected hotspot is disconnected when its wire has more than two connections and its wire is deleted otherwise |
| CanvasEvents.KeyDown | src/gui/GUICanvas.cpp:1146-1183 | Escape always returns to the no-drag state and discards a gate dragged in from the palette; Delete deletes the selection exactly when no drag is active and the canvas is unlocked; other keys leave the drag alone |
| CanvasEvents.EscapeIdempotent | src/gui/GUICanvas.cpp:1151-1183 | a second Escape finds no drag and discards nothing |
| Gates.DefaultHotspot | src/gui/guiGate.h:48-52 | a default hotspot has one bus line |
| Gates.NamedHotspot | src/gui/guiGate.h:54-57 | a named hotspot carries its name and the same single bus line as the default one |
| Gates.HotspotBBox | src/gui/guiGate.h:60-70 | the box is centred on the hotspot's world location and is the hotspot thickness wide and high |
| Gates.HotspotBBoxIsNeighbourhood | src/gui/guiGate.h:60-70 | a point is in the box exactly when it lies within half the thickness of the hotspot on both axes |
| Gates.HotspotList | src/gui/guiGate.h:253-261 | the keys are exactly the hotspot names, each mapped to that hotspot's world location |
| Gates.Declare | src/gui/guiGate.h:148-149 | the direction of the declared name is set, every other name's direction and the rest of the gate are untouched |
| Gates.LastDeclarationWins | src/gui/guiGate.h:148-149 | declaring a name twice equals declaring it once with the second direction |
| Gates.IsConnectionInput | src/gui/guiGate.h:234 | the recorded direction of a declared name, and false for a name never declared |
| Gates.SetLogicParam | src/gui/guiGate.h:144 | the value is stored under the name, every other logic parameter and the rest of the gate are unchanged |
| Gates.SetGUIParam | src/gui/guiGate.h:140-142 | the value is stored under its name as a GUI parameter; every other GUI parameter and every other field of the gate is unchanged |
| Gates.ReadParam | src/gui/guiGate.h:142-145 | reading a present name gives its value and changes nothing; an absent name reads as "" and is inserted with "" |
| Gates.GetLogicParam | src/gui/guiGate.h:145 | gives the stored value, or "" for an absent name, and no logic parameter's value changes |
| Gates.GetGUIParam | src/gui/guiGate.h:142 | gives the stored value, or "" for an absent name, and no GUI parameter's value changes |
| Gates.SetThenGetLogicParam | src/gui/guiGate.h:144-145 | a stored logic parameter reads back as stored and the read changes nothing |
| Gates.ReadParamIdempotent | src/gui/guiGate.h:142-145 | a second read of the same name gives the same value and the same map |
| GateTypes.GateName | src/gui/GUICanvas.cpp:1719-1738 | empty exactly for an unknown gate kind; otherwise the kind's letter, then the index character, and the input count in decimal at the end |
| GateTypes.GetGate | src/gui/GUICanvas.cpp:1716-1739 | fails exactly when GATE_TYPE or N_INPUTS is absent; otherwise names the kind with the input count converted by atoi to unsigned long |
| GateTypes.IndexIsHexOfPredecessor | src/gui/GUICanvas.cpp:1722-1725 | for 1 to 16 inputs the index character is the upper-case hexadecimal digit of the input count minus one |
| GateTypes.GetGateOfCount | src/gui/GUICanvas.cpp:1716-1739 | a known gate kind with a decimal count of 1 to 16 inputs gets the name letter, hex digit of count minus one, "_S", kind, count |
| GateTypes.GateNameInjective | src/gui/GUICanvas.cpp:1722-1737 | a non-empty gate name determines both the gate kind and the input count |
| GateTypes.LatchName | src/gui/GUICanvas.cpp:1746-1772 | non-empty exactly for the SR, SR-controlled and D latch types; the name ends in "_LOW" exactly when the level that type uses is low |
| GateTypes.LatchNameInjective | src/gui/GUICanvas.cpp:1746-1772 | a latch name determines the latch type and every level that type uses |
| GateTypes.GetLatch | src/gui/GUICanvas.cpp:1741-1773 | fails exactly when one of the three parameters is absent; otherwise the latch name for the type and the two levels |
| GateTypes.FlipFlopName | src/gui/GUICanvas.cpp:1781-1807 | the first letter tells D, JK or other, the second the preset/clear variant and level, and the name ends in "_NT" exactly on a falling clock edge |
| GateTypes.FlipFlopNameInjective | src/gui/GUICanvas.cpp:1784-1805 | a flip-flop name determines the flip-flop type, the clock edge and the variant letter |
| GateTypes.GetFlipFlop | src/gui/GUICanvas.cpp:1775-1809 | fails exactly when one of the four parameters is absent; otherwise the flip-flop name for them |
| GateTypes.TagArguments | src/gui/GUICanvas.cpp:1671-1704 | an absent size parameter throws naming it, looked up among the logic parameters for the CMB and FSM blocks and among the GUI parameters otherwise; a wire's argument is its LENGTH, and a CMB block's is its input and output bit counts joined by "X" |
| GateTypes.TagArgumentsSources | src/gui/GUICanvas.cpp:1666-1704 | the wiring kinds' type arguments depend only on the GUI parameters, and the CMB and FSM blocks' only on the logic parameters |
| GateTypes.ReplaceType | src/gui/GUICanvas.cpp:1666-1704 | a tagged kind's type is its tag followed by its size parameters; gate, latch and flip-flop kinds use the three builders; every other kind gives "" |
| GateTypes.ReplaceGate | src/gui/GUICanvas.cpp:1664-1705 | nothing is created exactly when the type name is empty; an absent parameter is an error |
| GateTypes.TaggedKindsDistinct | src/gui/GUICanvas.cpp:1671-1704 | two different tagged kinds never produce the same type name |
| PldMap.LayoutOf | src/gui/GUICanvas.cpp:1822-1849 | a PROM has only an OR plane of one line per output and a column per input combination; a PAL has only an AND plane of one row per product term of each output, twice the inputs wide; a PLA has both |
| PldMap.ScanLines | src/gui/GUICanvas.cpp:1855-1896 | the scan succeeds exactly when the map has only '0', '1' and line breaks and every non-empty line has its plane's width; it then gives the digits without line breaks and the number of lines; a refusal for a character means the map has some other character, and a refusal for a line length means some line has the wrong width |
| PldMap.CheckConnections | src/gui/GUICanvas.cpp:1852-1918 | a map is accepted exactly when it is empty, or has only '0'/'1' and line breaks, lines of the right widths, a line count the device allows and as many digits as both planes hold; what is stored has the line breaks removed; a refused map gets the message of the first check it fails, in the order characters and line widths, line count, total length (a map whose only fault is its characters gets the character message, and one whose only fault is a line width the line-length message) |
| GateStructs.PldLayout | src/gui/GUICanvas.cpp:1818-1850 | an absent PLD_TYPE, INPUT_BITS or OUTPUT_BITS throws naming the first one absent, in that order; with all three, 64 or more input bits (after atoi into unsigned long) is undefined; otherwise a PLD other than a PROM without OR_INPUTS throws, and the result is the device kind from PLD_TYPE with the layout of that kind for the parsed bit counts and, except for a PROM, the parsed OR_INPUTS |
| GateStructs.PldLayoutReadsFourKeys | src/gui/GUICanvas.cpp:1818-1823 | setting any parameter other than the four the layout reads leaves the layout or its error unchanged |
| GateStructs.CheckPld | src/gui/GUICanvas.cpp:1818-1920 | accepted exactly when the layout is defined and the connection map passes its check; an accepted map is stored back without line breaks and a refused one changes nothing; a layout failure is reported as the layout's own throw or undefined outcome, a missing CONNECTIONS throws on that key, and a map that fails its check is refused with one of the four map messages |
| GateStructs.CountUsed | src/gui/GUICanvas.cpp:1923-1928 | succeeds exactly when G1..Gk are all present, and counts zero exactly when all of them are "0" |
| GateStructs.CheckGates | src/gui/GUICanvas.cpp:1922-1933 | a gates block is accepted exactly when G1..G8 are all present and at least one of them is not "0" |
| GateStructs.ReadInputNames | src/gui/GUICanvas.cpp:1941-1966 | succeeds exactly when a '-' mark appears only where NO_LINK_INPUT is present and not "true" and the names (marks removed, empty ones skipped) are all distinct; the names come out in order |
| GateStructs.FirstUnknown | src/gui/GUICanvas.cpp:1984-2009 | none exactly when every term names an input, plainly or after a '/'; otherwise a term that names none |
| GateStructs.CheckGate | src/gui/GUICanvas.cpp:1978-2021 | one gate passes exactly when it is present and, when not empty, has at least one term and every term names an input; it is in use exactly when not empty |
| GateStructs.CheckTerms | src/gui/GUICanvas.cpp:1975-2022 | passes exactly when every gate G1..Gk passes, and counts zero exactly when all of them are empty |
| GateStructs.GatesVerdict | src/gui/GUICanvas.cpp:1967-2026 | accepted exactly when there are 1 to 16 input names, every gate's terms name inputs and some gate is in use |
| GateStructs.InputsVerdict | src/gui/GUICanvas.cpp:1941-2026 | accepted exactly when the input names are valid and the gate checks on those names accept |
| GateStructs.CheckCircuit | src/gui/GUICanvas.cpp:1934-2027 | a circuit block is accepted exactly when its output name is present, its input names are valid and distinct, there are 1 to 16 of them, and its gates are valid; the output name is stored without spaces even when the block is refused |
| GateStructs.CreateGatesStruct | src/gui/GUICanvas.cpp:1814-2038 | a wires block is always accepted; the PLD, gates and circuit blocks get their own checks, the PLD block with the parameters it stores and the kind of its refusal (the layout's, a throw on CONNECTIONS, or a refused map); any other kind is refused with "Incorrect Gate" |
| CircuitParse.VersionNumber | src/gui/CircuitParse.cpp:67-68 | the version number is the prefix of the version string up to (not including) its first space, or the whole string when it has none |
| CircuitParse.NewerVersionWarning | src/gui/CircuitParse.cpp:62-85 | the file warns exactly when its version number (the part before the first space) sorts after the build's under string comparison; an equal or older version number never warns |
| CircuitParse.DateDoesNotMatter | src/gui/CircuitParse.cpp:64-68 | a date after the version number never changes whether the file warns |
| CircuitParse.OwnVersionNoWarning | src/gui/CircuitParse.cpp:62-85 | a file carrying this build's own version, with or without a date after a space, never warns |
| CircuitParse.WarningIsOneWay | src/gui/CircuitParse.cpp:69 | of two different version numbers exactly one warns when loaded by the other (the comparison is lexicographic) |
| CircuitParse.CurrentType | src/gui/CircuitParse.cpp:150-160 | the five legacy types get their current names and every other type is unchanged; no result is itself a legacy type |
| CircuitParse.CurrentTypeIdempotent | src/gui/CircuitParse.cpp:150-160 | renaming a renamed type changes nothing |
| CircuitParse.InputHotspotName | src/gui/CircuitParse.cpp:186-189 | an input hotspot name is upper-cased and ENABLE_0 becomes OUTPUT_ENABLE |
| CircuitParse.OutputHotspotName | src/gui/CircuitParse.cpp:207-208 | an output hotspot name is only upper-cased, character by character |
| CircuitParse.RenameConnectors | src/gui/CircuitParse.cpp:180-208 | every connector of a gate keeps its wire IDs and position and gets its name normalised as an input or an output name |
| CircuitParse.HotspotNamesIdempotent | src/gui/CircuitParse.cpp:186-208 | normalising a normalised hotspot name changes nothing, for inputs and outputs |
| CircuitParse.ParseParam | src/gui/CircuitParse.cpp:219-239 | library-owned names are never kept; PULSE_WIDTH is always a logic parameter and every other name keeps the kind of its tag; the value is shorter than the line |
| CircuitParse.ParseParamOfLine | src/gui/CircuitParse.cpp:219-239 | a line of a name, a space and a value reads back as exactly that name and value, unless the library owns the name |
| CircuitParse.ParseParamNameOnly | src/gui/CircuitParse.cpp:236 | a name with nothing after it makes the loader throw |
| CircuitParse.ParseParams | src/gui/CircuitParse.cpp:218-240 | the kept parameters are at most as many as the lines and none has a library-owned name |
| CircuitParse.ReadGate | src/gui/CircuitParse.cpp:150-239 | a read gate record carries the renamed type, its ID, its input and output hotspots with normalised names, and no library-owned parameter |
| CircuitParse.WithDefaults | src/gui/CircuitParse.cpp:336-351 | the file's parameters come first, unchanged; each library default whose name no file parameter has is appended as a logic parameter with the library's value; the names are exactly those of the file and of the defaults |
| CircuitParse.DefaultsApplyOnlyWhenAbsent | src/gui/CircuitParse.cpp:336-358 | a name the file gives keeps the file's GUI and logic values; a library default the file does not name ends up with the library's value; GUI parameters never change |
| CircuitParse.Resolve | src/gui/CircuitParse.cpp:300-314 | the library gate when there is one; otherwise, for an "@@_" type only, the gate dynamic creation provides |
| CircuitParse.ParseGateToSend | src/gui/CircuitParse.cpp:283-432 | with no library nothing is done; an unknown type is recorded as not found and placed as "@@_NOT_FOUND" with no wires, no logic parameters and only ORIGINAL_NAME holding the original type; a known type that the factory creates is placed with its own hotspot wires and with the file's parameters merged with the library defaults; the messages sent to the core are the create message (only for a gate with a logic type), then one parameter message per logic parameter, then the hotspot settings, all carrying the record's ID |
| CircuitParse.CreateMessages | src/gui/CircuitParse.cpp:316-317 | a create message is sent exactly when the library gate has a logic type, and it carries that type and the record's ID |
| CircuitParse.ParamMessages | src/gui/CircuitParse.cpp:353-358 | one set-parameter message per logic parameter, in order, for the record's ID; GUI parameters send nothing |
| CircuitParse.CoreAgreesOnLogicParams | src/gui/CircuitParse.cpp:353-358 | after the parameter messages the core's last value for every name is the gate's logic value for that name, and absent names are never set |
| CircuitParse.HotspotMessages | src/gui/CircuitParse.cpp:362-409 | every message for one hotspot is a hotspot setting that applies to it (inversion and pulls for the side the hotspot is on, forced junction and E_INPUT when given) with the library's value |
| CircuitParse.HotspotMessagesComplete | src/gui/CircuitParse.cpp:362-409 | every setting that applies to a hotspot is sent for it |
| CircuitParse.HotspotsMessages | src/gui/CircuitParse.cpp:360-410 | the hotspot messages of a gate are hotspot settings for its ID, each on the side of the hotspot it names |
| CircuitParse.HotspotsMessagesComplete | src/gui/CircuitParse.cpp:360-410 | every setting that applies to any hotspot of the gate is sent |
| CircuitParse.LoadedCoreAgrees | src/gui/CircuitParse.cpp:316-410 | for a gate that was found, the core's last value for every parameter name equals the logic value the placed gate holds |
| CircuitParse.KeepConnections | src/gui/CircuitParse.cpp:506-517 | exactly the connections to gates not recorded as not found are kept |
| CircuitParse.ApplyWire | src/gui/CircuitParse.cpp:536-539 | the IDs and segment map are applied to the wire under the first ID only if it exists; otherwise, and for every other wire, nothing changes |
| CircuitParse.ApplyWireIdempotent | src/gui/CircuitParse.cpp:536-539 | applying the same wire record twice is applying it once |
| SetParams.FromMaps | src/gui/command/cmdSetParams.cpp:17-51 | for an existing gate, the old lists are the gate's current GUI and logic parameters and the new lists are the given maps, empty for a null map; for a missing gate no command is built |
| SetParams.ToString | src/gui/command/cmdSetParams.cpp:142-157 | the text starts with "setparams " and ends with the GUI entries, then the logic entries, each "name value<TAB>" in key order |
| SetParams.FromString | src/gui/command/cmdSetParams.cpp:53-74 | a command read from text is marked as such, its old lists equal its new lists, and its gate ID fits an unsigned long |
| SetParams.HeaderRoundTrip | src/gui/command/cmdSetParams.cpp:59 | the header written by toString reads back as the gate ID and both counts, leaving the stream at the entries |
| SetParams.ReadParamsOfEntries | src/gui/command/cmdSetParams.cpp:60-73 | the entries toString writes read back into exactly the map they came from |
| SetParams.ToStringRoundTrip | src/gui/command/cmdSetParams.cpp:53-157 | reading the text of toString gives back the gate ID and both new lists, when names are non-empty words without whitespace and values contain no TAB |
| SetParams.FromStringUndoIsDo | src/gui/command/cmdSetParams.cpp:59-73 | a command read from text has old lists equal to its new lists |
| SetParams.Silenced | src/gui/command/cmdSetParams.cpp:79-84 | exactly the names of the dialog's FILE_IN and FILE_OUT logic parameters |
| SetParams.Messages | src/gui/command/cmdSetParams.cpp:85-93 | one message per logic parameter set on the gate, except the silenced ones |
| SetParams.SetAll | src/gui/command/cmdSetParams.cpp:85-99 | every given logic and GUI parameter is set on the gate, every other parameter and the rest of the gate are kept |
| SetParams.Apply | src/gui/command/cmdSetParams.cpp:76-99 | for a missing gate false and nothing changes; otherwise only that gate changes, by setting the lists, and the messages are exactly those for the unsilenced logic parameters |
| SetParams.Do | src/gui/command/cmdSetParams.cpp:76-108 | succeeds exactly when the gate exists, and then every new logic and GUI parameter holds its new value |
| SetParams.Undo | src/gui/command/cmdSetParams.cpp:110-140 | succeeds exactly when the gate exists, and then every snapshotted parameter holds its old value |
| SetParams.UndoAfterDo | src/gui/command/cmdSetParams.cpp:17-140 | after Do then Undo every parameter the gate had is restored, and a parameter only Do introduced keeps Do's value |
| SetParams.SetPointers | src/gui/command/cmdSetParams.cpp:159-165 | the gate ID becomes its image under the translation map (0 when it has none), and nothing else changes |
| ParamDialog.Current | src/gui/paramDialog.cpp:50-51 | the parameter's current value from the GUI or the logic map as the parameter says, "" when absent, and no readable value of the gate changes |
| ParamDialog.InitialSelection | src/gui/paramDialog.cpp:98-105 | the selected choice is the last one equal to the current value, or the first when none is |
| ParamDialog.InitialControl | src/gui/paramDialog.cpp:46-110 | an INT control starts at the lower bound for an empty value and at the int read from it otherwise; text controls show the value; a check box is ticked exactly for "true"; a radio box selects the matching choice or the first; file parameters only get a button |
| ParamDialog.IntValueReopens | src/gui/paramDialog.cpp:53-58 | the decimal text OK stores for an INT reads back as the same number when the dialog opens again |
| ParamDialog.ValueOf | src/gui/paramDialog.cpp:238-243 | a check box gives "true" or "false" as it is ticked, a radio box whose selection is one of its choices gives that choice, a file button gives "" |
| ParamDialog.Collect | src/gui/paramDialog.cpp:193-246 | refused exactly when some control is out of range or an empty JUNCTION_ID, reporting the first such; otherwise each value goes to the GUI or logic list as its parameter says, and a later parameter of the same name wins |
| ParamDialog.Compare | src/gui/paramDialog.cpp:265-278 | reports a difference exactly when some listed value differs from the gate's current one or the logic list holds PULSE_WIDTH; the reads change no readable value |
| ParamDialog.CompareGui | src/gui/paramDialog.cpp:266-270 | the walk over the GUI list stays "same" exactly when every listed value equals the gate's GUI value, and its reads change no readable value |
| ParamDialog.CompareLogic | src/gui/paramDialog.cpp:271-277 | the walk over the logic list stays "same" exactly when every listed value equals the gate's logic value and none is PULSE_WIDTH, and its reads change no readable value |
| ParamDialog.NoDifferenceNoChange | src/gui/paramDialog.cpp:264-279 | when nothing differs, setting the lists would change no readable parameter, so skipping the command loses nothing |
| ParamDialog.OnOK | src/gui/paramDialog.cpp:185-284 | a refused control applies nothing; a "%%_" gate gets DYNAMIC_GATE="true" and all values set directly; any other gate gets a submitted command exactly when some value differs or PULSE_WIDTH is present, and its parameters are not changed by OK itself |
| Keypad.Hex32 | src/gui/gate/guiGateKEYPAD.cpp:50-52 | eight upper-case hex digits whose value is the number's 32-bit two's-complement pattern (the number mod 2^32) |
| Keypad.CurrentValue | src/gui/gate/guiGateKEYPAD.cpp:50-55 | the value text exists exactly when the width in nibbles (bits/4, truncated) is between 0 and 8; it is then that many upper-case hex digits, the low digits of the 32-bit pattern; otherwise `substr` throws `std::out_of_range` |
| Keypad.SelectBox | src/gui/gate/guiGateKEYPAD.cpp:56-65 | the box of the value's own key when that key exists, otherwise the first key box in map order; whatever it picks is an existing key box |
| Keypad.NumericTexts | src/gui/gate/guiGateKEYPAD.cpp:45-54 | the value text is the new text when OUTPUT_NUM is being set and the stored one otherwise, likewise the width for OUTPUT_BITS; the reads change no readable parameter |
| Keypad.ShowValue | src/gui/gate/guiGateKEYPAD.cpp:53-72 | fails exactly when the value text cannot be cut; otherwise shows the box text of the value's own key when there is one, and keeps the previous box when the gate has no key boxes |
| Keypad.SetLogicParam | src/gui/gate/guiGateKEYPAD.cpp:43-76 | other names are stored as the base gate stores them; a finished call stores the value under its name and changes no other parameter, key or gate field; a throw reports `std::out_of_range` and keeps the previous value box |
| Keypad.New | src/gui/gate/guiGateKEYPAD.cpp:11-17 | a constructed keypad that finishes has OUTPUT_NUM "0" and clicked value "0" |
| Keypad.NewKeypad | src/gui/gate/guiGateKEYPAD.cpp:11-17 | on a gate with no parameters the constructor finishes, leaves OUTPUT_NUM "0" and an empty OUTPUT_BITS (inserted by the read), and no value box |
| Keypad.FirstHit | src/gui/gate/guiGateKEYPAD.cpp:80-104 | the key box found is hit and no key box before it in map order is; none is found exactly when no key box is hit |
| Keypad.ReadKey | src/gui/gate/guiGateKEYPAD.cpp:106-109 | the hex read of a key suffix yields nothing exactly when the suffix is blank, and otherwise a value within the range of `int` |
| Keypad.ReadKeyWrapped | src/gui/gate/guiGateKEYPAD.cpp:106-109 | the corrected read: nothing exactly when the suffix is blank, otherwise a value within the range of `int` |
| Keypad.ReadKeyOfHex | src/gui/gate/guiGateKEYPAD.cpp:106-109 | a suffix of at most eight hex digits reads, corrected, as its 32-bit pattern; both reads agree when the value fits an `int`, and the read as written gives INT_MAX when it does not |
| Keypad.Press | src/gui/gate/guiGateKEYPAD.cpp:105-116 | a suffix that reads as nothing leaves the value undefined; a finished press records the suffix as the clicked value, stores the number in decimal as OUTPUT_NUM and sends exactly that as a SET GATE PARAM message, and a message is sent exactly when the press finishes |
| Keypad.CheckClickAsWritten | src/gui/gate/guiGateKEYPAD.cpp:79-121 | a click that hits no key box changes nothing and sends nothing, and only such a click does |
| Keypad.CheckClick | src/gui/gate/guiGateKEYPAD.cpp:79-121 | the corrected click: a click that hits no key box changes nothing and sends nothing, and only such a click does |
| Keypad.CurrentOfKey | src/gui/gate/guiGateKEYPAD.cpp:50-55 | a key of at most eight hex digits, read as a 32-bit pattern and written back at the keypad's width, gives the key again |
| Keypad.SetOutputNum | src/gui/gate/guiGateKEYPAD.cpp:43-76 | setting OUTPUT_NUM to a decimal number whose value text names an existing key finishes and makes that key's box the value box |
| Keypad.ClickSelectsKey | src/gui/gate/guiGateKEYPAD.cpp:105-116 | with the corrected read, a click on the key of `s` on a keypad of matching width finishes, records `s`, shows that key's box and sends the key's 32-bit value |
| Keypad.ClickClampsHighKeys | src/gui/gate/guiGateKEYPAD.cpp:105-116 | as written, a click on any eight-digit key above 7FFFFFFF sends 2147483647, whose hex text is not the key clicked |
| Settings.ExeDir | src/gui/MainApp.cpp:76-84 | the executable's directory is a prefix of `argv[0]` that is empty or ends with a separator, and no separator follows it |
| Settings.ExeDirIsLongest | src/gui/MainApp.cpp:76-84 | no longer prefix ending with a separator exists: the directory is the longest such prefix |
| Settings.ExeDirOfPath | src/gui/MainApp.cpp:76-84 | a directory followed by a separator-free file name gives the directory back |
| Settings.ValueOf | src/gui/MainApp.cpp:107-109 | the text after the line's first '=' (the line is that text's prefix, '=' and the text), or the whole line when it has no '=' |
| Settings.ValueOfSettingLine | src/gui/MainApp.cpp:107-109 | the value of a `key=value` line whose key has no '=' is the value, including any '=' it contains |
| Settings.Defaults | src/gui/MainApp.cpp:91-102 | with no settings file the window is 600x600 at (20,20), a step is 25 ms, the refresh rate is 60, the files are under the executable's directory and the last directory is untouched |
| Settings.CheckRefreshRate | src/gui/MainApp.cpp:155 | the refresh rate is always positive: a positive rate is kept and any other becomes 60 |
| Settings.FitScreen | src/gui/MainApp.cpp:183-190 | a window that fits the screen is kept; one that does not is moved to (20,20) and sized 600x600; no other setting changes |
| Settings.FitScreenFits | src/gui/MainApp.cpp:183-190 | on a screen of at least 620x620 the checked window fits, and checking it again changes nothing |
| Settings.ReadSettings | src/gui/MainApp.cpp:104-179 | the file names are under the executable's directory, the refresh rate is positive, and each number read is in its type's range unless it was left as it was |
| Settings.LoadSettings | src/gui/MainApp.cpp:72-193 | `timeStepMod` equals the time per step, the refresh rate is positive, a missing file gives the defaults, and a loaded window fits the screen or is reset to 600x600 at (20,20) |
| Settings.ReadSettingsOfWritten | src/gui/MainApp.cpp:104-179 | a file written one `key=value` line per setting, in the order of the loader, is read back setting for setting, with the file names under the executable's directory |
| Settings.LoadWritten | src/gui/MainApp.cpp:72-193 | loading such a file, on a screen the window fits, gives back the written settings with `timeStepMod` equal to the time per step |

## Left out

- OpenGL drawing, wx widgets, dialogs and message boxes: user interface with no logic of its own here.
- Float geometry has no exact model and is replaced by parameters:
  - hover and hit tests, and the keypad's box-contains test (the `hit` predicate);
  - the rotation of `angle` (the `rotate` function);
  - the FLOAT range check of the dialog (`floatInRange`);
  - the wire-connection radius;
  - snapping, zoom and pan.
- The boolean settings `wireConnVisible` and `gridlineVisible`: they are read with `operator>>` into `bool` and are not kept in `Settings.AppSettings`.
- Settings.LoadSettings: the contents of the settings file and the screen size are parameters (file I/O and `wxScreenDC`).
  - `prior` stands for what `appSettings` held before, since fields a failed read leaves alone keep that value.
  - `left + width` is computed without `int` overflow.
- The message queue between the editor and the simulation core, and its locking: concurrency.
- The XML tag reader, `saveCircuit` and the re-parse flow have no visible code, so no whole-file round trip is stated. `CircuitParse` starts from already extracted records.
- Library lookup, `CreateDynamicGate`, the gate factory and `removeSpaces` are parameters. `toupper` is ASCII upper-casing.
- `validateBusLines` is the parameter `valid`, and `getNextAvailableWireID` is the parameter `nextId` (the i-th fresh ID).
- The bodies of `cmdConnectWire`, `cmdCreateWire`, `cmdMergeWire`, `cmdDisconnectWire`, `cmdDeleteWire` and `cmdMoveSelection` are not part of this model: commands are kept as tagged values.
- Gates.IsConnectionInput and `getConnection` read through `operator[]` in the source, which also inserts an entry for an absent name. The model reads without inserting, because nothing visible observes those entries.
- Gates.SetGUIParam: the body of `setGUIParam` is in guiGate.cpp, which is not part of this model. It is modelled as the plain assignment that its declaration documents.
- SetParams.Do and SetParams.Undo use the base `setLogicParam`. The overrides of derived gates, such as the keypad's, are modelled separately in `Keypad` and are not dispatched to.
- CircuitParse.ParseGateToSend also applies the logic parameters with the base `setLogicParam`. The call at CircuitParse.cpp:355 is virtual and reaches the keypad's override (guiGateKEYPAD.cpp:43-76), so for a KEYPAD gate the model does not promise the override's outcomes: an OUTPUT_BITS whose quarter, truncated, lies outside 0 to 8 (such as "40") throws `std::out_of_range` after the create message and the earlier parameter messages have gone out, and an OUTPUT_NUM of only spaces reads an uninitialised `int`. `Keypad.SetLogicParam` states those outcomes for one call; the loader does not dispatch to it, because which gates override the setter is decided by the gate factory, which is not part of this model.
- Connection.GateGateCommand, and CanvasEvents.ConnectCommand through it, require the first hotspot to have at least one bus line in every branch. The source reads the width only when it makes a new wire, that is, when neither hotspot is connected; a hotspot without bus lines would there have its first new ID read from an empty list.
- SetParams.Do and SetParams.Undo do not model the oscilloscope menu refresh, which is user interface (`Undo` refreshes without the null check `Do` makes).
- CircuitParse.ApplyWire requires a non-empty ID list, since `ids.front()` of an empty list is undefined behaviour.
- GateStructs.PldLayout: a PLD with 64 or more input bits is `Undefined`. The source sizes the table with `pow(2, inBits)`, a `double`, and converting a value of 2^64 or more to `unsigned long` is undefined behaviour.
- CircuitParse.ParseGateToSend does not model the connect messages for the hotspot wires (CircuitParse.cpp:412-431), because the body of `cmdConnectWire` is not part of this model. When the library has no "@@_NOT_FOUND" gate either, the model sends no create message, taking a failed `getGate` to leave the default library gate, whose logic type is empty.
- CircuitParse.NewerVersionWarning decides only whether the warning appears. The loader goes on reading the `circuit` tag after it (CircuitParse.cpp:79-85), but the loader's reading flow is not part of this model, so no member states that the load continues.
- GateStructs.ReadInputNames treats an empty last token of `INPUT_NAMES` as no input, because the source then reads `inputName[-1]`.
- ParamDialog.InitialControl requires one of the known parameter kinds. For any other kind the source adds no control, which leaves the controls out of step with the parameters.
- ParamDialog.ValueOf gives "" for a radio selection past the last choice. The dialog never builds such a control: a radio box is made with a selection among its choices.
- ParamDialog: an OPTION parameter without choices is an error, because there is no selection to read. The clamping a wx spin control applies to its own value is not modelled.
- The dialog's Load and Save buttons (file dialogs) are left out, and so is `validateData`, which always accepts.
- WireRegistry.Remove requires that the ID names a wire and not a null placeholder, since the source dereferences the entry.
- The `int busLineId` narrowing inside `removeWire` is not modelled: IDs are unbounded.
- Keypad: the value box stores the box's text, and the float parse of that text for drawing is left out.

- CanvasEvents.MouseUp models the wiring decisions of `OnMouseUp` only. Its other submits are left out: the move of a selection (`cmdMoveSelection`, GUICanvas.cpp:836-846, and the empty move made at 1088-1092 when the pass makes a wire and no move was saved), the wire-segment drag (871-875), the new gate's `cmdCreateGate` and the dynamic-gate dialog (878-906), the toggle click's message and the parameter dialog on a clicked gate (921-957), of which only the double-click's ending of the drag is modelled, with the gate's `checkClick` verdict and the size of `preMove` as inputs, and the paste block (1110-1115). Which command the automatic wires are attached to is not modelled, and the submit of the connect-branch command is not applied to the canvas.
- CanvasEvents.AutoConnect takes the overlapping hotspot pairs in the collision pass's order as a parameter, since the collision geometry is float. It skips a pair whose gates or first hotspot are not on the canvas, and a pair whose first hotspot has no bus lines. The collision pass only reports hotspots of gates on the page, so the first does not arise in the source; in the second the hotspot factory would read the first of an empty list of wire IDs. `createwire->Do()` is the parameter `apply`; what it does to a page holding the wire's two gates is a hypothesis (`AppliesWires`) of the lemmas about the pass and not a fact of the model, since the body of `cmdCreateWire::Do` is not part of this model. `nextId(k)` is the ID the k-th call of `getNextAvailableWireID` during the pass returns.

## Findings

| source | as written | input that shows it | evidently intended | confidence | as-written member | corrected member |
|---|---|---|---|---|---|---|
| src/gui/gate/guiGateKEYPAD.cpp:105-112 | the clicked key's hex suffix is read with `iss >> setbase(16)` into a signed `int`, which clamps any value above 7FFFFFFF to INT_MAX | a keypad with OUTPUT_BITS "32" and a key KEYPAD_BOX_80000000 (or any eight-digit key above 7FFFFFFF): the click sends 2147483647, and the value box becomes that of KEYPAD_BOX_7FFFFFFF or the first box | the key's 32-bit two's-complement value is sent, and the clicked key's own box is shown, as it is for every smaller key | not executed | Keypad.ClickClampsHighKeys | Keypad.ClickSelectsKey |

=== FILE: canvas_events.dfy ===
/** The canvas's reactions to the mouse and the keyboard that decide which
    command, if any, is submitted: the end of a connect-drag, the wires
    made automatically when dropped gates overlap, the right
    click on a hotspot or on gates, and the Delete and Escape keys. The
    mouse geometry (what the pointer is over) arrives as already-decided
    inputs: the highlighted hotspot, the hovered wire, the gates hit. */
module CanvasEvents {
  import opened Wrappers
  import opened ParamMap
  import opened Gates
  import opened WireRegistry
  import opened Connection
  import Strings

  /** `DRAG_NONE`, `DRAG_SELECT`, `DRAG_SELECTION`, `DRAG_CONNECT`,
      `DRAG_WIRESEG`, `DRAG_NEWGATE`. */
  datatype DragState = DragNone | DragSelect | DragSelection | DragConnect | DragWireSeg | DragNewGate

  /** Where a connect-drag started: a gate's hotspot or a wire. */
  datatype Source = FromHotspot(gate: GateId, hotspot: string) | FromWire(wire: WireId)

  /** What is under the pointer when the button goes up: the highlighted
      hotspot (`hotspotHighlight` non-empty, on `hotspotGate`) and the
      hovered wire (`drawWireHover`, `wireHoverID`). */
  datatype Hover = Hover(hotspot: Option<(GateId, string)>, wire: Option<WireId>)

  /** Every connected hotspot holds a wire that is in the list under its
      own ID: what the connection commands keep true of a page. */
  predicate WellFormed(c: Canvas) {
    forall g, hs :: g in c.gates && hs in c.gates[g].connections ==>
      AttachedTo(c, g, hs, c.gates[g].connections[hs])
  }

  /** A hotspot a drag can start or end on. */
  predicate Endpoint(c: Canvas, g: GateId, hs: string) {
    HasHotspot(c, g, hs) && c.gates[g].BusLines(hs) >= 1
  }

  /** A wire ID whose list entry is a wire. */
  predicate LiveWire(c: Canvas, w: WireId) {
    w in c.wires && c.wires[w].Some?
  }

  /** What the mouse-up code dereferences: the source and both targets. */
  predicate ConnectReady(c: Canvas, src: Source, hover: Hover) {
    WellFormed(c)
    && (match src
        case FromHotspot(g, hs) => Endpoint(c, g, hs)
        case FromWire(w) => LiveWire(c, w))
    && (hover.hotspot.Some? ==> Endpoint(c, hover.hotspot.value.0, hover.hotspot.value.1))
    && (hover.wire.Some? ==> LiveWire(c, hover.wire.value))
  }

  predicate HasTarget(hover: Hover) {
    hover.hotspot.Some? || hover.wire.Some?
  }

  /** The wire at the source end: the dragged wire, or the source
      hotspot's wire if it has one. */
  function SourceWire(c: Canvas, src: Source): Option<WireId>
    requires src.FromHotspot? ==> src.gate in c.gates
  {
    match src
    case FromHotspot(g, hs) => c.gates[g].Connection(hs)
    case FromWire(w) => Some(w)
  }

  /** The wire at the target end: the highlighted hotspot's wire if a
      hotspot is highlighted (it wins over a hovered wire), else the
      hovered wire. */
  function TargetWire(c: Canvas, hover: Hover): Option<WireId>
    requires hover.hotspot.Some? ==> hover.hotspot.value.0 in c.gates
  {
    if hover.hotspot.Some? then c.gates[hover.hotspot.value.0].Connection(hover.hotspot.value.1)
    else hover.wire
  }

  lemma ConnectedIsLive(c: Canvas, g: GateId, hs: string)
    requires WellFormed(c) && g in c.gates && c.gates[g].IsConnected(hs)
    ensures LiveWire(c, c.gates[g].connections[hs])
  {
  }

  /** The connect branch of the mouse-up handler. Two wire ends give a
      merge of those wires; an end that is a free hotspot gives a connect
      or a new wire; no target gives nothing. */
  function ConnectCommand(c: Canvas, src: Source, hover: Hover,
                          nextId: nat -> WireId, valid: Command -> bool): (r: Option<Command>)
    requires ConnectReady(c, src, hover)
    ensures r.Some? ==> valid(r.value)
    ensures !HasTarget(hover) ==> r == None
    ensures HasTarget(hover) && SourceWire(c, src).Some? && TargetWire(c, hover).Some? ==>
      LiveWire(c, SourceWire(c, src).value) &&
      r == WireWireCommand(c, SourceWire(c, src).value, TargetWire(c, hover).value, nextId, valid)
    ensures (SourceWire(c, src).None? || TargetWire(c, hover).None?) && r.Some? ==>
      r.value.Connect? || r.value.Create?
    ensures r.Some? && r.value.Create? ==>
      src.FromHotspot? && hover.hotspot.Some? && SourceWire(c, src).None? && TargetWire(c, hover).None?
    ensures src.FromHotspot? && hover.hotspot.Some? && (SourceWire(c, src).None? || TargetWire(c, hover).None?) ==>
      r == GateGateCommand(c, src.gate, src.hotspot, hover.hotspot.value.0, hover.hotspot.value.1, nextId, valid)
    ensures src.FromHotspot? && hover.hotspot.None? && hover.wire.Some? && SourceWire(c, src).None? ==>
      r == GateWireCommand(c, src.gate, src.hotspot, hover.wire.value, valid)
    ensures src.FromWire? && hover.hotspot.Some? && TargetWire(c, hover).None? ==>
      r == GateWireCommand(c, hover.hotspot.value.0, hover.hotspot.value.1, src.wire, valid)
  {
    match src
    case FromHotspot(g1, hs1) =>
      var gate1 := c.gates[g1];
      if hover.hotspot.Some? then
        var (g2, hs2) := hover.hotspot.value;
        var gate2 := c.gates[g2];
        if !gate1.IsConnected(hs1) || !gate2.IsConnected(hs2) then
          GateGateCommand(c, g1, hs1, g2, hs2, nextId, valid)
        else
          ConnectedIsLive(c, g1, hs1);
          WireWireCommand(c, gate1.connections[hs1], gate2.connections[hs2], nextId, valid)
      else if hover.wire.Some? then
        if !gate1.IsConnected(hs1) then
          GateWireCommand(c, g1, hs1, hover.wire.value, valid)
        else
          ConnectedIsLive(c, g1, hs1);
          WireWireCommand(c, gate1.connections[hs1], hover.wire.value, nextId, valid)
      else None
    case FromWire(w) =>
      if hover.hotspot.Some? then
        var (g2, hs2) := hover.hotspot.value;
        var gate2 := c.gates[g2];
        if !gate2.IsConnected(hs2) then
          GateWireCommand(c, g2, hs2, w, valid)
        else
          WireWireCommand(c, w, gate2.connections[hs2], nextId, valid)
      else if hover.wire.Some? then
        if w != hover.wire.value then WireWireCommand(c, w, hover.wire.value, nextId, valid)
        else None
      else None
  }

  /** A highlighted hotspot is the target even when a wire is hovered too. */
  lemma HotspotTakesPriority(c: Canvas, src: Source, hover: Hover,
                             nextId: nat -> WireId, valid: Command -> bool)
    requires ConnectReady(c, src, hover) && hover.hotspot.Some?
    ensures ConnectCommand(c, src, hover, nextId, valid) ==
            ConnectCommand(c, src, hover.(wire := None), nextId, valid)
  {
  }

  /** A wire dragged onto itself submits nothing. */
  lemma WireOntoItself(c: Canvas, w: WireId, nextId: nat -> WireId, valid: Command -> bool)
    requires ConnectReady(c, FromWire(w), Hover(None, Some(w)))
    ensures ConnectCommand(c, FromWire(w), Hover(None, Some(w)), nextId, valid) == None
  {
  }

  // ---------------------------------------------------------------------
  // Connections made by dropping gates

  /** Hotspot `hs1` of gate `g1` lies on hotspot `hs2` of gate `g2`: one
      pair the collision pass reports after gates were dropped or moved,
      in the order of its nested walk over gates and hotspots. */
  datatype Overlap = Overlap(g1: GateId, hs1: string, g2: GateId, hs2: string)

  /** The automatic-connection pass so far: the canvas with every wire made
      so far applied to it, how many IDs `getNextAvailableWireID` has
      handed out, and the wires made, in order. */
  datatype Pass = Pass(canvas: Canvas, used: nat, made: seq<Command>)

  /** Both gates of the pair are on the canvas and the first hotspot is one
      a wire can start on: what the collision pass guarantees of a pair it
      reports. */
  predicate OnCanvas(c: Canvas, o: Overlap) {
    Endpoint(c, o.g1, o.hs1) && o.g2 in c.gates
  }

  /** A hotspot of a gate on the canvas that holds no wire. */
  predicate Free(c: Canvas, g: GateId, hs: string) {
    g in c.gates && !c.gates[g].IsConnected(hs)
  }

  /** The test the pass makes before asking the hotspot factory: neither
      hotspot holds a wire, and one of the two gates is selected. */
  predicate Joinable(c: Canvas, o: Overlap, selected: set<GateId>) {
    Free(c, o.g1, o.hs1) && Free(c, o.g2, o.hs2) && (o.g1 in selected || o.g2 in selected)
  }

  /** The command creates a wire between exactly the two hotspots of `o`. */
  predicate Joins(cmd: Command, o: Overlap) {
    cmd.Create? && |cmd.ids| >= 1
    && cmd.first == ConnectCmd(cmd.ids[0], o.g1, o.hs1)
    && cmd.second == ConnectCmd(cmd.ids[0], o.g2, o.hs2)
  }

  /** The two hotspots a new wire attaches (none for other commands). */
  function Ends(cmd: Command): set<(GateId, string)> {
    if cmd.Create? then {(cmd.first.gate, cmd.first.hotspot), (cmd.second.gate, cmd.second.hotspot)} else {}
  }

  /** One pair of the pass. A joinable pair is handed to the hotspot
      factory with the next unused IDs; a wire it gives is applied at once
      (`createwire->Do()`, the parameter `apply`) so that the following
      pairs see it. The factory draws its IDs even when the bus check then
      refuses the wire. */
  function JoinStep(p: Pass, o: Overlap, selected: set<GateId>, nextId: nat -> WireId,
                    valid: Command -> bool, apply: (Canvas, Command) -> Canvas): (r: Pass)
    ensures !(OnCanvas(p.canvas, o) && Joinable(p.canvas, o, selected)) ==> r == p
    ensures o.g1 == o.g2 && o.hs1 == o.hs2 ==> r == p
    ensures OnCanvas(p.canvas, o) && Joinable(p.canvas, o, selected) && !(o.g1 == o.g2 && o.hs1 == o.hs2) ==>
      r.used == p.used + p.canvas.gates[o.g1].BusLines(o.hs1)
    ensures r.made == p.made || (|r.made| == |p.made| + 1 && r.made[..|p.made|] == p.made)
    ensures r.made == p.made ==> r.canvas == p.canvas
    ensures r.made != p.made ==>
      var cmd := r.made[|p.made|];
      OnCanvas(p.canvas, o) && Joinable(p.canvas, o, selected) && Joins(cmd, o) && valid(cmd)
      && |cmd.ids| == p.canvas.gates[o.g1].BusLines(o.hs1)
      && (forall i :: 0 <= i < |cmd.ids| ==> cmd.ids[i] == nextId(p.used + i))
      && r.canvas == apply(p.canvas, cmd)
  {
    if OnCanvas(p.canvas, o) && Joinable(p.canvas, o, selected) then
      var n := p.canvas.gates[o.g1].BusLines(o.hs1);
      var ids := i => nextId(p.used + i);
      match GateGateCommand(p.canvas, o.g1, o.hs1, o.g2, o.hs2, ids, valid)
      case Some(cmd) => Pass(apply(p.canvas, cmd), p.used + n, p.made + [cmd])
      case None => if o.g1 == o.g2 && o.hs1 == o.hs2 then p else p.(used := p.used + n)
    else p
  }

  /** A joinable pair of two different hotspots always gets its wire when
      the bus check accepts it. */
  lemma JoinStepMakesWire(p: Pass, o: Overlap, selected: set<GateId>, nextId: nat -> WireId,
                          valid: Command -> bool, apply: (Canvas, Command) -> Canvas)
    requires OnCanvas(p.canvas, o) && Joinable(p.canvas, o, selected)
    requires !(o.g1 == o.g2 && o.hs1 == o.hs2)
    ensures var n := p.canvas.gates[o.g1].BusLines(o.hs1);
      var ids := seq(n, i requires 0 <= i < n => nextId(p.used + i));
      var cmd := Create(ids, ConnectCmd(ids[0], o.g1, o.hs1), ConnectCmd(ids[0], o.g2, o.hs2));
      valid(cmd) ==> JoinStep(p, o, selected, nextId, valid, apply).made == p.made + [cmd]
  {
    var n := p.canvas.gates[o.g1].BusLines(o.hs1);
    var ids := seq(n, i requires 0 <= i < n => nextId(p.used + i));
    assert FreshIds(n, i => nextId(p.used + i)) == ids;
  }

  /** The command is a new wire between the two hotspots of one of the
      reported pairs, one of whose gates is selected. */
  ghost predicate JoinsSome(cmd: Command, pairs: seq<Overlap>, selected: set<GateId>) {
    exists o :: o in pairs && Joins(cmd, o) && (o.g1 in selected || o.g2 in selected)
  }

  /** Every wire in `made` from index `from` on passed the bus check and
      joins one of the reported pairs. */
  ghost predicate MadeFrom(made: seq<Command>, from: nat, pairs: seq<Overlap>, selected: set<GateId>,
                           valid: Command -> bool) {
    forall k :: from <= k < |made| ==> valid(made[k]) && made[k].Create? && JoinsSome(made[k], pairs, selected)
  }

  /** `MadeFrom` carried back over one step that made at most the wire
      `mid[|made|]`, joining `o`. */
  lemma MadeFromBack(o: Overlap, pairs: seq<Overlap>, selected: set<GateId>, valid: Command -> bool,
                     made: seq<Command>, mid: seq<Command>, all: seq<Command>)
    requires |pairs| > 0 && o == pairs[0]
    requires |made| <= |mid| <= |made| + 1 && |mid| <= |all| && all[..|mid|] == mid && mid[..|made|] == made
    requires MadeFrom(all, |mid|, pairs[1..], selected, valid)
    requires |mid| > |made| ==>
      valid(mid[|made|]) && Joins(mid[|made|], o) && (o.g1 in selected || o.g2 in selected)
    ensures MadeFrom(all, |made|, pairs, selected, valid)
  {
    forall k | |made| <= k < |all|
      ensures valid(all[k]) && all[k].Create? && JoinsSome(all[k], pairs, selected)
    {
      if k < |mid| {
        assert all[k] == mid[k];
        assert o in pairs;
      } else {
        assert JoinsSome(all[k], pairs[1..], selected);
        var o' :| o' in pairs[1..] && Joins(all[k], o') && (o'.g1 in selected || o'.g2 in selected);
        assert o' in pairs;
      }
    }
  }

  /** The pass over all reported pairs, in order (GUICanvas.cpp's nested
      loops over overlapping gates and their overlapping hotspots). */
  function AutoConnect(p: Pass, pairs: seq<Overlap>, selected: set<GateId>, nextId: nat -> WireId,
                       valid: Command -> bool, apply: (Canvas, Command) -> Canvas): (r: Pass)
    decreases |pairs|
    ensures |p.made| <= |r.made| <= |p.made| + |pairs|
    ensures r.made[..|p.made|] == p.made
    ensures MadeFrom(r.made, |p.made|, pairs, selected, valid)
  {
    if pairs == [] then p
    else
      var q := JoinStep(p, pairs[0], selected, nextId, valid, apply);
      var r := AutoConnect(q, pairs[1..], selected, nextId, valid, apply);
      MadeFromBack(pairs[0], pairs, selected, valid, p.made, q.made, r.made);
      r
  }

  /** What applying a new wire does to the page, as far as the pass relies
      on it: the gates stay, a hotspot that held a wire still holds one,
      and the two ends of the new wire now hold one. The body of
      `cmdCreateWire::Do` is not part of this model, so this is a
      hypothesis of the lemmas below and not a fact of the model. */
  ghost predicate WireApplied(c: Canvas, cmd: Command, c': Canvas) {
    c'.gates.Keys == c.gates.Keys
    && (forall g, hs :: g in c.gates && c.gates[g].IsConnected(hs) ==> c'.gates[g].IsConnected(hs))
    && (forall e :: e in Ends(cmd) ==> e.0 in c'.gates && c'.gates[e.0].IsConnected(e.1))
  }

  /** Both ends of the command are hotspots of gates on the page, as they
      are for every wire the pass makes. */
  ghost predicate EndsOnCanvas(c: Canvas, cmd: Command) {
    forall e :: e in Ends(cmd) ==> e.0 in c.gates
  }

  /** `apply` behaves as `WireApplied` says on every command whose ends
      are on the page: the hypothesis of the lemmas about the pass. */
  ghost predicate AppliesWires(apply: (Canvas, Command) -> Canvas) {
    forall c, cmd :: EndsOnCanvas(c, cmd) ==> WireApplied(c, cmd, apply(c, cmd))
  }

  /** Records one connect on the page: the gate's hotspot now holds the
      wire. A gate not on the page is left alone. */
  function AttachEnd(c: Canvas, cc: ConnectCmd): (r: Canvas)
    ensures r.gates.Keys == c.gates.Keys
    ensures cc.gate in c.gates ==> r.gates[cc.gate].IsConnected(cc.hotspot)
    ensures forall g, hs :: g in c.gates && c.gates[g].IsConnected(hs) ==> r.gates[g].IsConnected(hs)
  {
    if cc.gate in c.gates then
      var g := c.gates[cc.gate];
      c.(gates := c.gates[cc.gate := g.(connections := g.connections[cc.hotspot := cc.wire])])
    else c
  }

  /** The least a new wire's `Do` can do to the page: attach its two ends.
      Other commands leave the page alone. */
  function AttachEnds(c: Canvas, cmd: Command): Canvas {
    if cmd.Create? then AttachEnd(AttachEnd(c, cmd.first), cmd.second) else c
  }

  /** The hypothesis of the lemmas about the pass can be met: attaching
      the two ends of each new wire meets it. */
  lemma AttachingEndsAppliesWires()
    ensures AppliesWires(AttachEnds)
  {
    forall c, cmd | EndsOnCanvas(c, cmd)
      ensures WireApplied(c, cmd, AttachEnds(c, cmd))
    {
      if cmd.Create? {
        var c1 := AttachEnd(c, cmd.first);
        assert (cmd.first.gate, cmd.first.hotspot) in Ends(cmd);
        assert (cmd.second.gate, cmd.second.hotspot) in Ends(cmd);
      }
    }
  }

  /** A hotspot free after one step was free before it; the ends of a wire
      the step made are no longer free. */
  lemma StepFree(p: Pass, o: Overlap, selected: set<GateId>,
                 nextId: nat -> WireId, valid: Command -> bool, apply: (Canvas, Command) -> Canvas)
    requires AppliesWires(apply)
    ensures var q := JoinStep(p, o, selected, nextId, valid, apply);
      (forall g, hs :: Free(q.canvas, g, hs) ==> Free(p.canvas, g, hs))
      && (q.made != p.made ==> forall e :: e in Ends(q.made[|p.made|]) ==> !Free(q.canvas, e.0, e.1))
      && (q.made != p.made ==> forall e :: e in Ends(q.made[|p.made|]) ==> Free(p.canvas, e.0, e.1))
  {
    var q := JoinStep(p, o, selected, nextId, valid, apply);
    if q.made != p.made {
      var cmd := q.made[|p.made|];
      assert EndsOnCanvas(p.canvas, cmd);
      assert WireApplied(p.canvas, cmd, q.canvas);
      assert Ends(cmd) == {(o.g1, o.hs1), (o.g2, o.hs2)};
    }
  }

  /** The invariant of the pass carried back over one step: `mid` extends
      `made` by at most the one wire `cmd`, and `all` extends `mid`. */
  lemma EndsFreeBack(c: Canvas, c': Canvas, made: seq<Command>, mid: seq<Command>, all: seq<Command>)
    requires |made| <= |mid| <= |all| && all[..|mid|] == mid && mid[..|made|] == made
    requires |mid| <= |made| + 1
    requires EndsFree(c', all, |mid|)
    requires forall g, hs :: Free(c', g, hs) ==> Free(c, g, hs)
    requires |mid| > |made| ==> forall e :: e in Ends(mid[|made|]) ==> Free(c, e.0, e.1)
    ensures EndsFree(c, all, |made|)
  {
    forall k, e | |made| <= k < |all| && e in Ends(all[k])
      ensures Free(c, e.0, e.1)
    {
      if k < |mid| {
        assert all[k] == mid[k];
      } else {
        assert Free(c', e.0, e.1);
      }
    }
  }

  /** Both ends of every wire in `made` from index `from` on are free in
      `c`. */
  ghost predicate EndsFree(c: Canvas, made: seq<Command>, from: nat) {
    forall k, e :: from <= k < |made| && e in Ends(made[k]) ==> Free(c, e.0, e.1)
  }

  /** No two wires in `made` from index `from` on share an end. */
  ghost predicate EndsDisjoint(made: seq<Command>, from: nat) {
    forall k1, k2 :: from <= k1 < k2 < |made| ==> Ends(made[k1]) !! Ends(made[k2])
  }

  /** The other invariant carried back over one step: the one wire `cmd`
      the step made has ends no longer free in `c'`, where every later
      wire's ends are free. */
  lemma EndsDisjointBack(c': Canvas, made: seq<Command>, mid: seq<Command>, all: seq<Command>)
    requires |made| <= |mid| <= |all| && all[..|mid|] == mid && mid[..|made|] == made
    requires |mid| <= |made| + 1
    requires EndsFree(c', all, |mid|) && EndsDisjoint(all, |mid|)
    requires |mid| > |made| ==> forall e :: e in Ends(mid[|made|]) ==> !Free(c', e.0, e.1)
    ensures EndsDisjoint(all, |made|)
  {
    forall k1, k2 | |made| <= k1 < k2 < |all|
      ensures Ends(all[k1]) !! Ends(all[k2])
    {
      if k1 < |mid| {
        assert all[k1] == mid[|made|];
        forall e | e in Ends(all[k2]) ensures e !in Ends(all[k1]) {
          assert Free(c', e.0, e.1);
        }
      }
    }
  }

  /** Every wire the pass makes joins two hotspots that were free before
      the pass began. */
  lemma {:induction false} AutoJoinsFreeHotspots(p: Pass, pairs: seq<Overlap>, selected: set<GateId>,
      nextId: nat -> WireId, valid: Command -> bool, apply: (Canvas, Command) -> Canvas)
    requires AppliesWires(apply)
    ensures EndsFree(p.canvas, AutoConnect(p, pairs, selected, nextId, valid, apply).made, |p.made|)
    decreases |pairs|
  {
    if pairs != [] {
      var q := JoinStep(p, pairs[0], selected, nextId, valid, apply);
      var r := AutoConnect(q, pairs[1..], selected, nextId, valid, apply);
      assert r == AutoConnect(p, pairs, selected, nextId, valid, apply);
      AutoJoinsFreeHotspots(q, pairs[1..], selected, nextId, valid, apply);
      StepFree(p, pairs[0], selected, nextId, valid, apply);
      EndsFreeBack(p.canvas, q.canvas, p.made, q.made, r.made);
    }
  }

  /** No hotspot gets two wires from one pass: the same two hotspots,
      reported again from the other gate's side, find themselves connected
      by then. */
  lemma {:induction false} AutoJoinsEachHotspotOnce(p: Pass, pairs: seq<Overlap>, selected: set<GateId>,
      nextId: nat -> WireId, valid: Command -> bool, apply: (Canvas, Command) -> Canvas)
    requires AppliesWires(apply)
    ensures EndsDisjoint(AutoConnect(p, pairs, selected, nextId, valid, apply).made, |p.made|)
    decreases |pairs|
  {
    if pairs != [] {
      var q := JoinStep(p, pairs[0], selected, nextId, valid, apply);
      var r := AutoConnect(q, pairs[1..], selected, nextId, valid, apply);
      assert r == AutoConnect(p, pairs, selected, nextId, valid, apply);
      AutoJoinsEachHotspotOnce(q, pairs[1..], selected, nextId, valid, apply);
      AutoJoinsFreeHotspots(q, pairs[1..], selected, nextId, valid, apply);
      StepFree(p, pairs[0], selected, nextId, valid, apply);
      EndsDisjointBack(q.canvas, p.made, q.made, r.made);
    }
  }

  /** What `OnMouseUp` decides about wiring: the command of the connect
      branch and the wires the automatic pass made; or, when the pass
      hands a wire to a create-gate command that was never made, undefined
      behaviour. */
  datatype MouseUpResult =
    | Released(drag: DragState, connection: Option<Command>, joined: seq<Command>)
    | UndefinedDrop

  /** The button going up, as far as the double-click branch is concerned:
      whether it ends a double-click, whether exactly one gate is recorded
      as about to move (`preMove`), and whether that gate's `checkClick`
      took the click (a toggle switch, say). */
  datatype Release = Release(doubleClick: bool, oneGate: bool, toggled: bool)

  /** A double-click on a single gate that the gate does not take for
      itself opens its parameter dialog and ends the drag before the
      automatic pass is reached. */
  predicate DoubleClickReset(drag: DragState, rel: Release) {
    (drag == DragNone || drag == DragSelection) && rel.oneGate && rel.doubleClick && !rel.toggled
  }

  /** A dropped gate from the palette whose library name marks it as a
      dynamic gate: it goes through the dialog and no create-gate command
      is made for it. */
  predicate DynamicDrop(drag: DragState, newGate: string) {
    drag == DragNewGate && Strings.StartsWith(newGate, "%%_")
  }

  /** `OnMouseUp`, for the decisions about wires. A connect-drag yields the
      connect branch's command. Dropping a new gate or a moved selection,
      with potential connection hotspots recorded (`potential`), runs the
      automatic pass over the overlapping hotspot pairs, unless a
      double-click reset the drag first; the wires it makes belong to the
      create-gate or move command, and for a dynamic gate there is no
      create-gate command to take them. Every mouse-up ends the drag. */
  function MouseUp(drag: DragState, rel: Release, newGate: string, c: Canvas, src: Source, hover: Hover,
                   potential: bool, pairs: seq<Overlap>, selected: set<GateId>,
                   nextId: nat -> WireId, valid: Command -> bool,
                   apply: (Canvas, Command) -> Canvas): (r: MouseUpResult)
    requires drag == DragConnect ==> ConnectReady(c, src, hover)
    ensures r.Released? ==> r.drag == DragNone
    ensures r.UndefinedDrop? <==>
      DynamicDrop(drag, newGate) && potential
      && |AutoConnect(Pass(c, 0, []), pairs, selected, nextId, valid, apply).made| > 0
    ensures drag == DragConnect ==> r == Released(DragNone, ConnectCommand(c, src, hover, nextId, valid), [])
    ensures r.Released? && r.connection.Some? ==> drag == DragConnect && valid(r.connection.value)
    ensures DoubleClickReset(drag, rel) ==> r == Released(DragNone, None, [])
    ensures ((drag == DragNewGate || drag == DragSelection) && potential && !DoubleClickReset(drag, rel)) ==>
      (r.Released? ==> r.joined == AutoConnect(Pass(c, 0, []), pairs, selected, nextId, valid, apply).made)
    ensures r.Released? && |r.joined| > 0 ==>
      (drag == DragNewGate || drag == DragSelection) && potential && !DoubleClickReset(drag, rel)
    ensures r.Released? ==> |r.joined| <= |pairs| && MadeFrom(r.joined, 0, pairs, selected, valid)
  {
    var d := if DoubleClickReset(drag, rel) then DragNone else drag;
    if d == DragConnect then Released(DragNone, ConnectCommand(c, src, hover, nextId, valid), [])
    else if (d == DragNewGate || d == DragSelection) && potential then
      var made := AutoConnect(Pass(c, 0, []), pairs, selected, nextId, valid, apply).made;
      if |made| > 0 && DynamicDrop(drag, newGate) then UndefinedDrop
      else Released(DragNone, None, made)
    else Released(DragNone, None, [])
  }

  /** On a drop that reaches the automatic pass, every wire the pass makes
      joins two hotspots that were free at the mouse-up, and no hotspot
      gets two of them. */
  lemma DropJoinsFreeHotspotsOnce(drag: DragState, rel: Release, newGate: string, c: Canvas,
                                  src: Source, hover: Hover,
                                  pairs: seq<Overlap>, selected: set<GateId>,
                                  nextId: nat -> WireId, valid: Command -> bool,
                                  apply: (Canvas, Command) -> Canvas)
    requires drag == DragNewGate || drag == DragSelection
    requires !DoubleClickReset(drag, rel)
    requires AppliesWires(apply)
    ensures var r := MouseUp(drag, rel, newGate, c, src, hover, true, pairs, selected, nextId, valid, apply);
      r.Released? ==>
        r.joined == AutoConnect(Pass(c, 0, []), pairs, selected, nextId, valid, apply).made
        && EndsFree(c, r.joined, 0) && EndsDisjoint(r.joined, 0)
  {
    AutoJoinsFreeHotspots(Pass(c, 0, []), pairs, selected, nextId, valid, apply);
    AutoJoinsEachHotspotOnce(Pass(c, 0, []), pairs, selected, nextId, valid, apply);
  }

  // ---------------------------------------------------------------------
  // Right click

  datatype Modifiers = Modifiers(alt: bool, shift: bool, ctrl: bool)

  /** Some hotspot of the gate has a wire: such a gate is not rotated or
      mirrored, because its wires would no longer meet its pins. */
  predicate HasConnectedHotspot(g: Gate) {
    exists n :: n in HotspotList(g) && g.IsConnected(n)
  }

  /** The mirror flag after a toggle: "true" becomes "false", anything
      else (including an absent flag) becomes "true". */
  function ToggleMirror(v: string): (r: string)
    ensures r == "true" <==> v != "true"
    ensures r == "true" || r == "false"
  {
    if v == "true" then "false" else "true"
  }

  /** Toggling twice restores a flag that was "true" or "false". */
  lemma ToggleMirrorTwice(v: string)
    requires v == "true" || v == "false"
    ensures ToggleMirror(ToggleMirror(v)) == v
  {
  }

  /** The new GUI parameters of one right-clicked gate: Shift or Ctrl
      toggles `mirror`; otherwise `angle` becomes the next quarter turn,
      computed by `rotate` from the stored text (the float arithmetic is
      not part of this model). */
  function TurnParams(gp: PMap, mods: Modifiers, rotate: string -> string): (r: PMap)
    ensures mods.shift || mods.ctrl ==> Get(r, "mirror") == Some(ToggleMirror(Lookup(gp, "mirror")))
    ensures !(mods.shift || mods.ctrl) ==> Get(r, "angle") == Some(rotate(Lookup(gp, "angle")))
    ensures forall n :: n != "mirror" && n != "angle" ==> Get(r, n) == Get(gp, n)
    ensures mods.shift || mods.ctrl ==> Get(r, "angle") == Get(gp, "angle")
    ensures !(mods.shift || mods.ctrl) ==> Get(r, "mirror") == Get(gp, "mirror")
  {
    if mods.shift || mods.ctrl then Put(gp, "mirror", ToggleMirror(Lookup(gp, "mirror")))
    else Put(gp, "angle", rotate(Lookup(gp, "angle")))
  }

  /** The loop over the gates under the pointer: with Alt nothing is
      submitted (the properties dialog is not part of this model); a gate
      with a connected hotspot is skipped; every other gate gets one
      `cmdSetParams` with its turned GUI parameters, in hit order. */
  function TurnCommands(c: Canvas, hits: seq<GateId>, mods: Modifiers, rotate: string -> string): (r: seq<Command>)
    requires forall i :: 0 <= i < |hits| ==> hits[i] in c.gates
    ensures |r| <= |hits|
    ensures mods.alt ==> r == []
    ensures forall i :: 0 <= i < |r| ==>
      r[i].SetGuiParams? && r[i].gate in hits && !HasConnectedHotspot(c.gates[r[i].gate])
      && r[i].gparams == TurnParams(c.gates[r[i].gate].gparams, mods, rotate)
    decreases |hits|
  {
    if |hits| == 0 then []
    else
      var g := hits[0];
      var rest := TurnCommands(c, hits[1..], mods, rotate);
      assert forall i :: 0 <= i < |rest| ==> rest[i].gate in hits by {
        forall i | 0 <= i < |rest| ensures rest[i].gate in hits {
          var j :| 0 <= j < |hits[1..]| && hits[1..][j] == rest[i].gate;
          assert hits[j + 1] == rest[i].gate;
        }
      }
      if mods.alt || HasConnectedHotspot(c.gates[g]) then rest
      else
        [SetGuiParams(g, TurnParams(c.gates[g].gparams, mods, rotate))] + rest
  }

  /** Without Alt, every gate hit that has no connected hotspot is turned. */
  lemma {:induction false} FreeGatesTurned(c: Canvas, hits: seq<GateId>, mods: Modifiers,
                                           rotate: string -> string, g: GateId)
    requires forall i :: 0 <= i < |hits| ==> hits[i] in c.gates
    requires g in hits && !mods.alt && !HasConnectedHotspot(c.gates[g])
    ensures SetGuiParams(g, TurnParams(c.gates[g].gparams, mods, rotate)) in TurnCommands(c, hits, mods, rotate)
    decreases |hits|
  {
    var cmd := SetGuiParams(g, TurnParams(c.gates[g].gparams, mods, rotate));
    var r := TurnCommands(c, hits, mods, rotate);
    var rest := TurnCommands(c, hits[1..], mods, rotate);
    if hits[0] == g {
      assert r == [cmd] + rest;
    } else {
      assert g in hits[1..] by {
        var j :| 0 <= j < |hits| && hits[j] == g;
        assert hits[1..][j - 1] == g;
      }
      FreeGatesTurned(c, hits[1..], mods, rotate, g);
      assert cmd in rest;
      if !HasConnectedHotspot(c.gates[hits[0]]) {
        assert r == [SetGuiParams(hits[0], TurnParams(c.gates[hits[0]].gparams, mods, rotate))] + rest;
      }
    }
  }

  /** A gate with a connected hotspot is never turned. */
  lemma ConnectedGateNotTurned(c: Canvas, hits: seq<GateId>, mods: Modifiers, rotate: string -> string, g: GateId)
    requires forall i :: 0 <= i < |hits| ==> hits[i] in c.gates
    requires g in c.gates && HasConnectedHotspot(c.gates[g])
    ensures forall i :: 0 <= i < |TurnCommands(c, hits, mods, rotate)| ==>
      TurnCommands(c, hits, mods, rotate)[i].gate != g
  {
  }

  /** The outcome of a right click. */
  datatype RightClickEffect = RightClickEffect(drag: DragState, commands: seq<Command>)

  /** `mouseRightDown`. Nothing happens while pasting, during a drag, or on
      a locked canvas. On a highlighted hotspot with a wire, the hotspot
      is taken off a wire that has more than two connections and the whole
      wire is deleted otherwise. Off a hotspot, the gates hit are turned. */
  function RightClick(c: Canvas, withinPaste: bool, drag: DragState, locked: bool,
                      highlighted: Option<(GateId, string)>, hits: seq<GateId>,
                      mods: Modifiers, rotate: string -> string): (r: RightClickEffect)
    requires WellFormed(c)
    requires highlighted.Some? ==> highlighted.value.0 in c.gates
    requires forall i :: 0 <= i < |hits| ==> hits[i] in c.gates
    ensures withinPaste || drag != DragNone || locked ==> r == RightClickEffect(drag, [])
    ensures highlighted.Some? ==> |r.commands| <= 1
    ensures highlighted.Some? && !c.gates[highlighted.value.0].IsConnected(highlighted.value.1) ==> r.commands == []
    ensures !(withinPaste || drag != DragNone || locked) && highlighted.None? ==>
      r.commands == TurnCommands(c, hits, mods, rotate)
    ensures r.drag == drag
  {
    if withinPaste || drag != DragNone || locked then RightClickEffect(drag, [])
    else if highlighted.Some? then
      var (g, hs) := highlighted.value;
      var gate := c.gates[g];
      if gate.IsConnected(hs) then
        ConnectedIsLive(c, g, hs);
        var wire := c.wires[gate.connections[hs]].value;
        if wire.numConnections > 2 then RightClickEffect(DragNone, [Disconnect(wire.id, g, hs)])
        else RightClickEffect(DragNone, [DeleteWire(wire.id)])
      else RightClickEffect(DragNone, [])
    else RightClickEffect(drag, TurnCommands(c, hits, mods, rotate))
  }

  /** On a connected hotspot: disconnect exactly when its wire has more
      than two connections, delete the wire otherwise; either way the
      command names the hotspot's own wire. */
  lemma RightClickOnWire(c: Canvas, drag: DragState, g: GateId, hs: string, hits: seq<GateId>,
                         mods: Modifiers, rotate: string -> string)
    requires WellFormed(c) && g in c.gates && c.gates[g].IsConnected(hs)
    requires forall i :: 0 <= i < |hits| ==> hits[i] in c.gates
    requires drag == DragNone
    ensures var r := RightClick(c, false, drag, false, Some((g, hs)), hits, mods, rotate);
      var w := c.gates[g].connections[hs];
      w in c.wires && c.wires[w].Some? &&
      (c.wires[w].value.numConnections > 2 ==> r.commands == [Disconnect(w, g, hs)]) &&
      (c.wires[w].value.numConnections <= 2 ==> r.commands == [DeleteWire(w)])
  {
  }

  // ---------------------------------------------------------------------
  // Keys

  datatype Key = DeleteKey | EscapeKey | OtherKey

  /** What a key press does to the drag and which actions it triggers:
      deleting the selection, and discarding the gate being dragged in
      from the palette. */
  datatype KeyEffect = KeyEffect(drag: DragState, deleteSelection: bool, discardNewGate: bool)

  /** `OnKeyDown` for Delete and Escape; the other keys pan and zoom the
      view, which is not part of this model, and leave the drag alone. */
  function KeyDown(drag: DragState, locked: bool, key: Key): (r: KeyEffect)
    ensures key == EscapeKey ==> r.drag == DragNone && !r.deleteSelection
    ensures r.discardNewGate <==> key == EscapeKey && drag == DragNewGate
    ensures r.deleteSelection <==> key == DeleteKey && drag == DragNone && !locked
    ensures key != EscapeKey ==> r.drag == drag
  {
    match key
    case DeleteKey => KeyEffect(drag, drag == DragNone && !locked, false)
    case EscapeKey => KeyEffect(DragNone, false, drag == DragNewGate)
    case OtherKey => KeyEffect(drag, false, false)
  }

  /** Escape twice is Escape once: the second press finds no drag. */
  lemma EscapeIdempotent(drag: DragState, locked: bool)
    ensures KeyDown(KeyDown(drag, locked, EscapeKey).drag, locked, EscapeKey).drag == DragNone
    ensures !KeyDown(KeyDown(drag, locked, EscapeKey).drag, locked, EscapeKey).discardNewGate
  {
  }
}

=== FILE: circuit_parse.dfy ===
/** What the circuit-file loader does with the records the tag reader has
    already extracted: the version check, legacy gate-type renames,
    hotspot-name normalisation, the parameter-line filter, the placing of
    a gate record (with library defaults, or as a "not found" placeholder),
    the connections of wire segments, and the guard on applying a wire.

    The gate library, dynamic gate creation and the gate factory are
    parameters: `lib(t)` is the library gate of type `t`, `dynamic(t)` the
    one available after `CreateDynamicGate(t)`, and `create(t)` whether the
    factory returns a gate. */
module CircuitParse {
  import opened Wrappers
  import opened Strings
  import opened ParamMap
  import opened StreamExtract
  import opened Gates

  // ---------------------------------------------------------------------
  // The version tag

  /** The part of a version string before its first space: "x.y.z" of
      "x.y.z | DATE - TIME". `find(" ") >= 0` holds for every `size_t`, and
      without a space `substr(0, npos)` is the whole string. */
  function VersionNumber(v: string): (r: string)
    ensures ' ' !in r
    ensures StartsWith(v, r)
    ensures ' ' in v ==> |r| < |v| && v[|r|] == ' '
    ensures ' ' !in v ==> r == v
  {
    var k := IndexOf(v, ' ');
    if k >= 0 then v[..k] else v
  }

  /** Whether the file warns that a newer version made it: its version
      number sorts after the build's own under string comparison. */
  function NewerVersionWarning(fileVersion: string, build: string): (warn: bool)
    ensures warn ==> VersionNumber(fileVersion) != build
    ensures warn <==> Less(build, VersionNumber(fileVersion))
    ensures !warn <==> VersionNumber(fileVersion) == build || Less(VersionNumber(fileVersion), build)
  {
    var v := VersionNumber(fileVersion);
    LessTrichotomy(v, build);
    Less(build, v)
  }

  /** Only the version number is compared: a date after it never changes
      the outcome. */
  lemma DateDoesNotMatter(v: string, date: string, build: string)
    requires ' ' !in v
    ensures NewerVersionWarning(v + " " + date, build) == NewerVersionWarning(v, build)
  {
    var w := v + " " + date;
    assert w[|v|] == ' ';
    assert forall i :: 0 <= i < |v| ==> w[i] == v[i] && w[i] != ' ';
    assert IndexOf(w, ' ') == |v|;
    assert w[..|v|] == v;
  }

  /** A file this build wrote, with or without a date after a space, never
      warns. */
  lemma OwnVersionNoWarning(build: string, date: string)
    requires ' ' !in build
    ensures !NewerVersionWarning(build, build)
    ensures !NewerVersionWarning(build + " " + date, build)
  {
    LessIrreflexive(build);
    var v := build + " " + date;
    assert v[|build|] == ' ';
    assert forall i :: 0 <= i < |build| ==> v[i] == build[i] && v[i] != ' ';
    assert IndexOf(v, ' ') == |build|;
    assert v[..|build|] == build;
  }

  /** Any two different version numbers: exactly one of them warns when
      loaded by the other. */
  lemma WarningIsOneWay(a: string, b: string)
    requires ' ' !in a && ' ' !in b && a != b
    ensures NewerVersionWarning(a, b) != NewerVersionWarning(b, a)
  {
    LessTotal(a, b);
    if Less(a, b) {
      LessAsymmetric(a, b);
    } else {
      LessAsymmetric(b, a);
    }
  }

  // ---------------------------------------------------------------------
  // Gate types and hotspot names

  /** Gate types that were renamed or retired, and their current names. */
  const Renames: map<string, string> := map[
    "AM_RAM_16x16_Single_Port" := "AM_RAM_16x16",
    "CA_SMALL_TGATE" := "TA_TGATE",
    "CB_PRI_ENCODER_4x2" := "CB_ENCODER_4x2_EN",
    "CC_PRI_ENCODER_8x3" := "CC_ENCODER_8x3_EN",
    "CD_PRI_ENCODER_16x4" := "CD_ENCODER_16x4_EN"]

  /** The type a gate record is loaded with. */
  function CurrentType(t: string): (r: string)
    ensures r !in Renames
    ensures t !in Renames ==> r == t
    ensures t in Renames ==> r == Renames[t]
  {
    if t in Renames then Renames[t] else t
  }

  lemma CurrentTypeIdempotent(t: string)
    ensures CurrentType(CurrentType(t)) == CurrentType(t)
  {
  }

  /** An input hotspot name (and the hotspot name of a wire segment's
      connection): upper-cased, with the old `ENABLE_0` renamed. */
  function InputHotspotName(n: string): (r: string)
    ensures IsUpperCase(r) && r != "ENABLE_0"
    ensures ToUpper(n) != "ENABLE_0" ==> r == ToUpper(n)
    ensures ToUpper(n) == "ENABLE_0" ==> r == "OUTPUT_ENABLE"
  {
    ToUpperMakesUpper(n);
    var u := ToUpper(n);
    if u == "ENABLE_0" then "OUTPUT_ENABLE" else u
  }

  /** An output hotspot name: upper-cased only. */
  function OutputHotspotName(n: string): (r: string)
    ensures IsUpperCase(r) && |r| == |n|
    ensures forall i :: 0 <= i < |n| ==> r[i] == UpperChar(n[i])
  {
    ToUpperMakesUpper(n);
    ToUpper(n)
  }

  lemma HotspotNamesIdempotent(n: string)
    ensures InputHotspotName(InputHotspotName(n)) == InputHotspotName(n)
    ensures OutputHotspotName(OutputHotspotName(n)) == OutputHotspotName(n)
  {
    ToUpperKeepsUpper(InputHotspotName(n));
    ToUpperKeepsUpper(OutputHotspotName(n));
  }

  // ---------------------------------------------------------------------
  // Parameter lines

  datatype Parameter = Parameter(name: string, value: string, isGui: bool)

  /** GUI parameters that come from the library, never from the file. */
  predicate Dropped(name: string) {
    name in ["CROSS_POINT", "LED_BOX", "VALUE_BOX", "CLICK_BOX"] || StartsWith(name, "KEYPAD_BOX_")
  }

  /** A `gparam` or `lparam` line: the first word is the name, and the rest
      of the line without its first character (the separating space) is
      the value. Library-owned names are skipped and `PULSE_WIDTH` is
      always a logic parameter. With nothing after the name, `substr(1)`
      throws `std::out_of_range`. */
  function ParseParam(isGparam: bool, data: string): (r: Result<Option<Parameter>, string>)
    ensures r.Ok? && r.value.Some? ==> !Dropped(r.value.value.name)
    ensures r.Ok? && r.value.Some? ==>
      (r.value.value.isGui <==> isGparam && r.value.value.name != "PULSE_WIDTH")
    ensures r.Ok? && r.value.Some? ==> |r.value.value.value| < |data|
  {
    var (st, x) := ReadWord(Open(data), "");
    var (_, y) := GetLine(st, "", '\n');
    if Dropped(x) then Ok(None)
    else if |y| == 0 then Err("std::out_of_range")
    else
      assert |y| <= |st.rest| <= |data| by {
        if !st.fail {
          assert |SkipSpaces(data)| <= |data|;
        }
      }
      Ok(Some(Parameter(x, y[1..], isGparam && x != "PULSE_WIDTH")))
  }

  /** A line written as the name, a space and the value reads back as that
      parameter, unless the name is one the library owns. */
  lemma ParseParamOfLine(isGparam: bool, name: string, value: string)
    requires |name| > 0 && NoSpace(name) && '\n' !in value
    ensures ParseParam(isGparam, name + " " + value) ==
      if Dropped(name) then Ok(None) else Ok(Some(Parameter(name, value, isGparam && name != "PULSE_WIDTH")))
  {
    ReadWordOfWord("", name, " " + value);
    assert "" + name + (" " + value) == name + " " + value;
    assert " " + value + "\n" == [' '] + (value + "\n");
    GetLineOfLine(" " + value, '\n', "");
    assert " " + value + ['\n'] + "" == " " + value + "\n";
    assert Open(" " + value + "\n") == Open(" " + value + ['\n'] + "");
    assert GetLine(Open(" " + value), "", '\n').1 == " " + value;
  }

  /** A name with nothing after it: the loader throws. */
  lemma ParseParamNameOnly(isGparam: bool, name: string)
    requires |name| > 0 && NoSpace(name) && !Dropped(name)
    ensures ParseParam(isGparam, name).Err?
  {
    SkipSpacesBefore("", name);
    assert "" + name == name;
    WordLengthOfWord(name);
    assert name[..|name|] == name;
  }

  // ---------------------------------------------------------------------
  // Gate records

  /** A hotspot and the bus IDs of the wire on it. */
  datatype Connector = Connector(name: string, wireIds: seq<WireId>)

  /** A hotspot as the library describes it, with the settings the logic
      core is told about: inversion, pull-up, pull-down, a forced junction
      and the name of an enable input (empty for none). */
  datatype LibHotspot = LibHotspot(name: string, isInput: bool, inverted: bool, pullUp: bool,
                                   pullDown: bool, forceJunction: bool, eInput: string)

  /** What the library knows of a gate type: its logic type (empty for a
      GUI-only gate), its default logic parameters and its hotspots. */
  datatype LibGate = LibGate(logicType: string, logicParams: PMap, hotspots: seq<LibHotspot>)

  /** A gate record as the tag reader delivers it. */
  datatype RawGate = RawGate(gateType: string, id: int, inputs: seq<Connector>, outputs: seq<Connector>,
                             paramLines: seq<(bool, string)>)

  /** A gate record after the per-tag normalisation. */
  datatype GateRecord = GateRecord(gateType: string, id: int, inputs: seq<Connector>, outputs: seq<Connector>,
                                   params: seq<Parameter>)

  /** The parameter lines in order, the skipped ones left out. */
  function ParseParams(lines: seq<(bool, string)>): (r: Result<seq<Parameter>, string>)
    ensures r.Ok? ==> |r.value| <= |lines|
    ensures r.Ok? ==> forall i :: 0 <= i < |r.value| ==> !Dropped(r.value[i].name)
    decreases |lines|
  {
    if |lines| == 0 then Ok([])
    else
      var first :- ParseParam(lines[0].0, lines[0].1);
      var rest :- ParseParams(lines[1..]);
      if first.Some? then
        PrependKept(first.value, rest);
        Ok([first.value] + rest)
      else Ok(rest)
  }

  lemma PrependKept(p: Parameter, rest: seq<Parameter>)
    requires !Dropped(p.name) && forall i :: 0 <= i < |rest| ==> !Dropped(rest[i].name)
    ensures forall i :: 0 <= i < |[p] + rest| ==> !Dropped(([p] + rest)[i].name)
  {
  }

  function RenameConnectors(cs: seq<Connector>, input: bool): (r: seq<Connector>)
    ensures |r| == |cs|
    ensures forall i :: 0 <= i < |cs| ==> r[i].wireIds == cs[i].wireIds
    ensures forall i :: 0 <= i < |cs| ==>
      r[i].name == if input then InputHotspotName(cs[i].name) else OutputHotspotName(cs[i].name)
  {
    seq(|cs|, i requires 0 <= i < |cs| =>
      Connector(if input then InputHotspotName(cs[i].name) else OutputHotspotName(cs[i].name), cs[i].wireIds))
  }

  /** The gate tags of a file, as read: the type renamed, hotspot names
      normalised and parameter lines parsed. */
  function ReadGate(raw: RawGate): (r: Result<GateRecord, string>)
    ensures r.Ok? ==> r.value.gateType == CurrentType(raw.gateType) && r.value.id == raw.id
    ensures r.Ok? ==> |r.value.inputs| == |raw.inputs| && |r.value.outputs| == |raw.outputs|
    ensures r.Ok? ==> forall i :: 0 <= i < |r.value.inputs| ==>
      r.value.inputs[i].name == InputHotspotName(raw.inputs[i].name)
    ensures r.Ok? ==> forall i :: 0 <= i < |r.value.outputs| ==>
      r.value.outputs[i].name == OutputHotspotName(raw.outputs[i].name)
    ensures r.Ok? ==> forall i :: 0 <= i < |r.value.params| ==> !Dropped(r.value.params[i].name)
  {
    var params :- ParseParams(raw.paramLines);
    Ok(GateRecord(CurrentType(raw.gateType), raw.id, RenameConnectors(raw.inputs, true),
                  RenameConnectors(raw.outputs, false), params))
  }

  predicate HasName(ps: seq<Parameter>, k: string) {
    exists i :: 0 <= i < |ps| && ps[i].name == k
  }

  /** The loader's merge of library defaults: walking the defaults in key
      order, each one no parameter (GUI or logic) of that name has yet is
      appended as a logic parameter. */
  function WithDefaults(ps: seq<Parameter>, defaults: seq<Entry>): (r: seq<Parameter>)
    ensures |ps| <= |r| && r[..|ps|] == ps
    ensures forall k :: HasName(r, k) <==> HasName(ps, k) || k in KeySet(defaults)
    ensures forall i :: |ps| <= i < |r| ==>
      !r[i].isGui && !HasName(ps, r[i].name) && (r[i].name, r[i].value) in defaults
    decreases |defaults|
  {
    if |defaults| == 0 then ps
    else
      var (k, v) := defaults[0];
      var ps' := if HasName(ps, k) then ps else ps + [Parameter(k, v, false)];
      var r := WithDefaults(ps', defaults[1..]);
      DefaultsStep(ps, defaults, ps', r);
      r
  }

  /** One default of the walk: the parameters after it, and the result of
      the rest of the walk, relate to the parameters before it as the
      walk promises. */
  lemma DefaultsStep(ps: seq<Parameter>, defaults: seq<Entry>, ps': seq<Parameter>, r: seq<Parameter>)
    requires |defaults| > 0
    requires ps' == if HasName(ps, defaults[0].0) then ps else ps + [Parameter(defaults[0].0, defaults[0].1, false)]
    requires |ps'| <= |r| && r[..|ps'|] == ps'
    requires forall k :: HasName(r, k) <==> HasName(ps', k) || k in KeySet(defaults[1..])
    requires forall i :: |ps'| <= i < |r| ==>
      !r[i].isGui && !HasName(ps', r[i].name) && (r[i].name, r[i].value) in defaults[1..]
    ensures |ps| <= |r| && r[..|ps|] == ps
    ensures forall k :: HasName(r, k) <==> HasName(ps, k) || k in KeySet(defaults)
    ensures forall i :: |ps| <= i < |r| ==>
      !r[i].isGui && !HasName(ps, r[i].name) && (r[i].name, r[i].value) in defaults
  {
    var k := defaults[0].0;
    NamesAfterDefault(ps, defaults[0], ps');
    KeySetSplit(defaults);
    assert r[..|ps|] == r[..|ps'|][..|ps|];
    forall i | |ps| <= i < |r|
      ensures !r[i].isGui && !HasName(ps, r[i].name) && (r[i].name, r[i].value) in defaults
    {
      if i < |ps'| {
        assert r[i] == ps'[i] && ps'[i] == Parameter(k, defaults[0].1, false);
      } else {
        TailMember(defaults, (r[i].name, r[i].value));
      }
    }
  }

  lemma TailMember<T>(s: seq<T>, x: T)
    requires |s| > 0 && x in s[1..]
    ensures x in s
  {
    var i :| 0 <= i < |s[1..]| && s[1..][i] == x;
    assert s[i + 1] == x;
  }

  /** Appending the default `e` when its name is missing adds exactly that
      name. */
  lemma NamesAfterDefault(ps: seq<Parameter>, e: Entry, ps': seq<Parameter>)
    requires ps' == if HasName(ps, e.0) then ps else ps + [Parameter(e.0, e.1, false)]
    ensures forall n :: HasName(ps', n) <==> HasName(ps, n) || (n == e.0 && !HasName(ps, e.0))
  {
    if ps' != ps {
      forall n | HasName(ps', n) ensures HasName(ps, n) || n == e.0 {
        var i :| 0 <= i < |ps'| && ps'[i].name == n;
        if i < |ps| {
          assert ps[i] == ps'[i];
        }
      }
      assert ps'[|ps|].name == e.0;
      forall n | HasName(ps, n) ensures HasName(ps', n) {
        var i :| 0 <= i < |ps| && ps[i].name == n;
        assert ps'[i] == ps[i];
      }
    }
  }

  /** The parameters of one kind (GUI or logic) set in order on a gate's
      map, a later one with the same name overriding an earlier one. */
  function Apply(ps: seq<Parameter>, gui: bool): (m: PMap)
    ensures forall k :: !HasName(ps, k) ==> Get(m, k) == None
    decreases |ps|
  {
    if |ps| == 0 then []
    else
      var init := ps[..|ps| - 1];
      var last := ps[|ps| - 1];
      var m := Apply(init, gui);
      assert forall k :: HasName(init, k) ==> HasName(ps, k) by {
        forall k | HasName(init, k) ensures HasName(ps, k) {
          var i :| 0 <= i < |init| && init[i].name == k;
          assert ps[i] == init[i];
        }
      }
      if last.isGui == gui then Put(m, last.name, last.value) else m
  }

  lemma ApplyLast(ps: seq<Parameter>, p: Parameter, gui: bool, k: string)
    ensures Get(Apply(ps + [p], gui), k) ==
      if p.isGui == gui && p.name == k then Some(p.value) else Get(Apply(ps, gui), k)
  {
    assert (ps + [p])[..|ps|] == ps;
  }

  /** A parameter name that the file gives keeps the file's value (GUI and
      logic alike); a library default the file does not name is applied
      with the library's value. */
  lemma {:induction false} DefaultsApplyOnlyWhenAbsent(ps: seq<Parameter>, defaults: PMap, k: string)
    ensures HasName(ps, k) ==>
      Get(Apply(WithDefaults(ps, defaults), false), k) == Get(Apply(ps, false), k)
      && Get(Apply(WithDefaults(ps, defaults), true), k) == Get(Apply(ps, true), k)
    ensures !HasName(ps, k) ==> Get(Apply(WithDefaults(ps, defaults), false), k) == Get(defaults, k)
    ensures Get(Apply(WithDefaults(ps, defaults), true), k) == Get(Apply(ps, true), k)
    decreases |defaults|
  {
    if |defaults| > 0 {
      var (d, v) := defaults[0];
      var ps' := if HasName(ps, d) then ps else ps + [Parameter(d, v, false)];
      var rest: PMap := defaults[1..];
      DefaultsApplyOnlyWhenAbsent(ps', rest, k);
      assert WithDefaults(ps, defaults) == WithDefaults(ps', rest);
      KeySetSplit(defaults);
      if ps' != ps {
        ApplyLast(ps, Parameter(d, v, false), false, k);
        ApplyLast(ps, Parameter(d, v, false), true, k);
        assert ps'[|ps|].name == d;
        if HasName(ps, k) {
          var i :| 0 <= i < |ps| && ps[i].name == k;
          assert ps'[i] == ps[i];
        }
      }
      if !HasName(ps, k) {
        if k == d {
          HeadBelowRest(defaults);
          LessIrreflexive(d);
          assert !Has(rest, d);
          assert HasName(ps', k);
        } else {
          forall i | 0 <= i < |ps'| ensures ps'[i].name != k {
            if i < |ps| {
              assert ps'[i] == ps[i];
            }
          }
          assert Get(rest, k) == Get(defaults, k);
        }
      }
    } else {
      if !HasName(ps, k) {
        assert Get(defaults, k) == None;
      }
    }
  }

  /** How a gate record is placed on the canvas: its type, ID, the GUI and
      logic parameters the loader sets, and the hotspot wires it creates
      (inputs first). */
  datatype Placed = Placed(gateType: string, id: int, gparams: PMap, lparams: PMap, wires: seq<Connector>)

  /** A message to the simulation core: `MT_CREATE_GATE`,
      `MT_SET_GATE_PARAM`, and `MT_SET_GATE_INPUT_PARAM` or
      `MT_SET_GATE_OUTPUT_PARAM` (told apart by `input`). */
  datatype CoreMessage =
    | CreateGate(logicType: string, id: int)
    | SetGateParam(id: int, name: string, value: string)
    | SetHotspotParam(id: int, input: bool, hotspot: string, setting: HotspotSetting, value: string)

  /** The hotspot settings the loader sends: "INVERTED", "PULL_UP",
      "PULL_DOWN", "FORCE_JUNCTION" and "E_INPUT". */
  datatype HotspotSetting = Inverted | PullUp | PullDown | ForceJunction | EInput {
    function Name(): string {
      match this
      case Inverted => "INVERTED"
      case PullUp => "PULL_UP"
      case PullDown => "PULL_DOWN"
      case ForceJunction => "FORCE_JUNCTION"
      case EInput => "E_INPUT"
    }
  }

  /** `parseGateToSend`: the value it returns, the ID it records as not
      found, the gate it places, if any, and the messages it sends to the
      core, in order. */
  datatype GateLoad = GateLoad(notFound: bool, recorded: Option<int>, placed: Option<Placed>,
                               messages: seq<CoreMessage>)

  /** The logic parameters, in order, each as a `MT_SET_GATE_PARAM`
      message; GUI parameters send nothing. */
  function ParamMessages(id: int, ps: seq<Parameter>): (r: seq<CoreMessage>)
    ensures |r| <= |ps|
    ensures forall i :: 0 <= i < |r| ==> r[i].SetGateParam? && r[i].id == id
    ensures (forall i :: 0 <= i < |ps| ==> ps[i].isGui) ==> r == []
    decreases |ps|
  {
    if |ps| == 0 then []
    else
      var init := ParamMessages(id, ps[..|ps| - 1]);
      var last := ps[|ps| - 1];
      if last.isGui then init else init + [SetGateParam(id, last.name, last.value)]
  }

  /** The value the last `MT_SET_GATE_PARAM` message for `k` carries: what
      the core holds for `k` once the messages are handled. */
  function LastSet(ms: seq<CoreMessage>, k: string): Option<string>
    decreases |ms|
  {
    if |ms| == 0 then None
    else
      var m := ms[|ms| - 1];
      if m.SetGateParam? && m.name == k then Some(m.value) else LastSet(ms[..|ms| - 1], k)
  }

  /** The core ends with exactly the logic parameters the editor's gate
      holds: for every name, the last message for it carries the value the
      gate's map has, and a name the gate lacks gets no message. */
  lemma {:induction false} CoreAgreesOnLogicParams(id: int, ps: seq<Parameter>, k: string)
    ensures LastSet(ParamMessages(id, ps), k) == Get(Apply(ps, false), k)
    decreases |ps|
  {
    if |ps| > 0 {
      var init := ps[..|ps| - 1];
      var last := ps[|ps| - 1];
      CoreAgreesOnLogicParams(id, init, k);
      ApplyLast(init, last, false, k);
      assert init + [last] == ps;
      var ms := ParamMessages(id, init);
      if !last.isGui {
        var ms' := ms + [SetGateParam(id, last.name, last.value)];
        assert ms'[..|ms|] == ms;
      }
    }
  }

  /** Messages other than parameter settings do not change what the core
      holds for a logic parameter. */
  lemma {:induction false} LastSetSkipsOthers(a: seq<CoreMessage>, b: seq<CoreMessage>, c: seq<CoreMessage>, k: string)
    requires forall i :: 0 <= i < |a| ==> !a[i].SetGateParam?
    requires forall i :: 0 <= i < |c| ==> !c[i].SetGateParam?
    ensures LastSet(a + b + c, k) == LastSet(b, k)
    decreases |c|, |b|
  {
    if |c| > 0 {
      assert (a + b + c)[..|a + b + c| - 1] == a + b + c[..|c| - 1];
      LastSetSkipsOthers(a, b, c[..|c| - 1], k);
    } else if |b| > 0 {
      assert a + b + c == a + b;
      assert (a + b)[..|a + b| - 1] == a + b[..|b| - 1] + [];
      LastSetSkipsOthers(a, b[..|b| - 1], [], k);
      assert b[..|b| - 1] + [] == b[..|b| - 1];
    } else {
      assert a + b + c == a;
      LastSetOfNone(a, k);
    }
  }

  lemma {:induction false} LastSetOfNone(a: seq<CoreMessage>, k: string)
    requires forall i :: 0 <= i < |a| ==> !a[i].SetGateParam?
    ensures LastSet(a, k) == None
    decreases |a|
  {
    if |a| > 0 {
      LastSetOfNone(a[..|a| - 1], k);
    }
  }

  /** Whether the loader tells the core about setting `st` of hotspot
      `h`: an inversion for either kind of hotspot; pull-up, pull-down and
      a forced junction for inputs only; an enable input, when named, for
      outputs only. */
  predicate Applies(h: LibHotspot, st: HotspotSetting) {
    match st
    case Inverted => h.inverted
    case PullUp => h.pullUp && h.isInput
    case PullDown => h.pullDown && h.isInput
    case ForceJunction => h.forceJunction && h.isInput
    case EInput => h.eInput != "" && !h.isInput
  }

  /** The value sent for a setting: the enable input's name, else "TRUE". */
  function SettingValue(h: LibHotspot, st: HotspotSetting): string {
    if st == EInput then h.eInput else "TRUE"
  }

  /** The settings in the order the loader checks them. */
  const AllSettings: seq<HotspotSetting> := [Inverted, PullUp, PullDown, ForceJunction, EInput]

  lemma SettingListed(st: HotspotSetting)
    ensures st in AllSettings
  {
    var k := match st
      case Inverted => 0
      case PullUp => 1
      case PullDown => 2
      case ForceJunction => 3
      case EInput => 4;
    assert AllSettings[k] == st;
  }

  /** The settings of `sts` that apply to `h`, in order. */
  function Applicable(h: LibHotspot, sts: seq<HotspotSetting>): (r: seq<HotspotSetting>)
    ensures forall st :: st in r <==> st in sts && Applies(h, st)
    decreases |sts|
  {
    if |sts| == 0 then []
    else
      var rest := Applicable(h, sts[1..]);
      assert forall st :: st in sts <==> st == sts[0] || st in sts[1..];
      if Applies(h, sts[0]) then [sts[0]] + rest else rest
  }

  /** The message that sends setting `st` of hotspot `h` of gate `id`. */
  function HotspotMessage(id: int, h: LibHotspot, st: HotspotSetting): CoreMessage {
    SetHotspotParam(id, h.isInput, h.name, st, SettingValue(h, st))
  }

  /** Pull-up, pull-down and a forced junction go to input parameters,
      an enable input to output parameters. */
  predicate RightSide(m: CoreMessage)
    requires m.SetHotspotParam?
  {
    match m.setting
    case Inverted => true
    case EInput => !m.input
    case _ => m.input
  }

  lemma AppliesRightSide(id: int, h: LibHotspot, st: HotspotSetting)
    requires Applies(h, st)
    ensures RightSide(HotspotMessage(id, h, st))
  {
  }

  /** The settings of one library hotspot the core is told about, each as
      an input or output parameter message as the hotspot is an input or an
      output. A message is sent exactly for the settings that apply. */
  function HotspotMessages(id: int, h: LibHotspot): (r: seq<CoreMessage>)
    ensures forall i :: 0 <= i < |r| ==>
      r[i].SetHotspotParam? && Applies(h, r[i].setting) && r[i] == HotspotMessage(id, h, r[i].setting)
  {
    var sts := Applicable(h, AllSettings);
    seq(|sts|, i requires 0 <= i < |sts| => HotspotMessage(id, h, sts[i]))
  }

  /** Every setting that applies is sent. */
  lemma HotspotMessagesComplete(id: int, h: LibHotspot, st: HotspotSetting)
    requires Applies(h, st)
    ensures HotspotMessage(id, h, st) in HotspotMessages(id, h)
  {
    var sts := Applicable(h, AllSettings);
    SettingListed(st);
    var i :| 0 <= i < |sts| && sts[i] == st;
    assert HotspotMessages(id, h)[i] == HotspotMessage(id, h, st);
  }

  /** The hotspot settings of all library hotspots, in library order. */
  function HotspotsMessages(id: int, hs: seq<LibHotspot>): (r: seq<CoreMessage>)
    ensures forall i :: 0 <= i < |r| ==> r[i].SetHotspotParam? && r[i].id == id && RightSide(r[i])
    decreases |hs|
  {
    if |hs| == 0 then []
    else
      var first := HotspotMessages(id, hs[0]);
      var rest := HotspotsMessages(id, hs[1..]);
      forall i | 0 <= i < |first|
        ensures first[i].SetHotspotParam? && first[i].id == id && RightSide(first[i])
      {
        AppliesRightSide(id, hs[0], first[i].setting);
      }
      first + rest
  }

  /** Every setting that applies to any library hotspot is sent. */
  lemma {:induction false} HotspotsMessagesComplete(id: int, hs: seq<LibHotspot>, i: int, st: HotspotSetting)
    requires 0 <= i < |hs| && Applies(hs[i], st)
    ensures HotspotMessage(id, hs[i], st) in HotspotsMessages(id, hs)
    decreases |hs|
  {
    if i == 0 {
      HotspotMessagesComplete(id, hs[0], st);
    } else {
      assert hs[i] == hs[1..][i - 1];
      HotspotsMessagesComplete(id, hs[1..], i - 1, st);
    }
  }

  /** The `MT_CREATE_GATE` message for a library gate, sent only for a gate
      with a logic type. */
  function CreateMessages(id: int, g: LibGate): (r: seq<CoreMessage>)
    ensures r == [] <==> |g.logicType| == 0
    ensures forall m :: m in r ==> m == CreateGate(g.logicType, id)
  {
    if |g.logicType| > 0 then [CreateGate(g.logicType, id)] else []
  }

  const NotFoundType := "@@_NOT_FOUND"

  /** The library gate for a type, trying dynamic creation for `@@_`
      types. */
  function Resolve(t: string, lib: string -> Option<LibGate>, dynamic: string -> Option<LibGate>): (r: Option<LibGate>)
    ensures r.None? ==> lib(t).None?
    ensures lib(t).Some? ==> r == lib(t)
    ensures r.Some? && lib(t).None? ==> StartsWith(t, "@@_") && r == dynamic(t)
  {
    if lib(t).Some? then lib(t)
    else if StartsWith(t, "@@_") then dynamic(t)
    else None
  }

  /** The logic parameters a placed gate is given: the file's, merged with
      the library defaults when the gate has a logic type. */
  function GateParams(rec: GateRecord, g: LibGate): seq<Parameter> {
    if |g.logicType| > 0 then WithDefaults(rec.params, g.logicParams) else rec.params
  }

  /** The messages for the `@@_NOT_FOUND` stand-in: its creation, if the
      library has it with a logic type. */
  function NotFoundMessages(id: int, lib: string -> Option<LibGate>): seq<CoreMessage> {
    if lib(NotFoundType).Some? then CreateMessages(id, lib(NotFoundType).value) else []
  }

  function ParseGateToSend(rec: GateRecord, librariesLoaded: bool, lib: string -> Option<LibGate>,
                           dynamic: string -> Option<LibGate>, create: string -> bool): (r: GateLoad)
    ensures !librariesLoaded ==> r == GateLoad(true, None, None, [])
    ensures r.recorded.Some? <==> librariesLoaded && Resolve(rec.gateType, lib, dynamic).None?
    ensures r.recorded.Some? ==> r.notFound && r.recorded.value == rec.id
    ensures r.recorded.Some? && r.placed.Some? ==>
      var p := r.placed.value;
      p.gateType == NotFoundType && p.id == rec.id && p.wires == [] && p.lparams == []
      && Get(p.gparams, "ORIGINAL_NAME") == Some(rec.gateType)
      && forall k :: k != "ORIGINAL_NAME" ==> Get(p.gparams, k) == None
    ensures r.recorded.Some? ==> r.messages == NotFoundMessages(rec.id, lib)
    ensures forall i :: 0 <= i < |r.messages| ==> r.messages[i].id == rec.id
    ensures !r.notFound <==> librariesLoaded && Resolve(rec.gateType, lib, dynamic).Some? && create(rec.gateType)
    ensures !r.notFound ==> (r.placed.Some? && r.placed.value.gateType == rec.gateType
      && r.placed.value.id == rec.id && r.placed.value.wires == rec.inputs + rec.outputs)
    ensures !r.notFound ==>
      var defaults := Resolve(rec.gateType, lib, dynamic).value;
      var ps := GateParams(rec, defaults);
      r.placed.value.gparams == Apply(ps, true) && r.placed.value.lparams == Apply(ps, false)
    ensures librariesLoaded && Resolve(rec.gateType, lib, dynamic).Some? ==>
      var g := Resolve(rec.gateType, lib, dynamic).value;
      r.messages == CreateMessages(rec.id, g)
        + (if create(rec.gateType) then ParamMessages(rec.id, GateParams(rec, g)) else [])
        + (if create(rec.gateType) && |g.logicType| > 0 then HotspotsMessages(rec.id, g.hotspots) else [])
  {
    if !librariesLoaded then GateLoad(true, None, None, [])
    else
      match Resolve(rec.gateType, lib, dynamic)
      case None =>
        var gparams := Put([], "ORIGINAL_NAME", rec.gateType);
        GateLoad(true, Some(rec.id),
                 if create(NotFoundType) then Some(Placed(NotFoundType, rec.id, gparams, [], [])) else None,
                 NotFoundMessages(rec.id, lib))
      case Some(libGate) =>
        var created := CreateMessages(rec.id, libGate);
        if !create(rec.gateType) then
          assert created + [] + [] == created;
          GateLoad(true, None, None, created)
        else
          var ps := GateParams(rec, libGate);
          var hotspots := if |libGate.logicType| > 0 then HotspotsMessages(rec.id, libGate.hotspots) else [];
          GateLoad(false, None, Some(Placed(rec.gateType, rec.id, Apply(ps, true), Apply(ps, false),
                                            rec.inputs + rec.outputs)),
                   created + ParamMessages(rec.id, ps) + hotspots)
  }

  /** After loading a gate record, the core holds for every logic
      parameter exactly what the placed gate holds: the messages that
      create the gate and set its hotspots carry no parameter settings. */
  lemma LoadedCoreAgrees(rec: GateRecord, librariesLoaded: bool, lib: string -> Option<LibGate>,
                         dynamic: string -> Option<LibGate>, create: string -> bool, k: string)
    ensures var r := ParseGateToSend(rec, librariesLoaded, lib, dynamic, create);
      !r.notFound ==> LastSet(r.messages, k) == Get(r.placed.value.lparams, k)
  {
    var r := ParseGateToSend(rec, librariesLoaded, lib, dynamic, create);
    if !r.notFound {
      var g := Resolve(rec.gateType, lib, dynamic).value;
      var ps := GateParams(rec, g);
      var hotspots := if |g.logicType| > 0 then HotspotsMessages(rec.id, g.hotspots) else [];
      LastSetSkipsOthers(CreateMessages(rec.id, g), ParamMessages(rec.id, ps), hotspots, k);
      CoreAgreesOnLogicParams(rec.id, ps, k);
    }
  }

  // ---------------------------------------------------------------------
  // Wire records

  /** A connection of a wire segment: the gate ID and hotspot name, with
      the name normalised as an input hotspot name when read. */
  datatype SegmentConnection = SegmentConnection(gid: nat, hotspot: string)

  /** Whether a connection's gate ID (`unsigned long`) equals one of the
      recorded not-found IDs (`long`, converted for the comparison). */
  predicate IsNotFound(gid: nat, notFound: seq<int>) {
    exists i :: 0 <= i < |notFound| && gid == notFound[i] % ULongModulus
  }

  /** The connections of a segment, dropping those to not-found gates. */
  function KeepConnections(cs: seq<SegmentConnection>, notFound: seq<int>): (r: seq<SegmentConnection>)
    ensures |r| <= |cs|
    ensures forall c :: c in r <==> c in cs && !IsNotFound(c.gid, notFound)
    ensures (forall i :: 0 <= i < |cs| ==> !IsNotFound(cs[i].gid, notFound)) ==> r == cs
    decreases |cs|
  {
    if |cs| == 0 then []
    else
      var rest := KeepConnections(cs[1..], notFound);
      assert forall c :: c in cs <==> c == cs[0] || c in cs[1..];
      if IsNotFound(cs[0].gid, notFound) then rest else [cs[0]] + rest
  }

  /** A connection read from the file. */
  function ReadConnection(gid: nat, name: string): SegmentConnection {
    SegmentConnection(gid, InputHotspotName(name))
  }

  /** The circuit's record of a wire: its bus IDs and segment map. */
  datatype WireData<S> = WireData(ids: seq<WireId>, shape: S)

  /** The end of `parseWireToSend`: the IDs and segment map are applied to
      the wire registered under the first ID, and dropped when there is
      none. The first ID must exist (`ids.front()`). */
  function ApplyWire<S>(wires: map<WireId, WireData<S>>, ids: seq<WireId>, shape: S): (r: map<WireId, WireData<S>>)
    requires |ids| > 0
    ensures r.Keys == wires.Keys
    ensures forall w :: w in wires && w != ids[0] ==> r[w] == wires[w]
    ensures ids[0] in wires ==> r[ids[0]] == WireData(ids, shape)
    ensures ids[0] !in wires ==> r == wires
  {
    if ids[0] in wires then wires[ids[0] := WireData(ids, shape)] else wires
  }

  lemma ApplyWireIdempotent<S>(wires: map<WireId, WireData<S>>, ids: seq<WireId>, shape: S)
    requires |ids| > 0
    ensures ApplyWire(ApplyWire(wires, ids, shape), ids, shape) == ApplyWire(wires, ids, shape)
  {
  }
}

=== FILE: connect.dfy ===
/** How a finished connect-drag becomes a command. The three factories of
    the canvas decide between creating a wire, attaching a hotspot to an
    existing wire and merging two wires, or give no command at all.

    The command objects themselves (`cmdCreateWire`, `cmdConnectWire`,
    `cmdMergeWire`, ...) are not part of this model and appear as tagged
    values. Their bus-width check `validateBusLines` is the parameter
    `valid`, and `nextId(i)` is the ID the i-th call of
    `getNextAvailableWireID` made by one factory call returns. */
module Connection {
  import opened Wrappers
  import opened ParamMap
  import opened Gates
  import opened WireRegistry

  datatype ConnectCmd = ConnectCmd(wire: WireId, gate: GateId, hotspot: string)

  datatype Command =
    | Create(ids: seq<WireId>, first: ConnectCmd, second: ConnectCmd)
    | Connect(connect: ConnectCmd)
    | Merge(newIds: seq<WireId>, wire1: WireId, wire2: WireId)
    | Disconnect(wire: WireId, gate: GateId, hotspot: string)
    | DeleteWire(wire: WireId)
    | SetGuiParams(gate: GateId, gparams: PMap)

  /** The gates and wires of one page. */
  datatype Canvas = Canvas(gates: map<GateId, Gate>, wires: Registry)

  /** A hotspot of a gate on the canvas. */
  predicate HasHotspot(c: Canvas, g: GateId, hs: string) {
    g in c.gates && hs in c.gates[g].hotspots
  }

  /** Pointer equality `gate->getConnection(hs) == wireList[wireId]`: the
      list entry is a wire object, and it is the one the hotspot holds. */
  predicate AttachedTo(c: Canvas, g: GateId, hs: string, wireId: WireId)
    requires g in c.gates
  {
    c.gates[g].IsConnected(hs) && wireId in c.wires && c.wires[wireId].Some?
      && c.wires[wireId].value.id == c.gates[g].connections[hs]
  }

  /** The IDs the next `n` calls of `getNextAvailableWireID` hand out. */
  function FreshIds(n: nat, nextId: nat -> WireId): (ids: seq<WireId>)
    ensures |ids| == n && forall i :: 0 <= i < n ==> ids[i] == nextId(i)
  {
    seq(n, i requires 0 <= i => nextId(i))
  }

  /** `createGateWireConnectionCommand`: attach a hotspot to a wire, unless
      it is already attached to exactly that wire or the bus check fails. */
  function GateWireCommand(c: Canvas, g: GateId, hs: string, wireId: WireId,
                           valid: Command -> bool): (r: Option<Command>)
    requires g in c.gates
    ensures AttachedTo(c, g, hs, wireId) ==> r == None
    ensures !AttachedTo(c, g, hs, wireId) ==>
      r == (if valid(Connect(ConnectCmd(wireId, g, hs))) then Some(Connect(ConnectCmd(wireId, g, hs))) else None)
    ensures r.Some? ==> r.value.Connect? && r.value.connect == ConnectCmd(wireId, g, hs) && valid(r.value)
  {
    if AttachedTo(c, g, hs, wireId) then None
    else
      var cmd := Connect(ConnectCmd(wireId, g, hs));
      if valid(cmd) then Some(cmd) else None
  }

  /** `createGateConnectionCommand`: connect two hotspots. The bus width of
      the first hotspot decides how many new IDs a new wire takes, and the
      source indexes the first of them unconditionally, so the width is at
      least one. */
  function GateGateCommand(c: Canvas, g1: GateId, hs1: string, g2: GateId, hs2: string,
                           nextId: nat -> WireId, valid: Command -> bool): (r: Option<Command>)
    requires g1 in c.gates && g2 in c.gates
    requires HasHotspot(c, g1, hs1) && c.gates[g1].BusLines(hs1) >= 1
    ensures g1 == g2 && hs1 == hs2 ==> r == None
    ensures (c.gates[g1].IsConnected(hs1) && c.gates[g2].IsConnected(hs2)
             && c.gates[g1].connections[hs1] == c.gates[g2].connections[hs2]) ==> r == None
    ensures r.Some? ==> valid(r.value) && (r.value.Create? || r.value.Connect?)
    ensures r.Some? ==>
      (r.value.Create? <==> !c.gates[g1].IsConnected(hs1) && !c.gates[g2].IsConnected(hs2))
    ensures r.Some? && r.value.Create? ==>
      r.value.ids == FreshIds(c.gates[g1].BusLines(hs1), nextId)
      && r.value.first == ConnectCmd(nextId(0), g1, hs1)
      && r.value.second == ConnectCmd(nextId(0), g2, hs2)
    ensures r.Some? && r.value.Connect? ==>
      if c.gates[g1].IsConnected(hs1)
      then r.value.connect == ConnectCmd(c.gates[g1].connections[hs1], g2, hs2)
      else r.value.connect == ConnectCmd(c.gates[g2].connections[hs2], g1, hs1)
    ensures (!(g1 == g2 && hs1 == hs2) && !c.gates[g1].IsConnected(hs1) && !c.gates[g2].IsConnected(hs2)
             && valid(Create(FreshIds(c.gates[g1].BusLines(hs1), nextId),
                             ConnectCmd(nextId(0), g1, hs1), ConnectCmd(nextId(0), g2, hs2)))) ==> r.Some?
  {
    var gate1, gate2 := c.gates[g1], c.gates[g2];
    if g1 == g2 && hs1 == hs2 then None
    else if gate1.IsConnected(hs1) && gate2.IsConnected(hs2)
         && gate1.connections[hs1] == gate2.connections[hs2] then None
    else if !gate1.IsConnected(hs1) && !gate2.IsConnected(hs2) then
      var ids := FreshIds(gate1.BusLines(hs1), nextId);
      var cmd := Create(ids, ConnectCmd(ids[0], g1, hs1), ConnectCmd(ids[0], g2, hs2));
      if valid(cmd) then Some(cmd) else None
    else if gate1.IsConnected(hs1) then
      GateWireCommand(c, g2, hs2, gate1.connections[hs1], valid)
    else
      GateWireCommand(c, g1, hs1, gate2.connections[hs2], valid)
  }

  /** `createWireConnectionCommand`: merge two different wires into a new
      one with as many fresh IDs as the first wire has bus lines. The first
      ID's list entry is dereferenced, so it must hold a wire. */
  function WireWireCommand(c: Canvas, w1: WireId, w2: WireId,
                           nextId: nat -> WireId, valid: Command -> bool): (r: Option<Command>)
    requires w1 != w2 ==> w1 in c.wires && c.wires[w1].Some?
    ensures w1 == w2 ==> r == None
    ensures r.Some? ==> r.value.Merge? && r.value.wire1 == w1 && r.value.wire2 == w2 && valid(r.value)
    ensures r.Some? ==> r.value.newIds == FreshIds(|c.wires[w1].value.ids|, nextId)
    ensures w1 != w2 && valid(Merge(FreshIds(|c.wires[w1].value.ids|, nextId), w1, w2)) ==> r.Some?
  {
    if w1 == w2 then None
    else
      var cmd := Merge(FreshIds(|c.wires[w1].value.ids|, nextId), w1, w2);
      if valid(cmd) then Some(cmd) else None
  }

  // ---------------------------------------------------------------------
  // What the factories promise

  /** A hotspot is never connected to itself. */
  lemma NoSelfConnection(c: Canvas, g: GateId, hs: string, nextId: nat -> WireId, valid: Command -> bool)
    requires g in c.gates && HasHotspot(c, g, hs) && c.gates[g].BusLines(hs) >= 1
    ensures GateGateCommand(c, g, hs, g, hs, nextId, valid) == None
  {
  }

  /** Two hotspots already on the same wire give no command. */
  lemma AlreadyOnSameWire(c: Canvas, g1: GateId, hs1: string, g2: GateId, hs2: string,
                          nextId: nat -> WireId, valid: Command -> bool)
    requires g1 in c.gates && g2 in c.gates
    requires HasHotspot(c, g1, hs1) && c.gates[g1].BusLines(hs1) >= 1
    requires c.gates[g1].IsConnected(hs1) && c.gates[g2].IsConnected(hs2)
    requires c.gates[g1].connections[hs1] == c.gates[g2].connections[hs2]
    ensures GateGateCommand(c, g1, hs1, g2, hs2, nextId, valid) == None
  {
  }

  /** Two free hotspots (not the same one): a new wire with one fresh ID
      per bus line of the first hotspot, both ends attached to the first
      new ID; nothing if the bus check fails. */
  lemma BothFreeCreatesWire(c: Canvas, g1: GateId, hs1: string, g2: GateId, hs2: string,
                            nextId: nat -> WireId, valid: Command -> bool)
    requires g1 in c.gates && g2 in c.gates
    requires HasHotspot(c, g1, hs1) && c.gates[g1].BusLines(hs1) >= 1
    requires !(g1 == g2 && hs1 == hs2)
    requires !c.gates[g1].IsConnected(hs1) && !c.gates[g2].IsConnected(hs2)
    ensures var r := GateGateCommand(c, g1, hs1, g2, hs2, nextId, valid);
      var ids := FreshIds(c.gates[g1].BusLines(hs1), nextId);
      var cmd := Create(ids, ConnectCmd(nextId(0), g1, hs1), ConnectCmd(nextId(0), g2, hs2));
      |ids| == c.gates[g1].BusLines(hs1) &&
      (valid(cmd) ==> r == Some(cmd)) && (!valid(cmd) ==> r == None)
  {
  }

  /** Exactly one hotspot connected: the free one is attached to the other
      one's wire, through the gate-wire factory. */
  lemma OneConnectedAttaches(c: Canvas, g1: GateId, hs1: string, g2: GateId, hs2: string,
                             nextId: nat -> WireId, valid: Command -> bool)
    requires g1 in c.gates && g2 in c.gates
    requires HasHotspot(c, g1, hs1) && c.gates[g1].BusLines(hs1) >= 1
    requires c.gates[g1].IsConnected(hs1) != c.gates[g2].IsConnected(hs2)
    ensures var r := GateGateCommand(c, g1, hs1, g2, hs2, nextId, valid);
      if c.gates[g1].IsConnected(hs1)
      then r == GateWireCommand(c, g2, hs2, c.gates[g1].connections[hs1], valid)
      else r == GateWireCommand(c, g1, hs1, c.gates[g2].connections[hs2], valid)
  {
  }

}

=== FILE: gate.dfy ===
/** The editor's view of one gate (`guiGate`) and its pins
    (`gateHotspot`): named hotspots with a bus width, the wire each hotspot
    is attached to, the input/output direction of each pin name, and the
    two parameter maps (GUI parameters and logic parameters). */
module Gates {
  import opened Wrappers
  import opened ParamMap

  type GateId = nat
  type WireId = nat

  datatype Point = Point(x: real, y: real)

  /** An axis-aligned box, `left <= right` and `bottom <= top` when built
      from a point. */
  datatype BBox = BBox(left: real, bottom: real, right: real, top: real) {
    predicate Contains(p: Point) {
      left <= p.x <= right && bottom <= p.y <= top
    }
  }

  /** `GATE_HOTSPOT_THICKNESS`. */
  const HotspotThickness: real := 0.05

  datatype Hotspot = Hotspot(name: string, busLines: int, world: Point)

  /** The default `gateHotspot` constructor: unnamed, one bus line, at the
      origin. */
  function DefaultHotspot(): (h: Hotspot)
    ensures h.busLines == 1 && h.name == "" && h.world == Point(0.0, 0.0)
  {
    Hotspot("", 1, Point(0.0, 0.0))
  }

  /** The named constructor. Its body calls the default constructor as an
      expression, which only builds and drops a temporary, so the location
      stays at its default; `busLines` is set to 1 explicitly. */
  function NamedHotspot(name: string): (h: Hotspot)
    ensures h.name == name && h.busLines == DefaultHotspot().busLines
  {
    Hotspot(name, 1, Point(0.0, 0.0))
  }

  /** `calcBBox`: the world location grown by half the hotspot thickness on
      all four sides. */
  function HotspotBBox(h: Hotspot): (b: BBox)
    ensures b.Contains(h.world)
    ensures b.right - b.left == HotspotThickness && b.top - b.bottom == HotspotThickness
    ensures (b.left + b.right) / 2.0 == h.world.x && (b.bottom + b.top) / 2.0 == h.world.y
  {
    var d := HotspotThickness / 2.0;
    BBox(h.world.x - d, h.world.y - d, h.world.x + d, h.world.y + d)
  }

  /** A point is inside a hotspot's box exactly when it is within half the
      thickness of the hotspot on both axes. */
  lemma HotspotBBoxIsNeighbourhood(h: Hotspot, p: Point)
    ensures HotspotBBox(h).Contains(p) <==>
      -HotspotThickness / 2.0 <= p.x - h.world.x <= HotspotThickness / 2.0 &&
      -HotspotThickness / 2.0 <= p.y - h.world.y <= HotspotThickness / 2.0
  {
  }

  /** `connections` holds, per hotspot name, the primary ID of the wire the
      hotspot is attached to; a name that is absent is not connected. */
  datatype Gate = Gate(
    id: GateId,
    libName: string,
    libGateName: string,
    hotspots: map<string, Hotspot>,
    connections: map<string, WireId>,
    isInput: map<string, bool>,
    gparams: PMap,
    lparams: PMap)
  {
    predicate IsConnected(hs: string) {
      hs in connections
    }

    /** `getConnection`: the wire a hotspot is attached to, if any. */
    function Connection(hs: string): Option<WireId> {
      if hs in connections then Some(connections[hs]) else None
    }

    /** The bus width of a pin (`getHotspot(name)->getBusLines()`). */
    function BusLines(hs: string): int
      requires hs in hotspots
    {
      hotspots[hs].busLines
    }
  }

  /** `getHotspotList`: each hotspot name mapped to its world location. */
  function HotspotList(g: Gate): (r: map<string, Point>)
    ensures r.Keys == g.hotspots.Keys
    ensures forall n :: n in r ==> r[n] == g.hotspots[n].world
  {
    map n | n in g.hotspots :: g.hotspots[n].world
  }

  /** `declareInput` / `declareOutput`: record the direction of a pin. */
  function Declare(g: Gate, name: string, input: bool): (r: Gate)
    ensures name in r.isInput && r.isInput[name] == input
    ensures forall n :: n != name ==> (n in r.isInput <==> n in g.isInput)
    ensures forall n :: n != name && n in g.isInput ==> r.isInput[n] == g.isInput[n]
    ensures r.(isInput := g.isInput) == g
  {
    g.(isInput := g.isInput[name := input])
  }

  /** Declaring a pin twice: only the last declaration counts. */
  lemma LastDeclarationWins(g: Gate, name: string, first: bool, second: bool)
    ensures Declare(Declare(g, name, first), name, second) == Declare(g, name, second)
  {
  }

  /** `isConnectionInput`: the recorded direction, `false` for a name never
      declared. */
  function IsConnectionInput(g: Gate, name: string): (r: bool)
    ensures name in g.isInput ==> r == g.isInput[name]
    ensures name !in g.isInput ==> !r
  {
    name in g.isInput && g.isInput[name]
  }

  /** The base `setLogicParam`: store the value under the name. */
  function SetLogicParam(g: Gate, name: string, value: string): (r: Gate)
    ensures Get(r.lparams, name) == Some(value)
    ensures forall n :: n != name ==> Get(r.lparams, n) == Get(g.lparams, n)
    ensures r.(lparams := g.lparams) == g
  {
    g.(lparams := Put(g.lparams, name, value))
  }

  /** `setGUIParam`, whose body (in guiGate.cpp, which is not part of this
      model) is documented as a plain assignment. */
  function SetGUIParam(g: Gate, name: string, value: string): (r: Gate)
    ensures Get(r.gparams, name) == Some(value)
    ensures forall n :: n != name ==> Get(r.gparams, n) == Get(g.gparams, n)
    ensures r.(gparams := g.gparams) == g
  {
    g.(gparams := Put(g.gparams, name, value))
  }

  /** Reading `m[name]` of a `std::map`: the stored value, or "" for an
      absent name, which the read also inserts. */
  function ReadParam(m: PMap, name: string): (r: (PMap, string))
    ensures Has(m, name) ==> r.0 == m && Get(m, name) == Some(r.1)
    ensures !Has(m, name) ==> r.1 == "" && Get(r.0, name) == Some("")
    ensures forall n :: n != name ==> Get(r.0, n) == Get(m, n)
  {
    if Has(m, name) then (m, Lookup(m, name)) else (Put(m, name, ""), "")
  }

  /** `getLogicParam`. */
  function GetLogicParam(g: Gate, name: string): (r: (Gate, string))
    ensures r.1 == Lookup(g.lparams, name)
    ensures forall k :: Lookup(r.0.lparams, k) == Lookup(g.lparams, k)
    ensures r.0.(lparams := g.lparams) == g
  {
    var (m, v) := ReadParam(g.lparams, name);
    (g.(lparams := m), v)
  }

  /** `getGUIParam`. */
  function GetGUIParam(g: Gate, name: string): (r: (Gate, string))
    ensures r.1 == Lookup(g.gparams, name)
    ensures forall k :: Lookup(r.0.gparams, k) == Lookup(g.gparams, k)
    ensures r.0.(gparams := g.gparams) == g
  {
    var (m, v) := ReadParam(g.gparams, name);
    (g.(gparams := m), v)
  }

  /** A stored parameter reads back as stored, and the read changes nothing. */
  lemma SetThenGetLogicParam(g: Gate, name: string, value: string)
    ensures GetLogicParam(SetLogicParam(g, name, value), name) == (SetLogicParam(g, name, value), value)
  {
  }

  /** Reading a parameter twice reads the same value, and the second read
      changes nothing more. */
  lemma ReadParamIdempotent(m: PMap, name: string)
    ensures ReadParam(ReadParam(m, name).0, name) == ReadParam(m, name)
  {
  }
}

=== FILE: gate_structs.dfy ===
/** `createGatesStruct`: the checks a configured two-level gate structure
    must pass before it is built. A `%%_16_WIRES` block needs none; a PLD
    needs a well-formed connection map; a `%%_31_GATES` block needs at
    least one gate in use; a `%%_34_CIRCUIT` block needs distinct input
    names and gates whose terms name those inputs. Any other palette kind
    is refused. */
module GateStructs {
  import opened Wrappers
  import opened Strings
  import opened ParamMap
  import opened StreamExtract
  import opened GateTypes
  import opened PldMap

  /** How the check ends: the structure is built, refused with a message
      for the user, stopped by `map::at` on an absent parameter, or reaches
      undefined behaviour (a `double` out of the range of `unsigned long`
      converted to it). */
  datatype Verdict = Accepted | Rejected(message: string) | Thrown(missing: string) | Undefined

  /** The gate's GUI parameters afterwards, and the verdict. */
  datatype Outcome = Outcome(gparams: PMap, verdict: Verdict)

  /** `gParamList.at(k)`: the value, or the throw naming the absent key. */
  function Need(gp: PMap, k: string): (r: Result<string, Verdict>)
    ensures r.Ok? <==> Has(gp, k)
    ensures r.Ok? ==> r.value == Lookup(gp, k)
    ensures r.Err? ==> r.error == Thrown(k)
  {
    match At(gp, k)
    case Ok(v) => Ok(v)
    case Err(missing) => Err(Thrown(missing))
  }

  // ---------------------------------------------------------------------
  // %%_38_PLD

  /** The device layout from `PLD_TYPE`, `INPUT_BITS`, `OUTPUT_BITS` and,
      except for a PROM, `OR_INPUTS`; the numbers go through `atoi` into
      `unsigned long`. `pow(2, INPUT_BITS)` is computed for every kind, and
      from 64 input bits on it does not fit. */
  function PldLayout(gp: PMap): (r: Result<(PldKind, Layout), Verdict>)
    ensures r.Ok? ==> r.value.0 == KindOf(Lookup(gp, "PLD_TYPE"))
    ensures r.Ok? ==> Atoi(Lookup(gp, "INPUT_BITS")) % ULongModulus < 64
    ensures r.Err? ==> r.error.Thrown? || r.error.Undefined?
    ensures !Has(gp, "PLD_TYPE") ==> r == Err(Thrown("PLD_TYPE"))
    ensures Has(gp, "PLD_TYPE") && !Has(gp, "INPUT_BITS") ==> r == Err(Thrown("INPUT_BITS"))
    ensures Has(gp, "PLD_TYPE") && Has(gp, "INPUT_BITS") && !Has(gp, "OUTPUT_BITS") ==>
      r == Err(Thrown("OUTPUT_BITS"))
    ensures Has(gp, "PLD_TYPE") && Has(gp, "INPUT_BITS") && Has(gp, "OUTPUT_BITS") ==>
      (r == Err(Undefined) <==> ULong(Atoi(Lookup(gp, "INPUT_BITS"))) >= 64)
    ensures (Has(gp, "PLD_TYPE") && Has(gp, "INPUT_BITS") && Has(gp, "OUTPUT_BITS")
             && ULong(Atoi(Lookup(gp, "INPUT_BITS"))) < 64) ==>
      (r.Ok? <==> KindOf(Lookup(gp, "PLD_TYPE")) == Prom || Has(gp, "OR_INPUTS"))
      && (r.Err? ==> r == Err(Thrown("OR_INPUTS")))
    ensures r.Ok? ==>
      var kind := KindOf(Lookup(gp, "PLD_TYPE"));
      var orInputs := if kind == Prom then 0 else ULong(Atoi(Lookup(gp, "OR_INPUTS")));
      ULong(Atoi(Lookup(gp, "INPUT_BITS"))) < 64
      && r.value.1 == LayoutOf(kind, ULong(Atoi(Lookup(gp, "INPUT_BITS"))),
                               ULong(Atoi(Lookup(gp, "OUTPUT_BITS"))), orInputs)
  {
    var pldType :- Need(gp, "PLD_TYPE");
    var inText :- Need(gp, "INPUT_BITS");
    var outText :- Need(gp, "OUTPUT_BITS");
    var inBits := ULong(Atoi(inText));
    var outBits := ULong(Atoi(outText));
    if inBits >= 64 then Err(Undefined)
    else
      var kind := KindOf(pldType);
      if kind == Prom then Ok((kind, LayoutOf(kind, inBits, outBits, 0)))
      else
        var orText :- Need(gp, "OR_INPUTS");
        Ok((kind, LayoutOf(kind, inBits, outBits, ULong(Atoi(orText)))))
  }

  /** Only `PLD_TYPE`, `INPUT_BITS`, `OUTPUT_BITS` and `OR_INPUTS` decide
      the layout: setting any other parameter leaves it as it was. */
  lemma PldLayoutReadsFourKeys(gp: PMap, k: string, v: string)
    requires k != "PLD_TYPE" && k != "INPUT_BITS" && k != "OUTPUT_BITS" && k != "OR_INPUTS"
    ensures PldLayout(Put(gp, k, v)) == PldLayout(gp)
  {
    var gp' := Put(gp, k, v);
    PutKeepsNeed(gp, k, v, "PLD_TYPE");
    PutKeepsNeed(gp, k, v, "INPUT_BITS");
    PutKeepsNeed(gp, k, v, "OUTPUT_BITS");
    PutKeepsNeed(gp, k, v, "OR_INPUTS");
  }

  lemma PutKeepsNeed(gp: PMap, k: string, v: string, n: string)
    requires n != k
    ensures Need(Put(gp, k, v), n) == Need(gp, n)
  {
    assert Get(Put(gp, k, v), n) == Get(gp, n);
  }

  /** The PLD branch: an accepted non-empty map is stored back without its
      line breaks; nothing else changes. */
  method CheckPld(gp: PMap) returns (r: Outcome)
    ensures r.verdict.Accepted? <==> (PldLayout(gp).Ok? && Has(gp, "CONNECTIONS")
      && Accepts(PldLayout(gp).value.0, PldLayout(gp).value.1, Lookup(gp, "CONNECTIONS")))
    ensures r.verdict.Accepted? ==> r.gparams == Put(gp, "CONNECTIONS", Strip(Lookup(gp, "CONNECTIONS")))
    ensures !r.verdict.Accepted? ==> r.gparams == gp
    ensures PldLayout(gp).Err? ==> r.verdict == PldLayout(gp).error
    ensures PldLayout(gp).Ok? && !Has(gp, "CONNECTIONS") ==> r.verdict == Thrown("CONNECTIONS")
    ensures (PldLayout(gp).Ok? && Has(gp, "CONNECTIONS") && !r.verdict.Accepted?) ==>
      r.verdict.Rejected? && r.verdict.message in [InvalidChar, InvalidLineLength, InvalidLines, InvalidLength]
  {
    var layout := PldLayout(gp);
    if layout.Err? {
      return Outcome(gp, layout.error);
    }
    var (kind, l) := layout.value;
    var connections := At(gp, "CONNECTIONS");
    if connections.Err? {
      return Outcome(gp, Thrown(connections.error));
    }
    var checked := CheckConnections(kind, l, connections.value);
    if checked.Err? {
      return Outcome(gp, Rejected(checked.error));
    }
    if connections.value == "" {
      assert Strip("") == "";
      PutSame(gp, "CONNECTIONS");
      return Outcome(gp, Accepted);
    }
    return Outcome(Put(gp, "CONNECTIONS", checked.value), Accepted);
  }

  /** Storing the value a key already has changes nothing. */
  lemma PutSame(m: PMap, k: string)
    requires Has(m, k)
    ensures Put(m, k, Lookup(m, k)) == m
  {
    Extensional(Put(m, k, Lookup(m, k)), m);
  }

  // ---------------------------------------------------------------------
  // %%_31_GATES and the gate parameters `G1`, `G2`, ...

  function GName(i: nat): string {
    "G" + NatToString(i)
  }

  /** How many of `G1` .. `Gk` are not "0". */
  function CountUsed(gp: PMap, k: nat): (r: Result<nat, Verdict>)
    ensures r.Ok? <==> forall i :: 1 <= i <= k ==> Has(gp, GName(i))
    ensures r.Ok? ==> (r.value == 0 <==> forall i :: 1 <= i <= k ==> Lookup(gp, GName(i)) == "0")
    ensures r.Err? ==> r.error.Thrown?
    decreases k
  {
    if k == 0 then Ok(0)
    else
      var n :- CountUsed(gp, k - 1);
      var v :- Need(gp, GName(k));
      Ok(n + if v != "0" then 1 else 0)
  }

  /** The `%%_31_GATES` branch: some of the eight gates must be in use. */
  function CheckGates(gp: PMap): (r: Outcome)
    ensures r.gparams == gp
    ensures r.verdict.Accepted? <==> ((forall i :: 1 <= i <= 8 ==> Has(gp, GName(i)))
      && exists i :: 1 <= i <= 8 && Lookup(gp, GName(i)) != "0")
  {
    match CountUsed(gp, 8)
    case Err(v) => Outcome(gp, v)
    case Ok(n) => if n == 0 then Outcome(gp, Rejected("No gate has defined inputs")) else Outcome(gp, Accepted)
  }

  // ---------------------------------------------------------------------
  // %%_34_CIRCUIT: input names

  predicate EndsWithDash(token: string) {
    |token| > 0 && token[|token| - 1] == '-'
  }

  /** An input name with its '-' mark (no inverter link) removed. */
  function DropDash(token: string): string {
    if EndsWithDash(token) then token[..|token| - 1] else token
  }

  /** The input names the tokens declare, in order; a token that is only
      "-" declares none. */
  function NamesOf(tokens: seq<string>): seq<string>
    decreases |tokens|
  {
    if |tokens| == 0 then []
    else (if DropDash(tokens[0]) == "" then [] else [DropDash(tokens[0])]) + NamesOf(tokens[1..])
  }

  predicate Distinct(s: seq<string>) {
    forall i, j :: 0 <= i < j < |s| ==> s[i] != s[j]
  }

  /** A '-' mark is allowed only where `NO_LINK_INPUT` is present and not
      "true". */
  predicate SuffixAllowed(tokens: seq<string>, noLink: Option<string>) {
    forall i :: 0 <= i < |tokens| && EndsWithDash(tokens[i]) ==> noLink.Some? && noLink.value != "true"
  }

  /** One step of the input-name loop keeps the collected names distinct. */
  lemma NameStep(acc: seq<string>, name: string, rest: seq<string>)
    requires Distinct(acc) && (name == "" || name !in acc)
    ensures var acc' := if name == "" then acc else acc + [name];
      Distinct(acc') && acc + ((if name == "" then [] else [name]) + rest) == acc' + rest
  {
    if name == "" {
      assert [] + rest == rest;
    }
  }

  lemma NotDistinct(acc: seq<string>, name: string, rest: seq<string>)
    requires name in acc
    ensures !Distinct(acc + ([name] + rest))
  {
    var i :| 0 <= i < |acc| && acc[i] == name;
    var s := acc + ([name] + rest);
    assert s[i] == name && s[|acc|] == name;
  }

  /** The input-name loop: each token, its '-' mark removed, is a new input
      name; a '-' mark is refused when `NO_LINK_INPUT` is "true" (and the
      absent parameter throws), a repeated name is refused. */
  function ReadInputNames(tokens: seq<string>, noLink: Option<string>, acc: seq<string>)
    : (r: Result<seq<string>, Verdict>)
    requires Distinct(acc)
    ensures r.Ok? <==> SuffixAllowed(tokens, noLink) && Distinct(acc + NamesOf(tokens))
    ensures r.Ok? ==> r.value == acc + NamesOf(tokens)
    ensures r.Err? ==> r.error.Rejected? || r.error == Thrown("NO_LINK_INPUT")
    decreases |tokens|
  {
    if |tokens| == 0 then
      assert acc + [] == acc;
      Ok(acc)
    else
      var token := tokens[0];
      var name := DropDash(token);
      var rest := tokens[1..];
      assert NamesOf(tokens) == (if name == "" then [] else [name]) + NamesOf(rest);
      if EndsWithDash(token) && noLink.None? then Err(Thrown("NO_LINK_INPUT"))
      else if EndsWithDash(token) && noLink.value == "true" then
        Err(Rejected("Input '" + name + "' can't have '-' sufix"))
      else if name != "" && name in acc then
        NotDistinct(acc, name, NamesOf(rest));
        Err(Rejected("Duplicate input '" + name + "'"))
      else
        var acc' := if name == "" then acc else acc + [name];
        NameStep(acc, name, NamesOf(rest));
        assert SuffixAllowed(tokens, noLink) <==> SuffixAllowed(rest, noLink) by {
          assert forall i :: 0 < i < |tokens| ==> tokens[i] == rest[i - 1];
        }
        ReadInputNames(rest, noLink, acc')
  }

  // ---------------------------------------------------------------------
  // %%_34_CIRCUIT: gate terms

  /** A term names an input, plainly or inverted with a leading '/'. */
  predicate Known(term: string, names: seq<string>) {
    if |term| > 0 && term[0] == '/' then term[1..] in names else term in names
  }

  /** The first term that names no input. */
  function FirstUnknown(terms: seq<string>, names: seq<string>): (r: Option<string>)
    ensures r.None? <==> AllKnown(terms, names)
    ensures r.Some? ==> r.value in terms && !Known(r.value, names)
    decreases |terms|
  {
    if |terms| == 0 then None
    else if !Known(terms[0], names) then Some(terms[0])
    else
      var r := FirstUnknown(terms[1..], names);
      assert forall i :: 0 < i < |terms| ==> terms[i] == terms[1..][i - 1];
      r
  }

  /** What `Gi` must satisfy: present, and when not empty, made of at least
      one term, each naming an input. */
  predicate GateOk(gp: PMap, names: seq<string>, i: nat) {
    Has(gp, GName(i)) && GateTextOk(Lookup(gp, GName(i)), names)
  }

  predicate GateTextOk(g: string, names: seq<string>) {
    g != "" ==> |Tokens(g)| > 0 && AllKnown(Tokens(g), names)
  }

  predicate AllKnown(terms: seq<string>, names: seq<string>) {
    forall i :: 0 <= i < |terms| ==> Known(terms[i], names)
  }

  /** The check of one gate `Gi`: true when it is in use. */
  function CheckGate(gp: PMap, names: seq<string>, i: nat): (r: Result<bool, Verdict>)
    ensures r.Ok? <==> GateOk(gp, names, i)
    ensures r.Ok? ==> (r.value <==> Lookup(gp, GName(i)) != "")
    ensures r.Err? ==> r.error.Rejected? || r.error == Thrown(GName(i))
  {
    var g :- Need(gp, GName(i));
    if g == "" then Ok(false)
    else
      var terms := Tokens(g);
      match FirstUnknown(terms, names)
      case Some(term) =>
        Err(Rejected("Unknown input name: '" + term + "' at gate " + NatToString(i)))
      case None =>
        if |terms| == 0 then Err(Rejected("Gate " + NatToString(i) + " whithout inputs"))
        else Ok(true)
  }

  /** The loop over `G1` .. `Gk`: how many are in use. */
  function CheckTerms(gp: PMap, names: seq<string>, k: nat): (r: Result<nat, Verdict>)
    ensures r.Ok? <==> forall i :: 1 <= i <= k ==> GateOk(gp, names, i)
    ensures r.Ok? ==> (r.value == 0 <==> forall i :: 1 <= i <= k ==> Lookup(gp, GName(i)) == "")
    ensures r.Err? ==> r.error.Rejected? || r.error.Thrown?
    decreases k
  {
    if k == 0 then Ok(0)
    else
      var n :- CheckTerms(gp, names, k - 1);
      var used :- CheckGate(gp, names, k);
      Ok(n + if used then 1 else 0)
  }

  /** `NO_LINK_INPUT`, if the gate has it. */
  function NoLink(gp: PMap): Option<string> {
    if Has(gp, "NO_LINK_INPUT") then Some(Lookup(gp, "NO_LINK_INPUT")) else None
  }

  /** The number of gate parameters `G1` .. `G16` of a circuit block. */
  const CircuitGates: nat := 16

  /** What the gates of an accepted `%%_34_CIRCUIT` block satisfy: each
      one's terms name inputs, and some gate is in use. */
  predicate GatesValid(gp: PMap, names: seq<string>) {
    (forall i :: 1 <= i <= CircuitGates ==> GateOk(gp, names, i)) &&
    exists i :: 1 <= i <= CircuitGates && Lookup(gp, GName(i)) != ""
  }

  /** The checks after the input names: their number, then the gates. */
  function GatesVerdict(gp: PMap, names: seq<string>): (v: Verdict)
    ensures v.Accepted? <==> 1 <= |names| <= 16 && GatesValid(gp, names)
  {
    if |names| == 0 then Rejected("Incorrect number of inputs, must be at least one")
    else if |names| > 16 then Rejected("Incorrect number of inputs, must be less than 16")
    else
      var r := CheckTerms(gp, names, CircuitGates);
      if r.Err? then r.error
      else if r.value == 0 then Rejected("No gate has defined inputs")
      else
        assert !forall i :: 1 <= i <= CircuitGates ==> Lookup(gp, GName(i)) == "";
        Accepted
  }

  /** What the input names of an accepted block satisfy. */
  predicate InputsValid(gp: PMap) {
    Has(gp, "INPUT_NAMES") &&
    var tokens := Tokens(Lookup(gp, "INPUT_NAMES"));
    SuffixAllowed(tokens, NoLink(gp)) && Distinct(NamesOf(tokens))
  }

  /** Everything an accepted `%%_34_CIRCUIT` block satisfies. */
  predicate CircuitValid(gp: PMap) {
    Has(gp, "OUTPUT_NAME") && InputsValid(gp) &&
    var names := NamesOf(Tokens(Lookup(gp, "INPUT_NAMES")));
    1 <= |names| <= 16 && GatesValid(gp, names)
  }

  /** The checks from `INPUT_NAMES` on. */
  function InputsVerdict(gp: PMap): (v: Verdict)
    ensures v.Accepted? <==> (InputsValid(gp)
      && GatesVerdict(gp, NamesOf(Tokens(Lookup(gp, "INPUT_NAMES")))).Accepted?)
  {
    match Need(gp, "INPUT_NAMES")
    case Err(v) => v
    case Ok(inputText) =>
      ReadInputNamesFresh(Tokens(inputText), NoLink(gp));
      match ReadInputNames(Tokens(inputText), NoLink(gp), [])
      case Err(v) => v
      case Ok(names) => GatesVerdict(gp, names)
  }

  /** Read from an empty list, the names are those of the tokens. */
  lemma ReadInputNamesFresh(tokens: seq<string>, noLink: Option<string>)
    ensures ReadInputNames(tokens, noLink, []).Ok? <==> SuffixAllowed(tokens, noLink) && Distinct(NamesOf(tokens))
    ensures ReadInputNames(tokens, noLink, []).Ok? ==> ReadInputNames(tokens, noLink, []).value == NamesOf(tokens)
  {
    assert [] + NamesOf(tokens) == NamesOf(tokens);
  }

  /** The `%%_34_CIRCUIT` branch. The output name, with its spaces removed
      by `removeSpaces`, is stored before any check, so it is kept even when
      the block is refused. */
  function CheckCircuit(gp: PMap, removeSpaces: string -> string): (r: Outcome)
    ensures r.verdict.Accepted? <==> CircuitValid(gp)
    ensures Has(gp, "OUTPUT_NAME") ==> r.gparams == Put(gp, "OUTPUT_NAME", removeSpaces(Lookup(gp, "OUTPUT_NAME")))
    ensures !Has(gp, "OUTPUT_NAME") ==> r.gparams == gp && r.verdict == Thrown("OUTPUT_NAME")
  {
    match Need(gp, "OUTPUT_NAME")
    case Err(v) => Outcome(gp, v)
    case Ok(output) => Outcome(Put(gp, "OUTPUT_NAME", removeSpaces(output)), InputsVerdict(gp))
  }

  // ---------------------------------------------------------------------
  // The dispatch

  /** `createGatesStruct`: true (and the structure is built) exactly for
      an accepted verdict. */
  method CreateGatesStruct(lib: string, gp: PMap, removeSpaces: string -> string) returns (r: Outcome)
    ensures lib == "%%_16_WIRES" ==> r == Outcome(gp, Accepted)
    ensures lib == "%%_31_GATES" ==> r == CheckGates(gp)
    ensures lib == "%%_34_CIRCUIT" ==> r == CheckCircuit(gp, removeSpaces)
    ensures lib == "%%_38_PLD" ==> (r.verdict.Accepted? <==> (PldLayout(gp).Ok? && Has(gp, "CONNECTIONS")
      && Accepts(PldLayout(gp).value.0, PldLayout(gp).value.1, Lookup(gp, "CONNECTIONS"))))
    ensures lib == "%%_38_PLD" && r.verdict.Accepted? ==>
      r.gparams == Put(gp, "CONNECTIONS", Strip(Lookup(gp, "CONNECTIONS")))
    ensures lib == "%%_38_PLD" && !r.verdict.Accepted? ==> r.gparams == gp
    ensures lib == "%%_38_PLD" && PldLayout(gp).Err? ==> r.verdict == PldLayout(gp).error
    ensures lib == "%%_38_PLD" && PldLayout(gp).Ok? && !Has(gp, "CONNECTIONS") ==>
      r.verdict == Thrown("CONNECTIONS")
    ensures (lib == "%%_38_PLD" && PldLayout(gp).Ok? && Has(gp, "CONNECTIONS") && !r.verdict.Accepted?) ==>
      r.verdict.Rejected?
    ensures lib !in ["%%_16_WIRES", "%%_31_GATES", "%%_34_CIRCUIT", "%%_38_PLD"] ==>
      r == Outcome(gp, Rejected("Incorrect Gate"))
  {
    if lib == "%%_16_WIRES" {
      r := Outcome(gp, Accepted);
    } else if lib == "%%_38_PLD" {
      r := CheckPld(gp);
    } else if lib == "%%_31_GATES" {
      r := CheckGates(gp);
    } else if lib == "%%_34_CIRCUIT" {
      r := CheckCircuit(gp, removeSpaces);
    } else {
      r := Outcome(gp, Rejected("Incorrect Gate"));
    }
  }
}

=== FILE: gate_types.dfy ===
/** The library type names a configured dynamic gate (`%%_...` in the
    palette) is replaced by: `getGate`, `getLatch`, `getFlipFlop` and the
    type strings of `replaceGate`. Every parameter is read with `map::at`,
    which throws for an absent name; that outcome is `Err(name)`. */
module GateTypes {
  import opened Wrappers
  import opened Strings
  import opened ParamMap
  import opened StreamExtract

  /** `m.at(k)`: the stored value, or the exception for an absent key. */
  function At(m: PMap, k: string): (r: Result<string, string>)
    ensures r.Ok? <==> Has(m, k)
    ensures r.Ok? ==> Get(m, k) == Some(r.value)
    ensures r.Err? ==> r.error == k
  {
    if Has(m, k) then Ok(Lookup(m, k)) else Err(k)
  }

  // ---------------------------------------------------------------------
  // getGate

  /** The gate kinds of `GATE_TYPE` and the letter their library names
      start with. */
  function GateLetter(gateType: string): (r: Option<char>)
    ensures r.Some? <==> gateType in ["AND", "NAND", "OR", "NOR", "XOR", "XNOR"]
  {
    if gateType == "AND" then Some('A')
    else if gateType == "NAND" then Some('B')
    else if gateType == "OR" then Some('C')
    else if gateType == "NOR" then Some('D')
    else if gateType == "XOR" then Some('E')
    else if gateType == "XNOR" then Some('F')
    else None
  }

  /** The `char index` of `getGate`: `47 + n` below 11 inputs and `54 + n`
      from 11 on, truncated to a byte. */
  function IndexChar(n: nat): char {
    if n < 11 then ((47 + n) % 256) as char else ((54 + n) % 256) as char
  }

  /** The upper-case hexadecimal digit of `d`. */
  function HexDigit(d: nat): (c: char)
    requires d < 16
  {
    if d < 10 then ('0' as int + d) as char else ('A' as int + d - 10) as char
  }

  /** For 1 to 16 inputs the index character is the hexadecimal digit of
      one less than the number of inputs. */
  lemma IndexIsHexOfPredecessor(n: nat)
    requires 1 <= n <= 16
    ensures IndexChar(n) == HexDigit(n - 1)
  {
  }

  /** The name for a gate kind and an input count, `N_INPUTS` already
      converted: `atoi` then the conversion to `unsigned long`. */
  function GateName(gateType: string, n: nat): (r: string)
    ensures r == "" <==> GateLetter(gateType).None?
    ensures r != "" ==> (|r| >= 2 && r[0] == GateLetter(gateType).value && r[1] == IndexChar(n)
                         && EndsWith(r, NatToString(n)))
  {
    match GateLetter(gateType)
    case None => ""
    case Some(letter) => [letter, IndexChar(n)] + "_S" + gateType + NatToString(n)
  }

  /** `getGate`. */
  function GetGate(gp: PMap): (r: Result<string, string>)
    ensures r.Err? <==> !Has(gp, "GATE_TYPE") || !Has(gp, "N_INPUTS")
    ensures r.Ok? ==> r.value == GateName(Lookup(gp, "GATE_TYPE"), Atoi(Lookup(gp, "N_INPUTS")) % ULongModulus)
  {
    var gateType :- At(gp, "GATE_TYPE");
    var inputs :- At(gp, "N_INPUTS");
    Ok(GateName(gateType, Atoi(inputs) % ULongModulus))
  }

  /** A name built by `getGate` tells the gate kind and the input count
      back. */
  lemma {:induction false} GateNameInjective(t1: string, n1: nat, t2: string, n2: nat)
    requires GateName(t1, n1) == GateName(t2, n2) != ""
    ensures t1 == t2 && n1 == n2
  {
    var r := GateName(t1, n1);
    assert GateLetter(t1).value == GateLetter(t2).value;
    assert t1 == t2;
    var pre := [r[0], r[1]] + "_S" + t1;
    assert r == pre + NatToString(n1);
    assert r == pre + NatToString(n2) by {
      assert IndexChar(n1) == r[1] == IndexChar(n2);
    }
    assert NatToString(n1) == r[|pre|..] == NatToString(n2);
    DigitsValueOfNatToString(n1);
    DigitsValueOfNatToString(n2);
  }

  /** The name of a gate with 1 to 16 inputs, whose `N_INPUTS` is written
      in decimal. */
  lemma GetGateOfCount(gp: PMap, gateType: string, n: nat)
    requires 1 <= n <= 16
    requires GateLetter(gateType).Some?
    requires Get(gp, "GATE_TYPE") == Some(gateType) && Get(gp, "N_INPUTS") == Some(NatToString(n))
    ensures GetGate(gp) == Ok([GateLetter(gateType).value, HexDigit(n - 1)] + "_S" + gateType + NatToString(n))
  {
    ReadsCount(gp, gateType, n);
    IndexIsHexOfPredecessor(n);
  }

  lemma ReadsCount(gp: PMap, gateType: string, n: nat)
    requires n <= IntMax
    requires Get(gp, "GATE_TYPE") == Some(gateType) && Get(gp, "N_INPUTS") == Some(NatToString(n))
    ensures GetGate(gp) == Ok(GateName(gateType, n))
  {
    var text := Lookup(gp, "N_INPUTS");
    assert text == NatToString(n);
    AtoiOfNat(n);
    assert Atoi(text) == n;
    var r := GetGate(gp);
    assert r.Ok?;
    var k := Atoi(text) % ULongModulus;
    assert r.value == GateName(gateType, k);
    SmallMod(n, ULongModulus);
  }

  lemma SmallMod(a: int, m: int)
    requires 0 <= a < m
    ensures a % m == a
  {
  }

  // ---------------------------------------------------------------------
  // getLatch

  /** The latch name for `LATCH_TYPE` and whether the signal level and the
      control level are "high"; "" for an unknown latch type. */
  function LatchName(latchType: string, signalHigh: bool, controlHigh: bool): (r: string)
    ensures r != "" <==> latchType in ["SR", "SR-controlled", "D"]
    ensures r != "" ==> (r[0] == 'A' && EndsWith(r, "_LOW") ==
                         (if latchType == "SR" then !signalHigh else !controlHigh))
  {
    if latchType == "SR" then
      if signalHigh then "A0_SRLATCH" else "A1_SRLATCH_LOW"
    else if latchType == "SR-controlled" then
      if controlHigh then
        if signalHigh then "A2_SRLATCH_CONTROL" else "A3_SRLATCH_LOW_CONTROL"
      else
        if signalHigh then "A4_SRLATCH_CONTROL_LOW" else "A5_SRLATCH_LOW_CONTROL_LOW"
    else if latchType == "D" then
      if controlHigh then "A6_DLATCH" else "A6_DLATCH_LOW"
    else ""
  }

  /** A latch name tells back the latch type and every level that type
      uses: the control level of a plain SR latch and the signal level of
      a D latch play no part. */
  lemma LatchNameInjective(t1: string, s1: bool, c1: bool, t2: string, s2: bool, c2: bool)
    requires LatchName(t1, s1, c1) == LatchName(t2, s2, c2) != ""
    ensures t1 == t2
    ensures t1 != "D" ==> s1 == s2
    ensures t1 != "SR" ==> c1 == c2
  {
  }

  /** `getLatch`: all three parameters are read before the name is built. */
  function GetLatch(gp: PMap): (r: Result<string, string>)
    ensures r.Err? <==> !Has(gp, "LATCH_TYPE") || !Has(gp, "SIGNAL_LEVEL") || !Has(gp, "CONTROL_LEVEL")
    ensures r.Ok? ==> r.value == LatchName(Lookup(gp, "LATCH_TYPE"),
      Lookup(gp, "SIGNAL_LEVEL") == "high", Lookup(gp, "CONTROL_LEVEL") == "high")
  {
    var latchType :- At(gp, "LATCH_TYPE");
    var signal :- At(gp, "SIGNAL_LEVEL");
    var control :- At(gp, "CONTROL_LEVEL");
    Ok(LatchName(latchType, signal == "high", control == "high"))
  }

  // ---------------------------------------------------------------------
  // getFlipFlop

  /** The variant letter for the preset/clear inputs and their level. */
  function FlipFlopVariant(presetClear: string, levelHigh: bool): char {
    if presetClear == "both" then (if levelHigh then 'B' else 'C')
    else if presetClear == "clear" then (if levelHigh then 'D' else 'G')
    else 'H'
  }

  /** The text after the flip-flop type: "FF", "FF_LOW" or "FF_NCP". */
  function FlipFlopTail(presetClear: string, levelHigh: bool): (r: string)
    ensures |r| >= 2 && r[|r| - 1] != 'T'
  {
    if presetClear == "both" || presetClear == "clear" then (if levelHigh then "FF" else "FF_LOW")
    else "FF_NCP"
  }

  /** The flip-flop name: a letter for the type (D, JK, anything else), the
      variant letter, the type itself, and "_NT" on a falling clock edge. */
  function FlipFlopName(ffType: string, risingEdge: bool, levelHigh: bool, presetClear: string): (r: string)
    ensures |r| >= 3 && r[0] == (if ffType == "D" then 'A' else if ffType == "JK" then 'B' else 'C')
    ensures r[1] == FlipFlopVariant(presetClear, levelHigh) && r[2] == '_'
    ensures EndsWith(r, "_NT") <==> !risingEdge
  {
    var prefix := if ffType == "D" then 'A' else if ffType == "JK" then 'B' else 'C';
    var tail := FlipFlopTail(presetClear, levelHigh);
    var body := [prefix, FlipFlopVariant(presetClear, levelHigh), '_'] + ffType + tail;
    assert body[|body| - 1] == tail[|tail| - 1];
    if risingEdge then body else body + "_NT"
  }

  /** A flip-flop name tells back the type, the clock edge and the variant. */
  lemma FlipFlopNameInjective(t1: string, e1: bool, l1: bool, p1: string,
                              t2: string, e2: bool, l2: bool, p2: string)
    requires FlipFlopName(t1, e1, l1, p1) == FlipFlopName(t2, e2, l2, p2)
    ensures t1 == t2 && e1 == e2 && FlipFlopVariant(p1, l1) == FlipFlopVariant(p2, l2)
  {
    var r := FlipFlopName(t1, e1, l1, p1);
    assert e1 == e2;
    var v := r[1];
    assert FlipFlopTail(p1, l1) == FlipFlopTail(p2, l2) by {
      assert v == FlipFlopVariant(p1, l1) == FlipFlopVariant(p2, l2);
    }
    var tail := FlipFlopTail(p1, l1) + (if e1 then "" else "_NT");
    var head1 := [r[0], v, '_'] + t1;
    var head2 := [r[0], v, '_'] + t2;
    assert r == head1 + tail && r == head2 + tail;
    assert head1 == r[..|r| - |tail|] == head2;
    assert t1 == head1[3..] && t2 == head2[3..];
  }

  /** `getFlipFlop`. */
  function GetFlipFlop(gp: PMap): (r: Result<string, string>)
    ensures r.Err? <==> (!Has(gp, "FF_TYPE") || !Has(gp, "EDGE_CLOCK") || !Has(gp, "LEVEL_CL_PR")
                         || !Has(gp, "PRESET_CLEAR"))
    ensures r.Ok? ==> r.value == FlipFlopName(Lookup(gp, "FF_TYPE"), Lookup(gp, "EDGE_CLOCK") == "rising",
      Lookup(gp, "LEVEL_CL_PR") == "high", Lookup(gp, "PRESET_CLEAR"))
  {
    var ffType :- At(gp, "FF_TYPE");
    var edge :- At(gp, "EDGE_CLOCK");
    var level :- At(gp, "LEVEL_CL_PR");
    var presetClear :- At(gp, "PRESET_CLEAR");
    Ok(FlipFlopName(ffType, edge == "rising", level == "high", presetClear))
  }

  // ---------------------------------------------------------------------
  // replaceGate

  /** The palette kinds whose type name is a fixed tag followed by
      parameter values. */
  function KindTag(lib: string): (r: Option<string>)
    ensures r.Some? ==> StartsWith(r.value, "@@_")
  {
    if lib == "%%_11_WIRE" then Some("@@_WIRE_")
    else if lib == "%%_14_NOWIRE" then Some("@@_NOWIRE_")
    else if lib == "%%_17_BUSEND" then Some("@@_BUSEND")
    else if lib == "%%_21_LAND" then Some("@@_LAND_")
    else if lib == "%%_24_LOR" then Some("@@_LOR_")
    else if lib == "%%_43_BLQ" then Some("@@_BLQ_")
    else if lib == "%%_44_CMB" then Some("@@_CMB_")
    else if lib == "%%_47_FSM" then Some("@@_FSM_")
    else None
  }

  /** The CMB and FSM blocks, whose size parameters are logic parameters. */
  predicate BlockKind(lib: string) {
    lib == "%%_44_CMB" || lib == "%%_47_FSM"
  }

  /** What follows the tag in the type name of a tagged kind: the values
      of its size parameters, read from the GUI parameters for the wiring
      kinds and from the logic parameters for the CMB and FSM blocks. */
  function TagArguments(lib: string, gp: PMap, lp: PMap): (r: Result<string, string>)
    requires KindTag(lib).Some?
    ensures r.Err? && BlockKind(lib) ==> !Has(lp, r.error)
    ensures r.Err? && !BlockKind(lib) ==> !Has(gp, r.error)
    ensures r.Ok? && lib == "%%_11_WIRE" ==> r.value == Lookup(gp, "LENGTH")
    ensures r.Ok? && lib == "%%_44_CMB" ==> r.value == Lookup(lp, "INPUT_BITS") + "X" + Lookup(lp, "OUTPUT_BITS")
  {
    if lib == "%%_11_WIRE" then
      var length :- At(gp, "LENGTH");
      Ok(length)
    else if lib == "%%_14_NOWIRE" || lib == "%%_43_BLQ" then
      var width :- At(gp, "WIDTH");
      var height :- At(gp, "HEIGHT");
      Ok(width + "X" + height)
    else if lib == "%%_17_BUSEND" then
      var separation :- At(gp, "SEPARATION");
      var bits :- At(gp, "INPUT_BITS");
      Ok((if separation == "narrow" then "N_" else "_") + bits)
    else if lib == "%%_21_LAND" || lib == "%%_24_LOR" then
      var bits :- At(gp, "INPUT_BITS");
      Ok(bits)
    else if lib == "%%_44_CMB" then
      var inputs :- At(lp, "INPUT_BITS");
      var outputs :- At(lp, "OUTPUT_BITS");
      Ok(inputs + "X" + outputs)
    else
      var asynchronous :- At(lp, "ASYNCHRONOUS");
      var inputs :- At(lp, "INPUT_BITS");
      var outputs :- At(lp, "OUTPUT_BITS");
      Ok((if asynchronous == "true" then "A" else "S") + "_" + inputs + "X" + outputs)
  }

  /** The wiring kinds read only GUI parameters and the blocks only logic
      parameters. */
  lemma TagArgumentsSources(lib: string, gp: PMap, lp: PMap, gp': PMap, lp': PMap)
    requires KindTag(lib).Some?
    ensures BlockKind(lib) ==> TagArguments(lib, gp', lp) == TagArguments(lib, gp, lp)
    ensures !BlockKind(lib) ==> TagArguments(lib, gp, lp') == TagArguments(lib, gp, lp)
  {
  }

  /** The type name `replaceGate` builds for a gate of palette kind `lib`
      with GUI parameters `gp` and logic parameters `lp`; "" for a kind it
      does not replace. */
  function ReplaceType(lib: string, gp: PMap, lp: PMap): (r: Result<string, string>)
    ensures KindTag(lib).Some? ==> r.Ok? == TagArguments(lib, gp, lp).Ok?
    ensures KindTag(lib).Some? && r.Ok? ==>
      (StartsWith(r.value, KindTag(lib).value) && r.value[|KindTag(lib).value|..] == TagArguments(lib, gp, lp).value)
    ensures KindTag(lib).None? && lib !in ["%%_40_GATE", "%%_41_LATCH", "%%_42_FLIPFLOP"] ==> r == Ok("")
    ensures lib == "%%_40_GATE" ==> r == GetGate(gp)
    ensures lib == "%%_41_LATCH" ==> r == GetLatch(gp)
    ensures lib == "%%_42_FLIPFLOP" ==> r == GetFlipFlop(gp)
  {
    match KindTag(lib)
    case Some(tag) =>
      var args :- TagArguments(lib, gp, lp);
      assert (tag + args)[..|tag|] == tag && (tag + args)[|tag|..] == args;
      Ok(tag + args)
    case None =>
      if lib == "%%_40_GATE" then GetGate(gp)
      else if lib == "%%_41_LATCH" then GetLatch(gp)
      else if lib == "%%_42_FLIPFLOP" then GetFlipFlop(gp)
      else Ok("")
  }

  /** `replaceGate`: the type of the gate to create in place of the
      configured one, or `None` when the type name is empty and nothing is
      created. */
  function ReplaceGate(lib: string, gp: PMap, lp: PMap): (r: Result<Option<string>, string>)
    ensures r.Ok? && r.value.Some? ==> r.value.value != "" && ReplaceType(lib, gp, lp) == Ok(r.value.value)
    ensures r.Ok? && r.value.None? ==> ReplaceType(lib, gp, lp) == Ok("")
    ensures r.Err? <==> ReplaceType(lib, gp, lp).Err?
  {
    var t :- ReplaceType(lib, gp, lp);
    if t == "" then Ok(None) else Ok(Some(t))
  }

  /** Two different tagged kinds never produce the same type name, so the
      name tells which kind of gate it stands for. */
  lemma {:induction false} TaggedKindsDistinct(lib1: string, lib2: string, gp1: PMap, lp1: PMap, gp2: PMap, lp2: PMap)
    requires KindTag(lib1).Some? && KindTag(lib2).Some? && lib1 != lib2
    requires ReplaceType(lib1, gp1, lp1).Ok? && ReplaceType(lib2, gp2, lp2).Ok?
    ensures ReplaceType(lib1, gp1, lp1).value != ReplaceType(lib2, gp2, lp2).value
  {
    var a, b := KindTag(lib1).value, KindTag(lib2).value;
    var r1, r2 := ReplaceType(lib1, gp1, lp1).value, ReplaceType(lib2, gp2, lp2).value;
    TagsDiffer(lib1, lib2);
    var k :| 0 <= k < |a| && k < |b| && a[k] != b[k];
    assert r1[k] == a[k] && r2[k] == b[k];
  }

  /** The tags of two different kinds differ at a position both have. */
  lemma TagsDiffer(lib1: string, lib2: string)
    requires KindTag(lib1).Some? && KindTag(lib2).Some? && lib1 != lib2
    ensures exists k :: (0 <= k < |KindTag(lib1).value| && k < |KindTag(lib2).value| &&
                         KindTag(lib1).value[k] != KindTag(lib2).value[k])
  {
    var a, b := KindTag(lib1).value, KindTag(lib2).value;
    if a[3] == b[3] {
      assert a[4] != b[4];
    }
  }
}

=== FILE: keypad.dfy ===
/** `guiGateKEYPAD`: a keypad whose keys are click boxes, one GUI
    parameter `KEYPAD_BOX_<hex>` per key. The logic parameter `OUTPUT_NUM`
    holds the value and `OUTPUT_BITS` its width; the key of the current
    value is highlighted (its box is the "value box"). Clicking a key sets
    `OUTPUT_NUM` to the key's hex suffix read as a number. Box coordinates
    are text the keypad parses as floating point; the model keeps the text
    and leaves geometry to a `hit` predicate on it. */
module Keypad {
  import opened Wrappers
  import opened Strings
  import opened ParamMap
  import opened StreamExtract
  import opened Gates
  import opened SetParams

  // ---------------------------------------------------------------------
  // Hexadecimal text

  function Pow16(n: nat): (r: nat)
    ensures r >= 1
  {
    if n == 0 then 1 else 16 * Pow16(n - 1)
  }

  const Modulus32: nat := 0x1_0000_0000

  /** `"0123456789ABCDEF"[d]`. */
  function HexChar(d: nat): (c: char)
    requires d < 16
    ensures DigitValue(c, 16) == d
  {
    if d < 10 then ('0' as int + d) as char else ('A' as int + d - 10) as char
  }

  predicate IsUpperHex(c: char) {
    '0' <= c <= '9' || 'A' <= c <= 'F'
  }

  /** Upper-case hex digits, which are digits of base 16. */
  predicate AllUpperHex(s: string) {
    (forall i :: 0 <= i < |s| ==> IsUpperHex(s[i])) && AllDigitsIn(s, 16)
  }

  /** The `n` least significant hex digits of `u`, most significant first. */
  function HexString(u: nat, n: nat): (r: string)
    ensures |r| == n && AllUpperHex(r) && AllDigitsIn(r, 16)
    decreases n
  {
    if n == 0 then "" else HexString(u / 16, n - 1) + [HexChar(u % 16)]
  }

  /** `u` is `m * a + b` with `0 <= b < m`: `b` is `u % m`. */
  lemma ModOfSplit(u: nat, m: nat, a: nat, b: nat)
    requires m > 0 && u == m * a + b && b < m
    ensures u % m == b && u / m == a
  {
    var q, r := u / m, u % m;
    assert m * (a - q) == r - b;
    MulSmall(m, a - q);
  }

  /** A multiple of `m` strictly between `-m` and `m` is 0. */
  lemma MulSmall(m: int, k: int)
    requires m > 0 && -m < m * k < m
    ensures k == 0
  {
    if k >= 1 {
      MulAtLeast(m, k);
    } else if k <= -1 {
      MulAtLeast(m, 0 - k);
    }
  }

  lemma MulAtLeast(m: int, k: int)
    requires m > 0 && k >= 1
    ensures m * k >= m
  {
    if k > 1 {
      MulAtLeast(m, k - 1);
      assert m * k == m * (k - 1) + m;
    }
  }

  /** The digits read back give `u` modulo 16^n. */
  lemma {:induction false} HexStringValue(u: nat, n: nat)
    ensures ValueIn(HexString(u, n), 16) == u % Pow16(n)
    decreases n
  {
    if n > 0 {
      var s := HexString(u, n);
      assert s[..|s| - 1] == HexString(u / 16, n - 1);
      assert DigitValue(s[|s| - 1], 16) == u % 16;
      HexStringValue(u / 16, n - 1);
      ModStep(u, Pow16(n - 1));
    }
  }

  /** Dropping the last hex digit: `u` modulo `16 * p` from `u / 16`
      modulo `p` and the last digit. */
  lemma ModStep(u: nat, p: nat)
    requires p >= 1
    ensures u % (16 * p) == (u / 16) % p * 16 + u % 16
  {
    var q, r := u / 16, u % 16;
    var a, b := q / p, q % p;
    assert q == p * a + b;
    assert u == (16 * p) * a + (16 * b + r) by {
      assert u == 16 * q + r;
    }
    ModOfSplit(u, 16 * p, a, 16 * b + r);
  }

  /** Upper-case hex digits are the digits of their own value. */
  lemma {:induction false} HexStringOfValue(s: string)
    requires AllUpperHex(s)
    ensures AllDigitsIn(s, 16) && HexString(ValueIn(s, 16), |s|) == s
    decreases |s|
  {
    assert AllDigitsIn(s, 16);
    if |s| > 0 {
      var init := s[..|s| - 1];
      var c := s[|s| - 1];
      HexStringOfValue(init);
      var v := ValueIn(init, 16);
      var d := DigitValue(c, 16);
      assert 0 <= d < 16;
      ModOfSplit(ValueIn(s, 16), 16, v, d);
      assert HexChar(d) == c;
      assert s == init + [c];
    }
  }

  /** The last `d` of `n` digits are the `d`-digit text. */
  lemma {:induction false} HexStringSuffix(u: nat, n: nat, d: nat)
    requires d <= n
    ensures HexString(u, n)[n - d..] == HexString(u, d)
    decreases d
  {
    if d > 0 {
      HexStringSuffix(u / 16, n - 1, d - 1);
      var s := HexString(u, n);
      assert s == HexString(u / 16, n - 1) + [HexChar(u % 16)];
      assert s[n - d..] == HexString(u / 16, n - 1)[(n - 1) - (d - 1)..] + [HexChar(u % 16)];
    }
  }

  lemma Pow16Eight()
    ensures Pow16(8) == Modulus32
  {
    assert Pow16(2) == 0x100;
    assert Pow16(4) == 0x1_0000;
    assert Pow16(6) == 0x100_0000;
  }

  /** The loop that writes `intVal` as hex, nibble by nibble from bit 28
      down to bit 0: the eight digits of its 32-bit two's complement. */
  function Hex32(intVal: int): (r: string)
    ensures |r| == 8 && AllUpperHex(r)
    ensures ValueIn(r, 16) == intVal % Modulus32
  {
    Hex32Value(intVal % Modulus32);
    HexString(intVal % Modulus32, 8)
  }

  lemma Hex32Value(u: nat)
    requires u < Modulus32
    ensures ValueIn(HexString(u, 8), 16) == u
  {
    Pow16Eight();
    HexValueOf(u, 8);
  }

  lemma HexValueOf(u: nat, n: nat)
    requires u < Pow16(n)
    ensures ValueIn(HexString(u, n), 16) == u
  {
    HexStringValue(u, n);
  }

  // ---------------------------------------------------------------------
  // The keypad

  /** The keypad gate, the last key clicked (`keypadValue`) and the text of
      the click box the value box was last read from, if any. */
  datatype Keypad = Keypad(gate: Gate, keypadValue: string, valueBox: Option<string>)

  /** What a call does: finish with the new keypad, throw (with the keypad
      as it was when the exception left, and the exception's `what()`), or
      read an uninitialised `int`. */
  datatype Outcome = Done(pad: Keypad) | Threw(pad: Keypad, what: string) | Undefined

  const BoxPrefix := "KEYPAD_BOX_"

  /** C++ integer division, which truncates toward zero. */
  function CDiv(a: int, b: int): (r: int)
    requires b > 0
    ensures a >= 0 ==> r == a / b
    ensures a < 0 ==> r == -((-a) / b)
  {
    if a >= 0 then a / b else -((-a) / b)
  }

  /** The key whose box becomes the value box for the value text `current`:
      its own key if there is one, the first key box otherwise. */
  function SelectBox(gp: PMap, current: string): (r: Option<string>)
    ensures Has(gp, BoxPrefix + current) ==> r == Some(BoxPrefix + current)
    ensures !Has(gp, BoxPrefix + current) ==> r == FirstWithPrefix(gp, BoxPrefix)
    ensures r.Some? ==> Has(gp, r.value) && StartsWith(r.value, BoxPrefix)
  {
    assert StartsWith(BoxPrefix + current, BoxPrefix);
    if Has(gp, BoxPrefix + current) then Some(BoxPrefix + current) else FirstWithPrefix(gp, BoxPrefix)
  }

  /** The value text: the last `d` of the eight hex digits of `num`, where
      `d` is the bit width divided by 4. `substr` throws when `d` is
      negative or above 8. */
  function CurrentValue(num: int, bits: int): (r: Result<string, string>)
    ensures r.Ok? <==> 0 <= CDiv(bits, 4) <= 8
    ensures r.Ok? ==> |r.value| == CDiv(bits, 4) && AllUpperHex(r.value)
    ensures r.Ok? ==> r.value == HexString(num % Modulus32, CDiv(bits, 4))
    ensures r.Err? ==> r.error == "std::out_of_range"
  {
    var d := CDiv(bits, 4);
    if d < 0 || d > 8 then Err("std::out_of_range")
    else
      HexStringSuffix(num % Modulus32, 8, d);
      Ok(Hex32(num)[8 - d..])
  }

  /** The texts `setLogicParam` reads for a numeric parameter: the value
      (the new text, or the stored `OUTPUT_NUM`) and the width (the new
      text, or the stored `OUTPUT_BITS`), with the map as the `operator[]`
      reads leave it. */
  function NumericTexts(lp: PMap, name: string, value: string): (r: (PMap, string, string))
    ensures r.1 == if name == "OUTPUT_NUM" then value else Lookup(lp, "OUTPUT_NUM")
    ensures r.2 == if name == "OUTPUT_BITS" then value else Lookup(lp, "OUTPUT_BITS")
    ensures forall n :: Lookup(r.0, n) == Lookup(lp, n)
  {
    var (lp1, numText) := if name == "OUTPUT_NUM" then (lp, value) else ReadParam(lp, "OUTPUT_NUM");
    var (lp2, bitsText) := if name == "OUTPUT_BITS" then (lp1, value) else ReadParam(lp1, "OUTPUT_BITS");
    (lp2, numText, bitsText)
  }

  /** The value box after the value `num` at width `bits` is shown: the
      box of the current value's key, or the first key box, or the previous one
      when there are no key boxes. */
  function ShowValue(gp: PMap, num: int, bits: int, previous: Option<string>): (r: Result<Option<string>, string>)
    ensures r.Err? <==> CurrentValue(num, bits).Err?
    ensures r.Err? ==> r.error == "std::out_of_range"
    ensures r.Ok? && Has(gp, BoxPrefix + CurrentValue(num, bits).value) ==>
      r.value == Some(Lookup(gp, BoxPrefix + CurrentValue(num, bits).value))
    ensures r.Ok? && (forall n :: Has(gp, n) ==> !StartsWith(n, BoxPrefix)) ==> r.value == previous
  {
    match CurrentValue(num, bits)
    case Err(e) => Err(e)
    case Ok(current) =>
      var box := SelectBox(gp, current);
      Ok(if box.Some? then Some(Lookup(gp, box.value)) else previous)
  }

  /** `setLogicParam`. For `OUTPUT_NUM` and `OUTPUT_BITS` it first reads
      the value and the width (into the same `int`, which keeps the value
      when the width text holds no number), picks the value box, and then
      stores the parameter as the base class does. */
  function SetLogicParam(k: Keypad, name: string, value: string): (r: Outcome)
    ensures name != "OUTPUT_NUM" && name != "OUTPUT_BITS" ==>
      r == Done(k.(gate := Gates.SetLogicParam(k.gate, name, value)))
    ensures r.Done? ==> Get(r.pad.gate.lparams, name) == Some(value)
    ensures r.Done? || r.Threw? ==> r.pad.gate.(lparams := k.gate.lparams) == k.gate && r.pad.keypadValue == k.keypadValue
    ensures r.Done? || r.Threw? ==> forall n :: n != name ==> Lookup(r.pad.gate.lparams, n) == Lookup(k.gate.lparams, n)
    ensures r.Threw? ==> r.what == "std::out_of_range" && r.pad.valueBox == k.valueBox
  {
    if name != "OUTPUT_NUM" && name != "OUTPUT_BITS" then
      Done(k.(gate := Gates.SetLogicParam(k.gate, name, value)))
    else
      var (lp, numText, bitsText) := NumericTexts(k.gate.lparams, name, value);
      if |SkipSpaces(numText)| == 0 then Undefined
      else
        var num := ReadInt(Open(numText), 0, 10).1;
        var bits := ReadInt(Open(bitsText), num, 10).1;
        var g := k.gate.(lparams := lp);
        match ShowValue(g.gparams, num, bits, k.valueBox)
        case Err(e) => Threw(k.(gate := g), e)
        case Ok(shown) => Done(Keypad(Gates.SetLogicParam(g, name, value), k.keypadValue, shown))
  }

  /** The constructor: the base gate, then `OUTPUT_NUM` set to "0" through
      the keypad's own `setLogicParam`, and the clicked value "0". */
  function New(base: Gate): (r: Outcome)
    ensures r.Done? ==> Get(r.pad.gate.lparams, "OUTPUT_NUM") == Some("0") && r.pad.keypadValue == "0"
  {
    SetLogicParam(Keypad(base, "0", None), "OUTPUT_NUM", "0")
  }

  /** A fresh gate has no parameters: the new keypad has `OUTPUT_NUM` "0",
      an empty `OUTPUT_BITS` (read, and so inserted, by `operator[]`), and
      no value box yet. */
  lemma NewKeypad(base: Gate)
    requires base.lparams == [] && base.gparams == []
    ensures New(base).Done?
    ensures New(base).pad.gate.lparams == [("OUTPUT_BITS", ""), ("OUTPUT_NUM", "0")]
    ensures New(base).pad.valueBox.None?
  {
    var texts := NumericTexts([], "OUTPUT_NUM", "0");
    assert texts == ([("OUTPUT_BITS", "")], "0", "");
    ReadOfZero("0");
    assert ReadInt(Open(""), 0, 10).1 == 0;
    ShowNoBoxes();
    var g := base.(lparams := [("OUTPUT_BITS", "")]);
    assert New(base) == Done(Keypad(Gates.SetLogicParam(g, "OUTPUT_NUM", "0"), "0", None));
    NumAfterBits();
    assert Gates.SetLogicParam(g, "OUTPUT_NUM", "0").lparams == Put([("OUTPUT_BITS", "")], "OUTPUT_NUM", "0");
  }

  lemma ReadOfZero(s: string)
    requires s == IntToString(0)
    ensures |SkipSpaces(s)| > 0 && ReadInt(Open(s), 0, 10).1 == 0
  {
    ReadIntOfInt(0, 0);
  }

  // ---------------------------------------------------------------------
  // Clicking a key

  /** The first key box, in map order, whose box text `hit` accepts; `hit`
      stands for the box geometry, the gate's placement and the click
      point. */
  function FirstHit(gp: PMap, hit: string -> bool): (r: Option<string>)
    ensures r.Some? ==> Has(gp, r.value) && StartsWith(r.value, BoxPrefix) && hit(Lookup(gp, r.value))
    ensures r.Some? ==> forall n :: Has(gp, n) && StartsWith(n, BoxPrefix) && hit(Lookup(gp, n)) ==>
      n == r.value || Less(r.value, n)
    ensures r.None? ==> forall n :: Has(gp, n) && StartsWith(n, BoxPrefix) ==> !hit(Lookup(gp, n))
    decreases |gp|
  {
    if |gp| == 0 then None
    else
      HeadBelowRest(gp);
      KeySetCons(gp[0], gp[1..]);
      assert gp == [gp[0]] + gp[1..];
      LookupOfRest(gp);
      if StartsWith(gp[0].0, BoxPrefix) && hit(gp[0].1) then Some(gp[0].0)
      else
        LessIrreflexive(gp[0].0);
        FirstHit(gp[1..], hit)
  }

  /** Looking up in a map is looking up its first entry or the rest. */
  lemma LookupOfRest(gp: PMap)
    requires |gp| > 0
    ensures Lookup(gp, gp[0].0) == gp[0].1
    ensures forall n :: n != gp[0].0 ==> Lookup(gp, n) == Lookup(gp[1..], n) && (Has(gp, n) <==> Has(gp[1..], n))
  {
    KeySetSplit(gp);
  }

  /** `iss >> setbase(16) >> keypadIntVal` on a key's suffix: nothing when
      the suffix is blank (the `int` stays uninitialised), otherwise the
      number read, clamped to the range of `int`. */
  function ReadKey(kv: string): (r: Option<int>)
    ensures r.None? <==> |SkipSpaces(kv)| == 0
    ensures r.Some? ==> IntMin <= r.value <= IntMax
  {
    if |SkipSpaces(kv)| == 0 then None else Some(ReadInt(Open(kv), 0, 16).1)
  }

  /** The suffix read as a 32-bit pattern: the low 32 bits of the number,
      in two's complement, so that every key of a 32-bit keypad has a
      value of its own. */
  function ReadKeyWrapped(kv: string): (r: Option<int>)
    ensures r.None? <==> |SkipSpaces(kv)| == 0
    ensures r.Some? ==> IntMin <= r.value <= IntMax
  {
    var t := SkipSpaces(kv);
    if |t| == 0 then None
    else
      var sc := ScanInteger(t, 16);
      if !sc.found then Some(0)
      else Some(Wrap32(if sc.negative then 0 - sc.magnitude else sc.magnitude))
  }

  /** A key suffix of upper-case hex digits reads as its value. */
  lemma ScanOfHex(s: string)
    requires |s| > 0 && AllUpperHex(s)
    ensures SkipSpaces(s) == s
    ensures AllDigitsIn(s, 16) && ScanInteger(s, 16) == Scan(false, true, ValueIn(s, 16), [])
  {
    SkipSpacesBefore([], s);
    assert [] + s == s;
    HexDigitRun(s);
    assert !(|s| >= 2 && s[0] == '0' && (s[1] == 'x' || s[1] == 'X'));
    assert s[0] != '-' && s[0] != '+';
  }

  lemma HexDigitRun(s: string)
    requires AllUpperHex(s)
    ensures AllDigitsIn(s, 16) && DigitRun(s, 16) == |s| && s[..|s|] == s
  {
    assert AllDigitsIn(s, 16);
    DigitRunOfDigits(s, [], 16);
    assert s + [] == s;
  }

  /** Both readings agree on the keys whose value fits an `int`, and the
      wrapped reading gives each suffix of at most eight digits its 32-bit
      pattern. */
  lemma ReadKeyOfHex(s: string)
    requires 0 < |s| <= 8 && AllUpperHex(s)
    ensures ReadKeyWrapped(s) == Some(Wrap32(ValueIn(s, 16)))
    ensures ValueIn(s, 16) <= IntMax ==> ReadKey(s) == ReadKeyWrapped(s)
    ensures ValueIn(s, 16) > IntMax ==> ReadKey(s) == Some(IntMax)
  {
    ScanOfHex(s);
  }

  /** The result of a click: the keypad (or the failure), and the message
      for the simulation core. */
  datatype Click = Click(outcome: Outcome, message: Option<CoreMessage>)

  /** A click on the key box `key` whose suffix reads as `v`: the suffix
      becomes the clicked value, `OUTPUT_NUM` is set to `v` in decimal
      through the keypad's `setLogicParam`, and the new `OUTPUT_NUM` is sent
      to the core. */
  function Press(k: Keypad, key: string, v: Option<int>): (r: Click)
    requires StartsWith(key, BoxPrefix)
    ensures v.None? ==> r == Click(Undefined, None)
    ensures r.message.Some? <==> r.outcome.Done?
    ensures r.outcome.Done? ==> v.Some? && r.outcome.pad.keypadValue == key[|BoxPrefix|..]
    ensures r.outcome.Done? ==> Get(r.outcome.pad.gate.lparams, "OUTPUT_NUM") == Some(IntToString(v.value))
    ensures r.outcome.Done? ==> r.message == Some(SetGateParam(k.gate.id, "OUTPUT_NUM", IntToString(v.value)))
    ensures r.outcome.Threw? ==> r.outcome.pad.keypadValue == key[|BoxPrefix|..]
  {
    match v
    case None => Click(Undefined, None)
    case Some(n) =>
      var o := SetLogicParam(k.(keypadValue := key[|BoxPrefix|..]), "OUTPUT_NUM", IntToString(n));
      if o.Done? then Click(o, Some(SetGateParam(k.gate.id, "OUTPUT_NUM", Lookup(o.pad.gate.lparams, "OUTPUT_NUM"))))
      else Click(o, None)
  }

  /** `checkClick` as written: the first key box hit, its suffix read with
      `operator>>`, which clamps a value above `INT_MAX`. A miss changes
      nothing and sends nothing. */
  function CheckClickAsWritten(k: Keypad, hit: string -> bool): (r: Click)
    ensures FirstHit(k.gate.gparams, hit).None? <==> r == Click(Done(k), None)
  {
    match FirstHit(k.gate.gparams, hit)
    case None => Click(Done(k), None)
    case Some(key) => Press(k, key, ReadKey(key[|BoxPrefix|..]))
  }

  /** `checkClick` with the suffix read as a 32-bit pattern. A miss changes
      nothing and sends nothing. */
  function CheckClick(k: Keypad, hit: string -> bool): (r: Click)
    ensures FirstHit(k.gate.gparams, hit).None? <==> r == Click(Done(k), None)
  {
    match FirstHit(k.gate.gparams, hit)
    case None => Click(Done(k), None)
    case Some(key) => Press(k, key, ReadKeyWrapped(key[|BoxPrefix|..]))
  }

  /** The value of at most eight hex digits is below 2^32. */
  lemma {:induction false} HexValueBelow(s: string)
    requires AllUpperHex(s)
    ensures AllDigitsIn(s, 16) && ValueIn(s, 16) < Pow16(|s|)
    decreases |s|
  {
    assert AllDigitsIn(s, 16);
    if |s| > 0 {
      HexValueBelow(s[..|s| - 1]);
    }
  }

  lemma Pow16Grows(a: nat, b: nat)
    requires a <= b
    ensures Pow16(a) <= Pow16(b)
    decreases b
  {
    if a < b {
      Pow16Grows(a, b - 1);
    }
  }

  /** The 32-bit pattern of a key's value, written back as hex at the key's
      width, is the key's suffix. */
  lemma CurrentOfKey(s: string, bits: int)
    requires 0 < |s| <= 8 && AllUpperHex(s)
    requires CDiv(bits, 4) == |s|
    ensures CurrentValue(Wrap32(ValueIn(s, 16)), bits) == Ok(s)
  {
    var u := ValueIn(s, 16);
    HexValueBelow(s);
    Pow16Grows(|s|, 8);
    Pow16Eight();
    assert Wrap32(u) % Modulus32 == u;
    HexStringOfValue(s);
  }

  /** Setting `OUTPUT_NUM` to a number written in decimal, on a keypad
      whose `OUTPUT_BITS` is a number too, succeeds and makes the box of
      the value's key the value box, when there is such a box. */
  lemma SetOutputNum(k: Keypad, v: int, bits: int, current: string)
    requires IntMin <= v <= IntMax && IntMin <= bits <= IntMax
    requires Lookup(k.gate.lparams, "OUTPUT_BITS") == IntToString(bits)
    requires CurrentValue(v, bits) == Ok(current)
    requires Has(k.gate.gparams, BoxPrefix + current)
    ensures SetLogicParam(k, "OUTPUT_NUM", IntToString(v)).Done?
    ensures SetLogicParam(k, "OUTPUT_NUM", IntToString(v)).pad.valueBox == Some(Lookup(k.gate.gparams, BoxPrefix + current))
  {
    var texts := NumericTexts(k.gate.lparams, "OUTPUT_NUM", IntToString(v));
    ReadIntOfInt(v, 0);
    ReadIntOfInt(bits, v);
    SetOutputNumSteps(k, IntToString(v), texts.0, texts.2, v, bits, current);
  }

  lemma SetOutputNumSteps(k: Keypad, numText: string, lp: PMap, bitsText: string, v: int, bits: int, current: string)
    requires NumericTexts(k.gate.lparams, "OUTPUT_NUM", numText) == (lp, numText, bitsText)
    requires |SkipSpaces(numText)| > 0 && ReadInt(Open(numText), 0, 10).1 == v
    requires ReadInt(Open(bitsText), v, 10).1 == bits
    requires CurrentValue(v, bits) == Ok(current)
    requires Has(k.gate.gparams, BoxPrefix + current)
    ensures SetLogicParam(k, "OUTPUT_NUM", numText).Done?
    ensures SetLogicParam(k, "OUTPUT_NUM", numText).pad.valueBox == Some(Lookup(k.gate.gparams, BoxPrefix + current))
  {
  }

  /** The fix at work: a click on the key box of `s`, on a keypad whose
      width has one hex digit per character of `s`, shows the clicked key's
      box as the value box and sends the key's 32-bit value to the core. */
  lemma ClickSelectsKey(k: Keypad, hit: string -> bool, s: string, bits: int)
    requires FirstHit(k.gate.gparams, hit) == Some(BoxPrefix + s)
    requires 0 < |s| <= 8 && AllUpperHex(s)
    requires IntMin <= bits <= IntMax && CDiv(bits, 4) == |s|
    requires Lookup(k.gate.lparams, "OUTPUT_BITS") == IntToString(bits)
    ensures CheckClick(k, hit).outcome.Done?
    ensures CheckClick(k, hit).outcome.pad.keypadValue == s
    ensures CheckClick(k, hit).outcome.pad.valueBox == Some(Lookup(k.gate.gparams, BoxPrefix + s))
    ensures CheckClick(k, hit).message == Some(SetGateParam(k.gate.id, "OUTPUT_NUM", IntToString(Wrap32(ValueIn(s, 16)))))
  {
    HexDigitRun(s);
    var key := BoxPrefix + s;
    KeySuffix(s);
    PressKey(k.(keypadValue := s), s, bits);
    ClickSteps(k, hit, key, s, Wrap32(ValueIn(s, 16)), Some(Lookup(k.gate.gparams, key)));
  }

  lemma KeySuffix(s: string)
    ensures (BoxPrefix + s)[|BoxPrefix|..] == s
  {
  }

  lemma PressKey(k: Keypad, s: string, bits: int)
    requires Has(k.gate.gparams, BoxPrefix + s)
    requires 0 < |s| <= 8 && AllUpperHex(s)
    requires IntMin <= bits <= IntMax && CDiv(bits, 4) == |s|
    requires Lookup(k.gate.lparams, "OUTPUT_BITS") == IntToString(bits)
    ensures ReadKeyWrapped(s) == Some(Wrap32(ValueIn(s, 16)))
    ensures SetLogicParam(k, "OUTPUT_NUM", IntToString(Wrap32(ValueIn(s, 16)))).Done?
    ensures SetLogicParam(k, "OUTPUT_NUM", IntToString(Wrap32(ValueIn(s, 16)))).pad.valueBox == Some(Lookup(k.gate.gparams, BoxPrefix + s))
  {
    ReadKeyOfHex(s);
    CurrentOfKey(s, bits);
    SetOutputNum(k, Wrap32(ValueIn(s, 16)), bits, s);
  }

  lemma ClickSteps(k: Keypad, hit: string -> bool, key: string, s: string, v: int, box: Option<string>)
    requires FirstHit(k.gate.gparams, hit) == Some(key) && key[|BoxPrefix|..] == s
    requires ReadKeyWrapped(s) == Some(v)
    requires SetLogicParam(k.(keypadValue := s), "OUTPUT_NUM", IntToString(v)).Done?
    requires SetLogicParam(k.(keypadValue := s), "OUTPUT_NUM", IntToString(v)).pad.valueBox == box
    ensures CheckClick(k, hit).outcome.Done?
    ensures CheckClick(k, hit).outcome.pad.keypadValue == s
    ensures CheckClick(k, hit).outcome.pad.valueBox == box
    ensures CheckClick(k, hit).message == Some(SetGateParam(k.gate.id, "OUTPUT_NUM", IntToString(v)))
  {
  }

  /** The source as written: a key whose value does not fit an `int` (for
      `s` = "80000000" up to "FFFFFFFF" on a 32-bit keypad) is read as
      `INT_MAX`, so the core is sent 2147483647 and the value shown is
      7FFFFFFF, whichever such key was clicked. */
  lemma ClickClampsHighKeys(k: Keypad, hit: string -> bool, s: string)
    requires FirstHit(k.gate.gparams, hit) == Some(BoxPrefix + s)
    requires |s| == 8 && AllUpperHex(s) && ValueIn(s, 16) > IntMax
    ensures CheckClickAsWritten(k, hit).outcome.Done? ==>
      CheckClickAsWritten(k, hit).message == Some(SetGateParam(k.gate.id, "OUTPUT_NUM", IntToString(IntMax)))
    ensures Hex32(IntMax) != s
  {
    var key := BoxPrefix + s;
    assert key[|BoxPrefix|..] == s;
    ReadKeyOfHex(s);
    Hex32Value(IntMax);
  }

  lemma ShowNoBoxes()
    ensures ShowValue([], 0, 0, None) == Ok(None)
  {
    assert CurrentValue(0, 0) == Ok("");
  }

  lemma NumAfterBits()
    ensures Put([("OUTPUT_BITS", "")], "OUTPUT_NUM", "0") == [("OUTPUT_BITS", ""), ("OUTPUT_NUM", "0")]
  {
    BitsBeforeNum();
    PutAboveOne(("OUTPUT_BITS", ""), "OUTPUT_NUM", "0");
  }

  lemma BitsBeforeNum()
    ensures Less("OUTPUT_BITS", "OUTPUT_NUM")
  {
    assert Less("BITS", "NUM");
    LessAfterPrefix("OUTPUT_", "BITS", "NUM");
    assert "OUTPUT_" + "BITS" == "OUTPUT_BITS";
    assert "OUTPUT_" + "NUM" == "OUTPUT_NUM";
  }
}

=== FILE: param_dialog.dfy ===
/** `paramDialog`: the dialog that edits the parameters a gate's library
    entry lists. The constructor fills one control per parameter from the
    gate's current value; OK checks the controls, sorts the values into a
    GUI list and a logic list, and applies them: directly for a dynamic
    (`%%_`) gate, through a `cmdSetParams` command otherwise, and not at all
    when nothing would change. Controls are modelled by the value they
    hold. */
module ParamDialog {
  import opened Wrappers
  import opened Strings
  import opened ParamMap
  import opened StreamExtract
  import opened Gates
  import opened SetParams

  /** What a control holds: a spin control's number, a text control's text,
      a check box, the index selected in a radio box, or a file button. */
  datatype Control = Spin(value: int) | Text(text: string) | Check(checked: bool) | Radio(selection: nat) | Button

  /** OK treats every type that starts with "STRING" as a string. */
  predicate IsStringKind(kind: string) {
    StartsWith(kind, "STRING")
  }

  /** The control the constructor makes for each type it knows. A type it
      does not know gets no control at all. */
  predicate Fits(p: DlgParam, c: Control) {
    match c
    case Spin(_) => p.kind == "INT"
    case Text(_) => p.kind in {"STRING", "STRING_L", "STRING_M", "FLOAT"}
    case Check(_) => p.kind == "BOOL"
    case Radio(s) => p.kind == "OPTION" && s < |p.options|
    case Button => p.kind == "FILE_IN" || p.kind == "FILE_OUT"
  }

  // ---------------------------------------------------------------------
  // The constructor

  /** The parameter's current value, read with `getGUIParam` or
      `getLogicParam`, which insert "" for a name the gate lacks. */
  function Current(g: Gate, p: DlgParam): (r: (Gate, string))
    ensures r.1 == Lookup(if p.isGui then g.gparams else g.lparams, p.name)
    ensures forall k :: Lookup(r.0.gparams, k) == Lookup(g.gparams, k) && Lookup(r.0.lparams, k) == Lookup(g.lparams, k)
    ensures r.0.(gparams := g.gparams, lparams := g.lparams) == g
  {
    if p.isGui then GetGUIParam(g, p.name) else GetLogicParam(g, p.name)
  }

  /** The radio button selected at first: the last choice equal to the
      current value, or the first choice when none is. */
  method InitialSelection(options: seq<string>, current: string) returns (sel: nat)
    ensures current in options ==> sel < |options| && options[sel] == current
    ensures current in options ==> forall j :: sel < j < |options| ==> options[j] != current
    ensures current !in options ==> sel == 0
  {
    sel := 0;
    var j := 0;
    while j < |options|
      invariant 0 <= j <= |options|
      invariant current in options[..j] ==> sel < j && options[sel] == current
      invariant current in options[..j] ==> forall i :: sel < i < j ==> options[i] != current
      invariant current !in options[..j] ==> sel == 0
    {
      assert options[..j + 1] == options[..j] + [options[j]];
      if options[j] == current {
        sel := j;
      }
      j := j + 1;
    }
    assert options[..j] == options;
  }

  /** The control made for one parameter, and the gate after the read of
      its current value. A spin control starts at the lower bound when the
      value is empty and at the `int` read from the value otherwise; a value
      of whitespace only leaves that `int` uninitialised, which is `Err`. */
  method InitialControl(g: Gate, p: DlgParam) returns (g': Gate, c: Result<Control, string>)
    requires p.kind in {"INT", "STRING", "STRING_L", "STRING_M", "BOOL", "FLOAT", "OPTION", "FILE_IN", "FILE_OUT"}
    ensures c.Ok? ==> Fits(p, c.value)
    ensures c.Err? <==> ((p.kind == "INT" && Current(g, p).1 != "" && |SkipSpaces(Current(g, p).1)| == 0)
      || (p.kind == "OPTION" && |p.options| == 0))
    ensures p.kind == "INT" && Current(g, p).1 == "" ==> c == Ok(Spin(p.rmin))
    ensures p.kind == "INT" && Current(g, p).1 != "" && c.Ok? ==> IntMin <= c.value.value <= IntMax
    ensures p.kind in {"STRING", "STRING_L", "STRING_M", "FLOAT"} ==> c == Ok(Text(Current(g, p).1))
    ensures p.kind == "BOOL" ==> c == Ok(Check(Current(g, p).1 == "true"))
    ensures p.kind == "OPTION" && c.Ok? && Current(g, p).1 in p.options ==> p.options[c.value.selection] == Current(g, p).1
    ensures p.kind == "OPTION" && |p.options| > 0 && Current(g, p).1 !in p.options ==> c == Ok(Radio(0))
    ensures p.kind == "FILE_IN" || p.kind == "FILE_OUT" ==> g' == g && c == Ok(Button)
    ensures forall k :: Lookup(g'.gparams, k) == Lookup(g.gparams, k) && Lookup(g'.lparams, k) == Lookup(g.lparams, k)
  {
    if p.kind == "FILE_IN" || p.kind == "FILE_OUT" {
      return g, Ok(Button);
    }
    var current;
    g', current := Current(g, p).0, Current(g, p).1;
    if p.kind == "INT" {
      if current == "" {
        c := Ok(Spin(p.rmin));
      } else if |SkipSpaces(current)| == 0 {
        c := Err("uninitialised");
      } else {
        c := Ok(Spin(ReadInt(Open(current), 0, 10).1));
      }
    } else if p.kind == "BOOL" {
      c := Ok(Check(current == "true"));
    } else if p.kind == "OPTION" {
      var sel := InitialSelection(p.options, current);
      if sel < |p.options| {
        c := Ok(Radio(sel));
      } else {
        // A radio box without choices: there is nothing to select.
        c := Err("no choices");
      }
    } else {
      c := Ok(Text(current));
    }
  }

  /** A value OK stored for an "INT" parameter is what its spin control
      shows when the dialog opens again. */
  lemma IntValueReopens(g: Gate, p: DlgParam, v: int)
    requires p.kind == "INT" && IntMin <= v <= IntMax
    requires Current(g, p).1 == IntToString(v)
    ensures ReadInt(Open(Current(g, p).1), 0, 10).1 == v
  {
    ReadIntOfInt(v, 0);
  }

  // ---------------------------------------------------------------------
  // OK

  /** The message OK shows for a control it refuses, if any: an "INT"
      outside its range, a "FLOAT" the oracle finds out of range, an empty
      `JUNCTION_ID` once spaces are removed. */
  function Problem(p: DlgParam, c: Control, removeSpaces: string -> string,
                   floatInRange: (DlgParam, string) -> bool): Option<string>
  {
    match c
    case Spin(v) =>
      if v < p.rmin || v > p.rmax then Some("ERROR: Parameter " + p.caption + " is out of range.") else None
    case Text(t) =>
      if p.kind == "FLOAT" then
        (if floatInRange(p, t) then None else Some("ERROR: Parameter " + p.caption + " is out of range."))
      else if p.name == "JUNCTION_ID" && removeSpaces(t) == "" then Some("ERROR: Parameter " + p.caption + " is empty.")
      else None
    case _ => None
  }

  /** The value OK stores for a control. */
  function ValueOf(p: DlgParam, c: Control, removeSpaces: string -> string): (r: string)
    ensures c.Check? ==> (r == "true" <==> c.checked) && (r == "false" <==> !c.checked)
    ensures c.Radio? && Fits(p, c) ==> r in p.options
    ensures c.Button? ==> r == ""
  {
    match c
    case Spin(v) => IntToString(v)
    case Text(t) => if p.kind == "FLOAT" then t else removeSpaces(t)
    case Check(b) => if b then "true" else "false"
    case Radio(s) => if s < |p.options| then p.options[s] else ""
    case Button => ""
  }

  /** No parameter after `i` (and before `n`) has the same name in the
      same list: `i` is the one whose value the list keeps. */
  predicate LastOf(dlg: seq<DlgParam>, i: nat, n: nat)
    requires i < |dlg| && n <= |dlg|
  {
    forall j :: i < j < n ==> !(dlg[j].name == dlg[i].name && dlg[j].isGui == dlg[i].isGui)
  }

  /** The lists OK builds from the first `n` parameters: the GUI list holds
      exactly the names of GUI parameters and the logic list those of logic
      parameters, each with the value of the last parameter of that name. */
  ghost predicate Routed(dlg: seq<DlgParam>, cs: seq<Control>, removeSpaces: string -> string,
                         gui: PMap, logic: PMap, n: nat)
    requires |cs| == |dlg| && n <= |dlg|
  {
    NamesOf(dlg, gui, true, n) && NamesOf(dlg, logic, false, n) && LastValues(dlg, Values(dlg, cs, removeSpaces), gui, logic, n)
  }

  /** The keys of `m` are the names of the first `n` parameters of one
      list. */
  ghost predicate NamesOf(dlg: seq<DlgParam>, m: PMap, isGui: bool, n: nat)
    requires n <= |dlg|
  {
    forall k :: Has(m, k) <==> exists i :: 0 <= i < n && dlg[i].isGui == isGui && dlg[i].name == k
  }

  /** The value OK stores for each control. */
  function Values(dlg: seq<DlgParam>, cs: seq<Control>, removeSpaces: string -> string): (r: seq<string>)
    requires |cs| == |dlg|
    ensures |r| == |dlg|
    ensures forall i :: 0 <= i < |dlg| ==> r[i] == ValueOf(dlg[i], cs[i], removeSpaces)
  {
    seq(|dlg|, i requires 0 <= i < |dlg| => ValueOf(dlg[i], cs[i], removeSpaces))
  }

  /** Each parameter that is the last of its name before `n` has its value
      in its own list. */
  ghost predicate LastValues(dlg: seq<DlgParam>, vals: seq<string>, gui: PMap, logic: PMap, n: nat)
    requires |vals| == |dlg| && n <= |dlg|
  {
    forall i {:trigger LastOf(dlg, i, n)} :: 0 <= i < n && LastOf(dlg, i, n) ==>
      Get(if dlg[i].isGui then gui else logic, dlg[i].name) == Some(vals[i])
  }

  /** Some control is refused. */
  predicate Refusal(dlg: seq<DlgParam>, cs: seq<Control>, removeSpaces: string -> string,
                    floatInRange: (DlgParam, string) -> bool)
    requires |cs| == |dlg|
  {
    exists i :: 0 <= i < |dlg| && Problem(dlg[i], cs[i], removeSpaces, floatInRange).Some?
  }

  /** No control before `n` is refused. */
  predicate Accepted(dlg: seq<DlgParam>, cs: seq<Control>, removeSpaces: string -> string,
                     floatInRange: (DlgParam, string) -> bool, n: nat)
    requires |cs| == |dlg| && n <= |dlg|
  {
    forall j :: 0 <= j < n ==> Problem(dlg[j], cs[j], removeSpaces, floatInRange).None?
  }

  /** The loop of OK over the parameters: the first refused control stops
      it with its message; otherwise the two lists. */
  method Collect(dlg: seq<DlgParam>, cs: seq<Control>, removeSpaces: string -> string,
                 floatInRange: (DlgParam, string) -> bool) returns (r: Result<(PMap, PMap), string>)
    requires |cs| == |dlg|
    ensures r.Err? <==> Refusal(dlg, cs, removeSpaces, floatInRange)
    ensures r.Err? ==> exists i :: (0 <= i < |dlg| && Some(r.error) == Problem(dlg[i], cs[i], removeSpaces, floatInRange)
      && forall j :: 0 <= j < i ==> Problem(dlg[j], cs[j], removeSpaces, floatInRange).None?)
    ensures r.Ok? ==> Routed(dlg, cs, removeSpaces, r.value.0, r.value.1, |dlg|)
  {
    var gui, logic := Empty, Empty;
    RoutedStart(dlg, cs, removeSpaces);
    var i := 0;
    while i < |dlg|
      invariant 0 <= i <= |dlg|
      invariant Accepted(dlg, cs, removeSpaces, floatInRange, i)
      invariant Routed(dlg, cs, removeSpaces, gui, logic, i)
    {
      var problem := Problem(dlg[i], cs[i], removeSpaces, floatInRange);
      if problem.Some? {
        FirstProblem(dlg, cs, removeSpaces, floatInRange, i);
        return Err(problem.value);
      }
      gui, logic := Store(dlg, cs, removeSpaces, gui, logic, i);
      i := i + 1;
    }
    return Ok((gui, logic));
  }

  /** One step of the loop of OK: the value of parameter `n` goes to the
      list its parameter names. */
  method Store(dlg: seq<DlgParam>, cs: seq<Control>, removeSpaces: string -> string,
               gui: PMap, logic: PMap, n: nat) returns (gui': PMap, logic': PMap)
    requires |cs| == |dlg| && n < |dlg|
    requires Routed(dlg, cs, removeSpaces, gui, logic, n)
    ensures Routed(dlg, cs, removeSpaces, gui', logic', n + 1)
  {
    var p, v := dlg[n], ValueOf(dlg[n], cs[n], removeSpaces);
    if p.isGui {
      gui', logic' := Put(gui, p.name, v), logic;
    } else {
      gui', logic' := gui, Put(logic, p.name, v);
    }
    RoutedStep(dlg, cs, removeSpaces, gui, logic, gui', logic', n);
  }

  /** The first refused control is the one OK reports. */
  lemma FirstProblem(dlg: seq<DlgParam>, cs: seq<Control>, removeSpaces: string -> string,
                     floatInRange: (DlgParam, string) -> bool, i: nat)
    requires |cs| == |dlg| && i < |dlg|
    requires Accepted(dlg, cs, removeSpaces, floatInRange, i)
    requires Problem(dlg[i], cs[i], removeSpaces, floatInRange).Some?
    ensures Refusal(dlg, cs, removeSpaces, floatInRange)
    ensures exists i' :: (0 <= i' < |dlg| && Some(Problem(dlg[i], cs[i], removeSpaces, floatInRange).value)
      == Problem(dlg[i'], cs[i'], removeSpaces, floatInRange)
      && forall j :: 0 <= j < i' ==> Problem(dlg[j], cs[j], removeSpaces, floatInRange).None?)
  {
  }

  /** Before any parameter both lists are empty. */
  lemma RoutedStart(dlg: seq<DlgParam>, cs: seq<Control>, removeSpaces: string -> string)
    requires |cs| == |dlg|
    ensures Routed(dlg, cs, removeSpaces, Empty, Empty, 0)
  {
  }

  /** Storing parameter `n` keeps the lists routed. */
  lemma RoutedStep(dlg: seq<DlgParam>, cs: seq<Control>, removeSpaces: string -> string,
                   gui: PMap, logic: PMap, gui': PMap, logic': PMap, n: nat)
    requires |cs| == |dlg| && n < |dlg|
    requires Routed(dlg, cs, removeSpaces, gui, logic, n)
    requires dlg[n].isGui ==> gui' == Put(gui, dlg[n].name, ValueOf(dlg[n], cs[n], removeSpaces)) && logic' == logic
    requires !dlg[n].isGui ==> logic' == Put(logic, dlg[n].name, ValueOf(dlg[n], cs[n], removeSpaces)) && gui' == gui
    ensures Routed(dlg, cs, removeSpaces, gui', logic', n + 1)
  {
    var v := ValueOf(dlg[n], cs[n], removeSpaces);
    if dlg[n].isGui {
      NamesStep(dlg, gui, gui', true, n, v);
      NamesKept(dlg, logic, false, n);
    } else {
      NamesStep(dlg, logic, logic', false, n, v);
      NamesKept(dlg, gui, true, n);
    }
    ValuesStep(dlg, Values(dlg, cs, removeSpaces), gui, logic, gui', logic', n);
  }

  /** Storing parameter `n` in its own list adds its name. */
  lemma NamesStep(dlg: seq<DlgParam>, m: PMap, m': PMap, isGui: bool, n: nat, v: string)
    requires n < |dlg| && dlg[n].isGui == isGui
    requires NamesOf(dlg, m, isGui, n) && m' == Put(m, dlg[n].name, v)
    ensures NamesOf(dlg, m', isGui, n + 1)
  {
    forall k ensures Has(m', k) <==> exists i :: 0 <= i < n + 1 && dlg[i].isGui == isGui && dlg[i].name == k {
      if k == dlg[n].name {
        assert Has(m', k) && dlg[n].isGui == isGui && dlg[n].name == k;
      } else {
        assert Has(m', k) == Has(m, k);
        if exists i :: 0 <= i < n + 1 && dlg[i].isGui == isGui && dlg[i].name == k {
          var i :| 0 <= i < n + 1 && dlg[i].isGui == isGui && dlg[i].name == k;
          assert i < n;
        }
      }
    }
  }

  /** Parameter `n` of the other list leaves this one's names alone. */
  lemma NamesKept(dlg: seq<DlgParam>, m: PMap, isGui: bool, n: nat)
    requires n < |dlg| && dlg[n].isGui != isGui
    requires NamesOf(dlg, m, isGui, n)
    ensures NamesOf(dlg, m, isGui, n + 1)
  {
    forall k ensures Has(m, k) <==> exists i :: 0 <= i < n + 1 && dlg[i].isGui == isGui && dlg[i].name == k {
      if exists i :: 0 <= i < n + 1 && dlg[i].isGui == isGui && dlg[i].name == k {
        var i :| 0 <= i < n + 1 && dlg[i].isGui == isGui && dlg[i].name == k;
        assert i < n;
      }
    }
  }

  lemma ValuesStep(dlg: seq<DlgParam>, vals: seq<string>,
                   gui: PMap, logic: PMap, gui': PMap, logic': PMap, n: nat)
    requires |vals| == |dlg| && n < |dlg|
    requires LastValues(dlg, vals, gui, logic, n)
    requires dlg[n].isGui ==> gui' == Put(gui, dlg[n].name, vals[n]) && logic' == logic
    requires !dlg[n].isGui ==> logic' == Put(logic, dlg[n].name, vals[n]) && gui' == gui
    ensures LastValues(dlg, vals, gui', logic', n + 1)
  {
    forall i | 0 <= i < n + 1 && LastOf(dlg, i, n + 1)
      ensures Get(if dlg[i].isGui then gui' else logic', dlg[i].name) == Some(vals[i])
    {
      if i < n {
        assert LastOf(dlg, i, n);
      }
      ValueAt(dlg, vals, gui, logic, gui', logic', n, i);
    }
  }

  /** One parameter of the step: the stored one has its new value, an
      earlier last one keeps its value. */
  lemma ValueAt(dlg: seq<DlgParam>, vals: seq<string>,
                gui: PMap, logic: PMap, gui': PMap, logic': PMap, n: nat, i: nat)
    requires |vals| == |dlg| && i <= n < |dlg| && LastOf(dlg, i, n + 1)
    requires i < n ==> Get(if dlg[i].isGui then gui else logic, dlg[i].name) == Some(vals[i])
    requires dlg[n].isGui ==> gui' == Put(gui, dlg[n].name, vals[n]) && logic' == logic
    requires !dlg[n].isGui ==> logic' == Put(logic, dlg[n].name, vals[n]) && gui' == gui
    ensures Get(if dlg[i].isGui then gui' else logic', dlg[i].name) == Some(vals[i])
  {
    if i < n {
      ValueKept(dlg[i], dlg[n], vals[n], gui, logic, gui', logic');
    }
  }

  /** Storing parameter `q` leaves the value of a parameter `p` of another
      name or list alone. */
  lemma ValueKept(p: DlgParam, q: DlgParam, v: string, gui: PMap, logic: PMap, gui': PMap, logic': PMap)
    requires q.isGui ==> gui' == Put(gui, q.name, v) && logic' == logic
    requires !q.isGui ==> logic' == Put(logic, q.name, v) && gui' == gui
    requires !(q.name == p.name && q.isGui == p.isGui)
    ensures Get(if p.isGui then gui' else logic', p.name) == Get(if p.isGui then gui else logic, p.name)
  {
  }

  // ---------------------------------------------------------------------
  // Change detection

  /** Some value of the lists differs from the gate's current one, or the
      logic list sets `PULSE_WIDTH` (set again to start a new pulse). */
  predicate Differs(g: Gate, gui: PMap, logic: PMap) {
    (exists i :: 0 <= i < |gui| && Lookup(g.gparams, gui[i].0) != gui[i].1) ||
    (exists i :: 0 <= i < |logic| && Lookup(g.lparams, logic[i].0) != logic[i].1) ||
    Has(logic, "PULSE_WIDTH")
  }

  /** `g'` is `g` after reads of its parameters: the reads may have
      inserted "" under names it lacked, which no read can tell apart. */
  ghost predicate ReadsOnly(g: Gate, g': Gate) {
    g'.(gparams := g.gparams, lparams := g.lparams) == g &&
    (forall k :: Lookup(g'.gparams, k) == Lookup(g.gparams, k)) &&
    (forall k :: Lookup(g'.lparams, k) == Lookup(g.lparams, k))
  }

  /** All GUI values before `n` equal the gate's. */
  predicate GuiSame(g: Gate, gui: PMap, n: nat)
    requires n <= |gui|
  {
    forall j :: 0 <= j < n ==> Lookup(g.gparams, gui[j].0) == gui[j].1
  }

  /** All logic values before `n` equal the gate's, and none of them is
      `PULSE_WIDTH`. */
  predicate LogicSame(g: Gate, logic: PMap, n: nat)
    requires n <= |logic|
  {
    forall j :: 0 <= j < n ==> Lookup(g.lparams, logic[j].0) == logic[j].1 && logic[j].0 != "PULSE_WIDTH"
  }

  /** The two walks that compare the lists with the gate, each stopping at
      the first difference. */
  method Compare(g: Gate, gui: PMap, logic: PMap) returns (same: bool, g': Gate)
    ensures !same <==> Differs(g, gui, logic)
    ensures ReadsOnly(g, g')
  {
    same, g' := CompareGui(g, gui);
    if same {
      same, g' := CompareLogic(g, g', logic);
    }
    PulseWidthAt(logic);
  }

  /** The walk over the GUI list: true exactly when every value equals the
      gate's. */
  method CompareGui(g: Gate, gui: PMap) returns (same: bool, g': Gate)
    ensures same <==> GuiSame(g, gui, |gui|)
    ensures ReadsOnly(g, g')
  {
    same := true;
    g' := g;
    var i := 0;
    while i < |gui| && same
      invariant 0 <= i <= |gui|
      invariant same <==> GuiSame(g, gui, i)
      invariant ReadsOnly(g, g')
    {
      var (g'', value) := GetGUIParam(g', gui[i].0);
      ReadGuiStep(g, g', gui[i].0);
      g' := g'';
      same := value == gui[i].1;
      i := i + 1;
    }
  }

  /** The walk over the logic list on the gate `g0` the GUI walk left:
      true exactly when every value equals the gate's and none is
      `PULSE_WIDTH`. */
  method CompareLogic(g: Gate, g0: Gate, logic: PMap) returns (same: bool, g': Gate)
    requires ReadsOnly(g, g0)
    ensures same <==> LogicSame(g, logic, |logic|)
    ensures ReadsOnly(g, g')
  {
    same := true;
    g' := g0;
    var i := 0;
    while i < |logic| && same
      invariant 0 <= i <= |logic|
      invariant same <==> LogicSame(g, logic, i)
      invariant ReadsOnly(g, g')
    {
      var (g'', value) := GetLogicParam(g', logic[i].0);
      ReadLogicStep(g, g', logic[i].0);
      g' := g'';
      same := value == logic[i].1 && logic[i].0 != "PULSE_WIDTH";
      i := i + 1;
    }
  }

  /** A GUI read after reads still sees the gate's value and adds no
      readable change. */
  lemma ReadGuiStep(g: Gate, g': Gate, name: string)
    requires ReadsOnly(g, g')
    ensures GetGUIParam(g', name).1 == Lookup(g.gparams, name)
    ensures ReadsOnly(g, GetGUIParam(g', name).0)
  {
  }

  /** A logic read after reads still sees the gate's value and adds no
      readable change. */
  lemma ReadLogicStep(g: Gate, g': Gate, name: string)
    requires ReadsOnly(g, g')
    ensures GetLogicParam(g', name).1 == Lookup(g.lparams, name)
    ensures ReadsOnly(g, GetLogicParam(g', name).0)
  {
  }

  lemma PulseWidthAt(logic: PMap)
    ensures Has(logic, "PULSE_WIDTH") <==> exists j :: 0 <= j < |logic| && logic[j].0 == "PULSE_WIDTH"
  {
  }

  /** When nothing differs, setting the lists on the gate changes no value
      that can be read from it: skipping the command loses nothing. */
  lemma NoDifferenceNoChange(g: Gate, gui: PMap, logic: PMap)
    requires !Differs(g, gui, logic)
    ensures forall k :: Lookup(SetAll(g, logic, gui).gparams, k) == Lookup(g.gparams, k)
    ensures forall k :: Lookup(SetAll(g, logic, gui).lparams, k) == Lookup(g.lparams, k)
  {
    forall k ensures Lookup(SetAll(g, logic, gui).gparams, k) == Lookup(g.gparams, k) {
      if Has(gui, k) {
        var i :| 0 <= i < |gui| && gui[i].0 == k;
        assert Get(gui, k) == Some(gui[i].1) by {
          assert (k, gui[i].1) in gui;
          UniqueKey(gui, k, gui[i].1);
        }
      }
    }
    forall k ensures Lookup(SetAll(g, logic, gui).lparams, k) == Lookup(g.lparams, k) {
      if Has(logic, k) {
        var i :| 0 <= i < |logic| && logic[i].0 == k;
        assert Get(logic, k) == Some(logic[i].1) by {
          assert (k, logic[i].1) in logic;
          UniqueKey(logic, k, logic[i].1);
        }
      }
    }
  }

  /** In a sorted map an entry is the one `Get` finds. */
  lemma UniqueKey(m: PMap, k: string, v: string)
    requires (k, v) in m
    ensures Get(m, k) == Some(v)
  {
    var i :| 0 <= i < |m| && m[i] == (k, v);
    var w := Get(m, k).value;
    var j :| 0 <= j < |m| && m[j] == (k, w);
    if i < j {
      LessIrreflexive(k);
    } else if j < i {
      LessIrreflexive(k);
    }
  }

  // ---------------------------------------------------------------------
  // The whole of OK

  /** What OK does with the lists: set them on the gate directly, submit a
      `cmdSetParams` with them, or nothing. */
  datatype Action = SetDirectly | Submit | NoCommand

  /** `Refused` leaves the gate and the dialog as they were. Otherwise the
      dialog closes with the two lists it built, the action taken and the
      gate afterwards. */
  datatype OkOutcome = Refused(message: string) | Closed(gui: PMap, logic: PMap, action: Action, gate: Gate)

  method OnOK(g: Gate, dlg: seq<DlgParam>, cs: seq<Control>, removeSpaces: string -> string,
              floatInRange: (DlgParam, string) -> bool) returns (r: OkOutcome)
    requires |cs| == |dlg|
    ensures r.Refused? <==> Refusal(dlg, cs, removeSpaces, floatInRange)
    ensures r.Closed? ==> Routed(dlg, cs, removeSpaces, r.gui, r.logic, |dlg|)
    ensures r.Closed? ==> (r.action == SetDirectly <==> StartsWith(g.libGateName, "%%_"))
    ensures r.Closed? && r.action == SetDirectly ==> r.gate == SetAll(g, r.logic, Put(r.gui, "DYNAMIC_GATE", "true"))
    ensures r.Closed? && !StartsWith(g.libGateName, "%%_") ==> (r.action == Submit <==> Differs(g, r.gui, r.logic))
    ensures r.Closed? && r.action != SetDirectly ==> forall k ::
      Lookup(r.gate.gparams, k) == Lookup(g.gparams, k) && Lookup(r.gate.lparams, k) == Lookup(g.lparams, k)
  {
    var lists := Collect(dlg, cs, removeSpaces, floatInRange);
    if lists.Err? {
      return Refused(lists.error);
    }
    var (gui, logic) := lists.value;
    if StartsWith(g.libGateName, "%%_") {
      var all := Put(gui, "DYNAMIC_GATE", "true");
      return Closed(gui, logic, SetDirectly, SetAll(g, logic, all));
    }
    var same, g' := Compare(g, gui, logic);
    return Closed(gui, logic, if same then NoCommand else Submit, g');
  }
}

=== FILE: param_map.dfy ===
/** The gates' parameter maps (`std::map<std::string, std::string>`) as a
    key-sorted association list. Keeping the entries in key order makes the
    iteration order of the C++ map visible to the model: the order
    `cmdSetParams::toString` emits entries in, and the "first key with a
    prefix" lookup of the keypad. */
module ParamMap {
  import opened Wrappers
  import opened Strings

  type Entry = (string, string)

  /** Keys strictly increase, so each key occurs at most once. */
  predicate Sorted(es: seq<Entry>) {
    forall i, j {:trigger Less(es[i].0, es[j].0)} :: 0 <= i < j < |es| ==> Less(es[i].0, es[j].0)
  }

  type PMap = es: seq<Entry> | Sorted(es) witness []

  /** The empty map. */
  const Empty: PMap := []

  function KeySet(m: seq<Entry>): set<string> {
    set i | 0 <= i < |m| :: m[i].0
  }

  /** `find`: the value stored under `k`, if any. */
  function Get(m: seq<Entry>, k: string): (r: Option<string>)
    ensures r.Some? <==> k in KeySet(m)
    ensures r.Some? ==> (k, r.value) in m
    decreases |m|
  {
    if |m| == 0 then None
    else if m[0].0 == k then Some(m[0].1)
    else
      assert forall i :: 0 < i < |m| ==> m[i].0 in KeySet(m[1..]) by {
        forall i | 0 < i < |m| ensures m[i].0 in KeySet(m[1..]) {
          assert m[1..][i - 1] == m[i];
        }
      }
      Get(m[1..], k)
  }

  predicate Has(m: seq<Entry>, k: string) {
    k in KeySet(m)
  }

  /** What `m[k]` reads: the stored value, or "" for an absent key. */
  function Lookup(m: PMap, k: string): (r: string)
    ensures Has(m, k) ==> Some(r) == Get(m, k)
    ensures !Has(m, k) ==> r == ""
  {
    Get(m, k).GetOr("")
  }

  lemma HeadBelowRest(m: PMap)
    requires |m| > 0
    ensures forall k :: k in KeySet(m[1..]) ==> Less(m[0].0, k)
  {
    forall k | k in KeySet(m[1..]) ensures Less(m[0].0, k) {
      var i :| 0 <= i < |m[1..]| && m[1..][i].0 == k;
      assert m[i + 1].0 == k;
    }
  }

  lemma BelowHeadBelowAll(k: string, m: PMap)
    requires |m| > 0 && Less(k, m[0].0)
    ensures forall k' :: k' in KeySet(m) ==> Less(k, k')
  {
    forall k' | k' in KeySet(m) ensures Less(k, k') {
      var i :| 0 <= i < |m| && m[i].0 == k';
      if i > 0 {
        LessTransitive(k, m[0].0, k');
      }
    }
  }

  lemma ConsSorted(e: Entry, es: PMap)
    requires forall k :: k in KeySet(es) ==> Less(e.0, k)
    ensures Sorted([e] + es)
  {
    var r := [e] + es;
    forall i, j | 0 <= i < j < |r| ensures Less(r[i].0, r[j].0) {
      if i == 0 {
        assert r[j] == es[j - 1];
        assert es[j - 1].0 in KeySet(es);
      } else {
        assert r[i] == es[i - 1] && r[j] == es[j - 1];
      }
    }
  }

  lemma KeySetCons(e: Entry, es: seq<Entry>)
    ensures KeySet([e] + es) == {e.0} + KeySet(es)
  {
    var r := [e] + es;
    forall k | k in KeySet(r) ensures k in {e.0} + KeySet(es) {
      var i :| 0 <= i < |r| && r[i].0 == k;
      if i > 0 {
        assert r[i] == es[i - 1];
      }
    }
    forall k | k in KeySet(es) ensures k in KeySet(r) {
      var i :| 0 <= i < |es| && es[i].0 == k;
      assert r[i + 1] == es[i];
    }
    assert r[0] == e;
  }

  /** `m[k] = v`: inserts or overwrites one key, leaving every other key
      as it was. */
  function Put(m: PMap, k: string, v: string): (r: PMap)
    ensures Get(r, k) == Some(v)
    ensures forall k' :: k' != k ==> Get(r, k') == Get(m, k')
    ensures KeySet(r) == KeySet(m) + {k}
    decreases |m|
  {
    if |m| == 0 then
      KeySetCons((k, v), []);
      [(k, v)]
    else if m[0].0 == k then
      HeadFacts(m);
      ConsFacts((k, v), m[1..]);
      [(k, v)] + m[1..]
    else if Less(k, m[0].0) then
      BelowHeadBelowAll(k, m);
      ConsFacts((k, v), m);
      [(k, v)] + m
    else
      LessTotal(k, m[0].0);
      HeadFacts(m);
      var rest := Put(m[1..], k, v);
      ConsFacts(m[0], rest);
      [m[0]] + rest
  }

  /** A map is its first entry followed by the rest, all of whose keys
      are above the first. */
  lemma HeadFacts(m: PMap)
    requires |m| > 0
    ensures forall k :: k in KeySet(m[1..]) ==> Less(m[0].0, k)
    ensures KeySet(m) == {m[0].0} + KeySet(m[1..])
    ensures forall k :: Get(m, k) == if k == m[0].0 then Some(m[0].1) else Get(m[1..], k)
  {
    HeadBelowRest(m);
    KeySetSplit(m);
  }

  /** An entry put in front of a map whose keys are all above its key. */
  lemma ConsFacts(e: Entry, es: PMap)
    requires forall k :: k in KeySet(es) ==> Less(e.0, k)
    ensures Sorted([e] + es)
    ensures KeySet([e] + es) == {e.0} + KeySet(es)
    ensures forall k :: Get([e] + es, k) == if k == e.0 then Some(e.1) else Get(es, k)
  {
    ConsSorted(e, es);
    KeySetCons(e, es);
    var r := [e] + es;
    assert r[0] == e && r[1..] == es;
  }

  /** Every entry of `es`, in key order, written into `m` with `Put`: the
      loops that copy one parameter map into another. */
  function PutAll(m: PMap, es: PMap): (r: PMap)
    ensures forall k :: Get(r, k) == if Has(es, k) then Get(es, k) else Get(m, k)
    decreases |es|
  {
    if |es| == 0 then m
    else
      var r := PutAll(Put(m, es[0].0, es[0].1), es[1..]);
      PutAllStep(m, es, r);
      r
  }

  lemma PutAllStep(m: PMap, es: PMap, r: PMap)
    requires |es| > 0
    requires forall k :: Get(r, k) == if Has(es[1..], k) then Get(es[1..], k) else Get(Put(m, es[0].0, es[0].1), k)
    ensures forall k :: Get(r, k) == if Has(es, k) then Get(es, k) else Get(m, k)
  {
    forall k ensures Get(r, k) == if Has(es, k) then Get(es, k) else Get(m, k) {
      PutAllStepAt(m, es, r, k);
    }
  }

  lemma PutAllStepAt(m: PMap, es: PMap, r: PMap, k: string)
    requires |es| > 0
    requires Get(r, k) == if Has(es[1..], k) then Get(es[1..], k) else Get(Put(m, es[0].0, es[0].1), k)
    ensures Get(r, k) == if Has(es, k) then Get(es, k) else Get(m, k)
  {
    KeySetSplit(es);
    HeadBelowRest(es);
    if k == es[0].0 {
      LessIrreflexive(k);
      assert !Has(es[1..], k);
    } else {
      assert es == [es[0]] + es[1..];
      assert Get(es, k) == Get(es[1..], k);
    }
  }

  lemma KeySetSplit(es: seq<Entry>)
    requires |es| > 0
    ensures KeySet(es) == {es[0].0} + KeySet(es[1..])
  {
    KeySetCons(es[0], es[1..]);
    assert es == [es[0]] + es[1..];
  }

  /** Two maps that agree on every key are the same list: the
      representation is canonical. */
  lemma {:induction false} Extensional(a: PMap, b: PMap)
    requires forall k :: Get(a, k) == Get(b, k)
    ensures a == b
    decreases |a|
  {
    if |a| > 0 {
      assert Get(b, a[0].0).Some?;
    }
    if |b| > 0 {
      assert Get(a, b[0].0).Some?;
    }
    if |a| > 0 && |b| > 0 {
      var ka, kb := a[0].0, b[0].0;
      HeadNotBelow(a, b);
      HeadNotBelow(b, a);
      LessTotal(ka, kb);
      assert ka == kb;
      HeadBelowRest(a);
      HeadBelowRest(b);
      KeySetCons(a[0], a[1..]);
      KeySetCons(b[0], b[1..]);
      assert a == [a[0]] + a[1..] && b == [b[0]] + b[1..];
      assert a[0] == b[0] by {
        assert Get(a, ka) == Some(a[0].1);
        assert Get(b, ka) == Some(b[0].1);
      }
      forall k ensures Get(a[1..], k) == Get(b[1..], k) {
        if k == ka {
          LessIrreflexive(k);
          assert k !in KeySet(a[1..]) && k !in KeySet(b[1..]);
        } else {
          assert Get(a, k) == Get(a[1..], k);
          assert Get(b, k) == Get(b[1..], k);
        }
      }
      Extensional(a[1..], b[1..]);
    }
  }

  /** When two maps agree, the first key of one is not below the first key
      of the other. */
  lemma HeadNotBelow(a: PMap, b: PMap)
    requires forall k :: Get(a, k) == Get(b, k)
    requires |a| > 0 && |b| > 0
    ensures !Less(a[0].0, b[0].0)
  {
    var ka := a[0].0;
    assert Get(a, ka).Some?;
    assert ka in KeySet(b);
    HeadBelowRest(b);
    KeySetCons(b[0], b[1..]);
    assert b == [b[0]] + b[1..];
    if ka != b[0].0 {
      assert Less(b[0].0, ka);
      LessAsymmetric(b[0].0, ka);
    } else {
      LessIrreflexive(ka);
    }
  }

  /** Appending a key above every present key: `Put` puts it last. */
  /** A key above the only key of a one-entry map goes after it. */
  lemma PutAboveOne(e: Entry, k: string, v: string)
    requires Less(e.0, k)
    ensures Sorted([e]) && Put([e], k, v) == [e, (k, v)]
  {
    var m: PMap := [e];
    forall k' | k' in KeySet(m) ensures k' == e.0 {
      var i :| 0 <= i < |m| && m[i].0 == k';
    }
    PutAbove(m, k, v);
    assert m + [(k, v)] == [e, (k, v)];
  }

  lemma {:induction false} PutAbove(m: PMap, k: string, v: string)
    requires forall k' :: k' in KeySet(m) ==> Less(k', k)
    ensures Sorted(m + [(k, v)])
    ensures Put(m, k, v) == m + [(k, v)]
    decreases |m|
  {
    SortedAppend(m, (k, v));
    if |m| > 0 {
      var h := m[0];
      var t: PMap := m[1..];
      assert Less(h.0, k) by {
        assert h.0 in KeySet(m);
      }
      assert forall k' :: k' in KeySet(t) ==> Less(k', k) by {
        KeySetSplit(m);
      }
      PutAbove(t, k, v);
      PutPastHead(m, k, v);
      ConsAppend(m, (k, v));
    }
  }

  lemma ConsAppend<T>(s: seq<T>, e: T)
    requires |s| > 0
    ensures s + [e] == [s[0]] + (s[1..] + [e])
  {
  }

  /** A key above the first key is put into the rest of the map. */
  lemma PutPastHead(m: PMap, k: string, v: string)
    requires |m| > 0 && Less(m[0].0, k)
    ensures Put(m, k, v) == [m[0]] + Put(m[1..], k, v)
  {
    LessAsymmetric(m[0].0, k);
  }

  lemma SortedAppend(m: PMap, e: Entry)
    requires forall k :: k in KeySet(m) ==> Less(k, e.0)
    ensures Sorted(m + [e])
  {
    var r := m + [e];
    forall i, j | 0 <= i < j < |r| ensures Less(r[i].0, r[j].0) {
      assert r[i] == m[i] && m[i].0 in KeySet(m);
      if j < |m| {
        assert r[j] == m[j];
      }
    }
  }

  lemma {:induction false} GetAppend(m: seq<Entry>, e: Entry, k: string)
    ensures Get(m + [e], k) == if Has(m, k) then Get(m, k) else if k == e.0 then Some(e.1) else None
    decreases |m|
  {
    if |m| == 0 {
      assert m + [e] == [e];
    } else {
      assert (m + [e])[0] == m[0];
      assert (m + [e])[1..] == m[1..] + [e];
      KeySetCons(m[0], m[1..]);
      assert m == [m[0]] + m[1..];
      if m[0].0 != k {
        GetAppend(m[1..], e, k);
      }
    }
  }

  /** Copying a map entry by entry into an empty map rebuilds it exactly. */
  lemma RebuildFromEntries(es: PMap)
    ensures PutAll([], es) == es
  {
    forall k ensures Get(PutAll([], es), k) == Get(es, k) {
    }
    Extensional(PutAll([], es), es);
  }

  /** The first key in map order that starts with `p`. */
  function FirstWithPrefix(m: PMap, p: string): (r: Option<string>)
    ensures r.Some? ==> Has(m, r.value) && StartsWith(r.value, p)
    ensures r.Some? ==> forall k :: Has(m, k) && StartsWith(k, p) ==> k == r.value || Less(r.value, k)
    ensures r.None? ==> forall k :: Has(m, k) ==> !StartsWith(k, p)
    decreases |m|
  {
    if |m| == 0 then None
    else
      HeadBelowRest(m);
      KeySetCons(m[0], m[1..]);
      assert m == [m[0]] + m[1..];
      if StartsWith(m[0].0, p) then Some(m[0].0)
      else FirstWithPrefix(m[1..], p)
  }
}

=== FILE: pld_map.dfy ===
/** The check of a programmable logic device's connection map (the
    `CONNECTIONS` parameter of a `%%_38_PLD` gate) in `createGatesStruct`.
    The map is text of '0' and '1' in lines; empty lines are ignored. Each
    line must be as wide as the plane it describes (AND plane, then OR
    plane), the number of lines must fit the device, and the digits in all
    must number exactly the size of both planes. An accepted map is stored
    back with its line breaks removed. */
module PldMap {
  import opened Wrappers
  import opened Strings
  import opened ParamMap
  import opened StreamExtract
  import opened GateTypes

  /** `PLD_TYPE`: "PROM", "PAL", and anything else, which is built as a
      PLA. */
  datatype PldKind = Prom | Pal | Pla

  function KindOf(pldType: string): PldKind {
    if pldType == "PROM" then Prom else if pldType == "PAL" then Pal else Pla
  }

  /** The number of lines and the width of a line for each plane. */
  datatype Layout = Layout(linesAnd: nat, charsAnd: nat, linesOr: nat, charsOr: nat)

  function Pow2(k: nat): (r: nat)
    ensures r >= 1
  {
    if k == 0 then 1 else 2 * Pow2(k - 1)
  }

  /** An `unsigned long` computation: the result modulo 2^64. */
  function ULong(v: int): (r: nat)
    ensures r < ULongModulus
  {
    v % ULongModulus
  }

  /** The layout for the device parameters, each already an `unsigned
      long`: `inBits` inputs, `outBits` outputs, and `orInputs` (ignored
      for a PROM) product terms per output. A PROM has only an OR plane
      with a column per input combination; a PAL has only an AND plane, a
      row per product term of each output; a PLA has both. */
  function LayoutOf(kind: PldKind, inBits: nat, outBits: nat, orInputs: nat): (l: Layout)
    requires inBits < 64
    ensures kind == Prom ==> l.linesAnd == 0 && l.charsAnd == 0 && l.linesOr == outBits && l.charsOr == Pow2(inBits)
    ensures kind != Prom ==> l.charsAnd == ULong(2 * inBits)
    ensures kind == Pal ==> l.linesAnd == ULong(orInputs * outBits) && l.linesOr == 0 && l.charsOr == 0
    ensures kind == Pla ==> l.linesAnd == orInputs && l.linesOr == outBits && l.charsOr == orInputs
  {
    match kind
    case Prom => Layout(0, 0, outBits, Pow2(inBits))
    case Pal => Layout(ULong(orInputs * outBits), ULong(2 * inBits), 0, 0)
    case Pla => Layout(orInputs, ULong(2 * inBits), outBits, orInputs)
  }

  /** `totalLength`: the number of digits of both planes. */
  function Total(l: Layout): nat {
    ULong(l.linesAnd * l.charsAnd + l.linesOr * l.charsOr)
  }

  /** The width line `j` (counting non-empty lines from 0) must have. */
  function Width(kind: PldKind, l: Layout, j: nat): nat {
    match kind
    case Prom => l.charsOr
    case Pal => l.charsAnd
    case Pla => if j < l.linesAnd then l.charsAnd else l.charsOr
  }

  /** The line count the device accepts: exactly the OR lines of a PROM,
      exactly the AND lines of a PAL, at least both of a PLA. */
  predicate CountOk(kind: PldKind, l: Layout, n: nat) {
    match kind
    case Prom => n == l.linesOr
    case Pal => n == l.linesAnd
    case Pla => n >= ULong(l.linesAnd + l.linesOr)
  }

  // ---------------------------------------------------------------------
  // Lines of a map

  predicate MapChars(s: string) {
    forall i :: 0 <= i < |s| ==> s[i] == '0' || s[i] == '1' || s[i] == '\n'
  }

  predicate AllBits(s: string) {
    forall i :: 0 <= i < |s| ==> s[i] == '0' || s[i] == '1'
  }

  /** `s` without its line breaks. */
  function Strip(s: string): (r: string)
    ensures '\n' !in r
    decreases |s|
  {
    if |s| == 0 then []
    else Strip(s[..|s| - 1]) + (if s[|s| - 1] == '\n' then [] else [s[|s| - 1]])
  }

  /** The non-empty lines of `s` that a line break has ended, and the text
      after the last line break. */
  function Split(s: string): (r: (seq<string>, string))
    ensures forall j :: 0 <= j < |r.0| ==> |r.0[j]| > 0 && '\n' !in r.0[j]
    ensures '\n' !in r.1
    decreases |s|
  {
    if |s| == 0 then ([], [])
    else
      var (done, cur) := Split(s[..|s| - 1]);
      var c := s[|s| - 1];
      if c != '\n' then (done, cur + [c])
      else if |cur| > 0 then (done + [cur], [])
      else (done, [])
  }

  /** The non-empty lines of a map: every line, the last one too, ends
      with the line break the check appends. */
  function Lines(s: string): seq<string> {
    Split(s + "\n").0
  }

  /** What an accepted map satisfies: only digits and line breaks, every
      line of its plane's width, a line count that fits the device, and
      all digits together the size of both planes. An empty map is left
      alone. */
  predicate Accepts(kind: PldKind, l: Layout, s: string) {
    s == "" ||
    (MapChars(s)
     && WidthsOk(kind, l, Lines(s))
     && CountOk(kind, l, |Lines(s)|)
     && |Strip(s)| == Total(l))
  }

  const InvalidChar := "Invalid char, must be '0' or '1'"
  const InvalidLineLength := "Invalid connection map line length"
  const InvalidLines := "Invalid connection map lines"
  const InvalidLength := "Invalid connection map length"

  /** The lines ended within a prefix are the first lines of the whole. */
  lemma {:induction false} SplitPrefix(t: string, k: nat)
    requires k <= |t|
    ensures |Split(t[..k]).0| <= |Split(t).0|
    ensures Split(t[..k]).0 == Split(t).0[..|Split(t[..k]).0|]
    decreases |t| - k
  {
    if k < |t| {
      var u := t[..|t| - 1];
      assert u[..k] == t[..k];
      SplitPrefix(u, k);
      assert t[..|t|][..|t| - 1] == u;
      assert t[..|t|] == t;
    } else {
      assert t[..k] == t;
    }
  }

  /** A line break after a non-empty partial line ends that line. */
  lemma SplitAtBreak(t: string, i: nat)
    requires i < |t| && t[i] == '\n' && |Split(t[..i]).1| > 0
    ensures Split(t[..i + 1]).0 == Split(t[..i]).0 + [Split(t[..i]).1]
  {
    assert t[..i + 1][..i] == t[..i];
  }

  lemma StripBreak(s: string)
    ensures Strip(s + "\n") == Strip(s)
  {
    assert (s + "\n")[..|s|] == s;
  }

  /** The first pass over the map with the appended line break: every
      character is a digit or a line break, and each line is as wide as
      its plane. On success, the digits and the number of lines. */
  method ScanLines(kind: PldKind, l: Layout, s: string) returns (r: Result<string, string>, lines: nat)
    ensures r.Ok? <==> MapChars(s) && WidthsOk(kind, l, Lines(s))
    ensures r.Ok? ==> r.value == Strip(s) && AllBits(r.value) && lines == |Lines(s)|
    ensures r.Err? ==> r.error == InvalidChar || r.error == InvalidLineLength
    ensures r.Err? && r.error == InvalidChar ==> !MapChars(s)
    ensures r.Err? && r.error == InvalidLineLength ==> !WidthsOk(kind, l, Lines(s))
  {
    var t := s + "\n";
    var connections := "";
    lines := 0;
    var chars: nat := 0;
    var i := 0;
    while i < |t|
      invariant 0 <= i <= |t|
      invariant connections == Strip(t[..i]) && AllBits(connections)
      invariant lines == |Split(t[..i]).0| && chars == |Split(t[..i]).1|
      invariant MapChars(t[..i])
      invariant WidthsOk(kind, l, Split(t[..i]).0)
    {
      var c := t[i];
      ScanStep(t, i);
      if c != '\n' {
        if c != '0' && c != '1' {
          assert i < |s| && s[i] == c;
          return Err(InvalidChar), lines;
        }
        BitsAppend(connections, c);
        connections := connections + [c];
        chars := chars + 1;
      } else if chars > 0 {
        if chars != Width(kind, l, lines) {
          LineTooWide(kind, l, s, i);
          return Err(InvalidLineLength), lines;
        }
        WidthsAppend(kind, l, Split(t[..i]).0, Split(t[..i]).1);
        chars := 0;
        lines := lines + 1;
      }
      i := i + 1;
    }
    assert t[..i] == t;
    assert MapChars(s) by {
      assert forall k :: 0 <= k < |s| ==> s[k] == t[k];
    }
    StripBreak(s);
    return Ok(connections), lines;
  }

  predicate WidthsOk(kind: PldKind, l: Layout, ls: seq<string>) {
    forall j :: 0 <= j < |ls| ==> |ls[j]| == Width(kind, l, j)
  }

  /** One more character of the scan: how the lines, the digits and the
      character check of the prefix grow. */
  lemma ScanStep(t: string, i: nat)
    requires i < |t|
    ensures Split(t[..i + 1]) ==
      (if t[i] != '\n' then (Split(t[..i]).0, Split(t[..i]).1 + [t[i]])
       else if |Split(t[..i]).1| > 0 then (Split(t[..i]).0 + [Split(t[..i]).1], [])
       else (Split(t[..i]).0, []))
    ensures Strip(t[..i + 1]) == Strip(t[..i]) + (if t[i] == '\n' then [] else [t[i]])
    ensures MapChars(t[..i + 1]) <==> MapChars(t[..i]) && (t[i] == '0' || t[i] == '1' || t[i] == '\n')
  {
    assert t[..i + 1][..i] == t[..i];
  }

  lemma BitsAppend(s: string, c: char)
    requires AllBits(s) && (c == '0' || c == '1')
    ensures AllBits(s + [c])
  {
  }

  lemma WidthsAppend(kind: PldKind, l: Layout, ls: seq<string>, line: string)
    requires WidthsOk(kind, l, ls) && |line| == Width(kind, l, |ls|)
    ensures WidthsOk(kind, l, ls + [line])
  {
  }

  /** A line of the wrong width, ended at position `i`, is a line of the
      whole map. */
  lemma LineTooWide(kind: PldKind, l: Layout, s: string, i: nat)
    requires i < |s + "\n"| && (s + "\n")[i] == '\n'
    requires |Split((s + "\n")[..i]).1| > 0
    requires |Split((s + "\n")[..i]).1| != Width(kind, l, |Split((s + "\n")[..i]).0|)
    ensures !WidthsOk(kind, l, Lines(s))
  {
    var t := s + "\n";
    SplitAtBreak(t, i);
    SplitPrefix(t, i + 1);
    assert t[..|t|] == t;
    var j := |Split(t[..i]).0|;
    assert Lines(s)[j] == Split(t[..i]).1;
  }

  /** The connection map check: `Ok` with the map to store, or `Err` with
      the message shown to the user. */
  method CheckConnections(kind: PldKind, l: Layout, s: string) returns (r: Result<string, string>)
    ensures r.Ok? <==> Accepts(kind, l, s)
    ensures r.Ok? ==> r.value == Strip(s) && AllBits(r.value)
    ensures r.Err? ==> r.error in [InvalidChar, InvalidLineLength, InvalidLines, InvalidLength]
    ensures s != "" && MapChars(s) && !WidthsOk(kind, l, Lines(s)) ==> r == Err(InvalidLineLength)
    ensures s != "" && !MapChars(s) && WidthsOk(kind, l, Lines(s)) ==> r == Err(InvalidChar)
    ensures (s != "" && MapChars(s) && WidthsOk(kind, l, Lines(s)) && !CountOk(kind, l, |Lines(s)|)) ==>
      r == Err(InvalidLines)
    ensures (s != "" && MapChars(s) && WidthsOk(kind, l, Lines(s)) && CountOk(kind, l, |Lines(s)|)
             && |Strip(s)| != Total(l)) ==>
      r == Err(InvalidLength)
  {
    if s == "" {
      return Ok(s);
    }
    var scanned, lines := ScanLines(kind, l, s);
    if scanned.Err? {
      return scanned;
    }
    if !CountOk(kind, l, lines) {
      return Err(InvalidLines);
    }
    if Total(l) != |scanned.value| {
      return Err(InvalidLength);
    }
    return scanned;
  }
}

=== FILE: set_params.dfy ===
/** `cmdSetParams`: the undoable command that sets a gate's GUI and logic
    parameters. It keeps the new parameters to set and the old ones to
    restore, and travels as text ("setparams <gid> <g>,<l> " followed by
    "name value<TAB>" per parameter) for copy and paste. */
module SetParams {
  import opened Wrappers
  import opened Strings
  import opened ParamMap
  import opened StreamExtract
  import opened Gates

  datatype SetParamsCmd = SetParamsCmd(gid: nat, fromString: bool,
                                       oldGui: PMap, oldLogic: PMap, newGui: PMap, newLogic: PMap)

  /** A core message `MT_SET_GATE_PARAM`. */
  datatype CoreMessage = SetGateParam(gate: nat, name: string, value: string)

  /** A parameter of the gate's library dialog: its name, the caption shown
      for it, its type ("INT", "STRING", "BOOL", "FLOAT", "OPTION",
      "FILE_IN", ...), whether it is a GUI parameter, the range an "INT"
      must lie in (the library's bounds converted to `int`) and the choices
      of an "OPTION". */
  datatype DlgParam = DlgParam(name: string, caption: string, kind: string, isGui: bool,
                               rmin: int, rmax: int, options: seq<string>)

  // ---------------------------------------------------------------------
  // Construction

  /** The map constructor: a snapshot of the gate's current parameters as
      the old lists, and the given maps (a null pointer gives an empty one)
      as the new lists. For a gate that does not exist the constructor
      returns before initialising anything, which is `None`. */
  function FromMaps(gates: map<GateId, Gate>, gid: nat, g: Option<PMap>, l: Option<PMap>, setMode: bool)
    : (r: Option<SetParamsCmd>)
    ensures r.Some? <==> gid in gates
    ensures r.Some? ==> r.value.gid == gid && r.value.fromString == setMode
    ensures r.Some? ==> r.value.oldGui == gates[gid].gparams && r.value.oldLogic == gates[gid].lparams
    ensures r.Some? ==> (g.None? ==> r.value.newGui == []) && (g.Some? ==> r.value.newGui == g.value)
    ensures r.Some? ==> (l.None? ==> r.value.newLogic == []) && (l.Some? ==> r.value.newLogic == l.value)
  {
    if gid !in gates then None
    else
      var gate := gates[gid];
      var newGui := if g.Some? then Copy(g.value) else [];
      var newLogic := if l.Some? then Copy(l.value) else [];
      Some(SetParamsCmd(gid, setMode, Copy(gate.gparams), Copy(gate.lparams), newGui, newLogic))
  }

  /** A loop copying a map entry by entry into an empty one. */
  function Copy(m: PMap): (r: PMap)
    ensures r == m
  {
    RebuildFromEntries(m);
    PutAll([], m)
  }

  // ---------------------------------------------------------------------
  // The text form

  /** "name value<TAB>" per entry, in key order. */
  function Entries(es: seq<Entry>): string
    decreases |es|
  {
    if |es| == 0 then "" else es[0].0 + " " + es[0].1 + "\t" + Entries(es[1..])
  }

  /** `toString`. */
  function ToString(c: SetParamsCmd): (r: string)
    ensures StartsWith(r, "setparams ")
    ensures EndsWith(r, Entries(c.newGui) + Entries(c.newLogic))
  {
    var head := "setparams " + NatToString(c.gid) + " " + NatToString(|c.newGui|) + "," + NatToString(|c.newLogic|) + " ";
    var r := head + (Entries(c.newGui) + Entries(c.newLogic));
    assert r[..10] == "setparams ";
    assert r[|r| - |Entries(c.newGui) + Entries(c.newLogic)|..] == Entries(c.newGui) + Entries(c.newLogic);
    r
  }

  /** The next extraction's sentry fails: the variable it would fill stays
      uninitialised. */
  predicate Exhausted(st: Stream) {
    !st.Good() || |SkipSpaces(st.rest)| == 0
  }

  /** `iss >> dump >> gid >> numgParams >> comma >> numlParams`: the stream
      after it, the gate ID and both counts. A count (or the ID) that the
      stream never reached is read uninitialised, which is `Err`. */
  function ParseHeader(def: string): (r: Result<(Stream, nat, nat, nat), string>)
    ensures r.Ok? ==> r.value.1 < ULongModulus && r.value.2 < ULongModulus && r.value.3 < ULongModulus
  {
    var (s1, _) := ReadWord(Open(def), "");
    if Exhausted(s1) then Err("uninitialised")
    else
      var (s2, gid) := ReadULong(s1, 0);
      if Exhausted(s2) then Err("uninitialised")
      else
        var (s3, numG) := ReadULong(s2, 0);
        var (s4, _) := ReadChar(s3, ',');
        if Exhausted(s4) then Err("uninitialised")
        else
          var (s5, numL) := ReadULong(s4, 0);
          Ok((s5, gid, numG, numL))
  }

  /** `n` parameters: a word, then up to the next TAB; the value is that
      text without its first character (the space). Text that has run out
      leaves the value empty and `substr(1)` throws. */
  function ReadParams(st: Stream, n: nat, m: PMap): (r: Result<(Stream, PMap), string>)
    decreases n
  {
    if n == 0 then Ok((st, m))
    else
      var (s1, name) := ReadWord(st, "");
      var (s2, value) := GetLine(s1, "", '\t');
      if |value| == 0 then Err("std::out_of_range")
      else ReadParams(s2, n - 1, Put(m, name, value[1..]))
  }

  /** The string constructor. Both lists of old values are copies of the
      new ones. */
  function FromString(def: string): (r: Result<SetParamsCmd, string>)
    ensures r.Ok? ==> r.value.fromString
    ensures r.Ok? ==> r.value.oldGui == r.value.newGui && r.value.oldLogic == r.value.newLogic
    ensures r.Ok? ==> r.value.gid < ULongModulus
  {
    var (st, gid, numG, numL) :- ParseHeader(def);
    var (st', gui) :- ReadParams(st, numG, Empty);
    var (_, logic) :- ReadParams(st', numL, Empty);
    Ok(SetParamsCmd(gid, true, gui, logic, gui, logic))
  }

  /** A parameter name `toString` can write so that it reads back. */
  predicate Writable(es: seq<Entry>) {
    forall i :: 0 <= i < |es| ==> |es[i].0| > 0 && NoSpace(es[i].0) && '\t' !in es[i].1
  }

  predicate AllSpace(s: string) {
    forall i :: 0 <= i < |s| ==> IsSpace(s[i])
  }

  /** One "name value<TAB>" read back, behind some whitespace. */
  lemma ReadOneEntry(lead: string, k: string, v: string, after: string, n: nat, m: PMap)
    requires AllSpace(lead) && |k| > 0 && NoSpace(k) && '\t' !in v
    ensures ReadParams(Open(lead + k + " " + v + "\t" + after), n + 1, m) == ReadParams(Open(after), n, Put(m, k, v))
  {
    var text := lead + k + " " + v + "\t" + after;
    var more := " " + v + "\t" + after;
    assert ReadWord(Open(text), "") == (Open(more), k) by {
      assert text == lead + k + more;
      ReadWordOfWord(lead, k, more);
    }
    assert GetLine(Open(more), "", '\t') == (Open(after), " " + v) by {
      assert more == (" " + v) + ['\t'] + after;
      GetLineOfLine(" " + v, '\t', after);
    }
    assert (" " + v)[1..] == v;
    ReadParamsStep(Open(text), n, m, Open(more), k, Open(after), " " + v);
  }

  /** One step of `ReadParams`: a name and a non-empty rest of line. */
  lemma ReadParamsStep(st: Stream, n: nat, m: PMap, s1: Stream, name: string, s2: Stream, value: string)
    requires ReadWord(st, "") == (s1, name)
    requires GetLine(s1, "", '\t') == (s2, value) && |value| > 0
    ensures ReadParams(st, n + 1, m) == ReadParams(s2, n, Put(m, name, value[1..]))
  {
  }

  /** Reading the entries `toString` wrote, behind some whitespace, writes
      them all into the map and stops right after them. */
  lemma {:induction false} ReadParamsOfEntries(lead: string, es: PMap, rest: string, m: PMap)
    requires AllSpace(lead) && Writable(es)
    ensures ReadParams(Open(lead + Entries(es) + rest), |es|, m)
      == Ok((if |es| == 0 then Open(lead + rest) else Open(rest), PutAll(m, es)))
    decreases |es|
  {
    if |es| == 0 {
      assert lead + Entries(es) + rest == lead + rest;
    } else {
      var k, v := es[0].0, es[0].1;
      var tail: PMap := es[1..];
      var after := Entries(tail) + rest;
      assert Writable(tail) by {
        assert forall i :: 0 <= i < |tail| ==> tail[i] == es[i + 1];
      }
      var text := lead + Entries(es) + rest;
      assert text == lead + k + " " + v + "\t" + after by {
        assert Entries(es) == k + " " + v + "\t" + Entries(tail);
      }
      ReadOneEntry(lead, k, v, after, |tail|, m);
      assert ReadParams(Open(after), |tail|, Put(m, k, v)) == Ok((Open(rest), PutAll(Put(m, k, v), tail))) by {
        NoLead(Entries(tail), rest);
        ReadParamsOfEntries("", tail, rest, Put(m, k, v));
        EmptyPlus(rest);
      }
      assert PutAll(m, es) == PutAll(Put(m, k, v), tail);
    }
  }

  lemma NoLead(a: string, b: string)
    ensures "" + a + b == a + b
  {
  }

  lemma EmptyPlus(a: string)
    ensures "" + a == a
  {
  }

  lemma NoSpaceFirst(s: string)
    requires |s| > 0 && !IsSpace(s[0])
    ensures SkipSpaces(s) == s
  {
  }

  /** The header `toString` writes, before the space and the entries. */
  function Header(gid: nat, numG: nat, numL: nat): string {
    "setparams " + NatToString(gid) + " " + NatToString(numG) + "," + NatToString(numL)
  }

  lemma HeaderRoundTrip(gid: nat, numG: nat, numL: nat, body: string)
    requires gid < ULongModulus && numG < ULongModulus && numL < ULongModulus
    requires |body| > 0 && IsSpace(body[0])
    ensures ParseHeader(Header(gid, numG, numL) + body) == Ok((Open(body), gid, numG, numL))
  {
    var g, ng, nl := NatToString(gid), NatToString(numG), NatToString(numL);
    var x3 := "," + nl + body;
    var x2 := " " + ng + x3;
    var x1 := " " + g + x2;
    HeaderText(gid, numG, numL, body);
    ReadWordOfWord("", "setparams", x1);
    ReadULongOfNat(gid, " ", x2);
    ReadULongOfNat(numG, " ", x3);
    CountAfterComma(numL, body);
    HeaderFromSteps(Header(gid, numG, numL) + body, x1, x2, x3, nl + body, body, gid, numG, numL);
  }

  /** The header followed by `body`, grouped as the extractions read it. */
  lemma HeaderText(gid: nat, numG: nat, numL: nat, body: string)
    ensures Header(gid, numG, numL) + body
      == "" + "setparams" + (" " + NatToString(gid) + (" " + NatToString(numG) + ("," + NatToString(numL) + body)))
  {
    var g, ng, nl := NatToString(gid), NatToString(numG), NatToString(numL);
    var x3 := "," + nl + body;
    var x2 := " " + ng + x3;
    var x1 := " " + g + x2;
    assert "setparams " == "setparams" + " ";
    assert Header(gid, numG, numL) + body == "setparams" + x1 by {
      Assoc4("setparams" + " ", g, " " + ng, "," + nl, body);
    }
    EmptyPlus("setparams");
  }

  /** Regrouping a concatenation of five pieces. */
  lemma Assoc4(a: string, b: string, c: string, d: string, e: string)
    requires |a| > 0
    ensures a + b + c + d + e == a[..|a| - 1] + ([a[|a| - 1]] + b + (c + (d + e)))
  {
  }

  /** `>> comma >> numlParams` on ",<numL>" followed by whitespace. */
  lemma CountAfterComma(numL: nat, body: string)
    requires numL < ULongModulus
    requires |body| > 0 && IsSpace(body[0])
    ensures ReadChar(Open("," + NatToString(numL) + body), ',') == (Open(NatToString(numL) + body), ',')
    ensures ReadULong(Open(NatToString(numL) + body), 0) == (Open(body), numL)
  {
    var nl := NatToString(numL);
    var x3 := "," + nl + body;
    assert x3 == [','] + (nl + body);
    NoSpaceFirst(x3);
    ReadULongOfNat(numL, "", body);
    NoLead(nl, body);
  }

  /** `ParseHeader` from the result of each extraction. */
  lemma HeaderFromSteps(def: string, x1: string, x2: string, x3: string, x4: string, body: string,
                        gid: nat, numG: nat, numL: nat)
    requires ReadWord(Open(def), "") == (Open(x1), "setparams")
    requires ReadULong(Open(x1), 0) == (Open(x2), gid)
    requires ReadULong(Open(x2), 0) == (Open(x3), numG)
    requires ReadChar(Open(x3), ',') == (Open(x4), ',')
    requires ReadULong(Open(x4), 0) == (Open(body), numL)
    ensures ParseHeader(def) == Ok((Open(body), gid, numG, numL))
  {
  }

  /** The text of `toString` read back by the string constructor gives the
      same gate ID and new lists, provided every name is a non-empty word
      without whitespace, no value holds a TAB, and the numbers fit an
      `unsigned long`. */
  lemma ToStringRoundTrip(c: SetParamsCmd)
    requires Writable(c.newGui) && Writable(c.newLogic)
    requires c.gid < ULongModulus && |c.newGui| < ULongModulus && |c.newLogic| < ULongModulus
    ensures FromString(ToString(c)) == Ok(SetParamsCmd(c.gid, true, c.newGui, c.newLogic, c.newGui, c.newLogic))
  {
    HeaderOfText(c);
    EntriesOfText(c);
    FromStringSteps(ToString(c), (Open(Body(c)), c.gid, |c.newGui|, |c.newLogic|), (AfterGui(c), c.newGui),
      (AfterLogic(c), c.newLogic));
  }

  /** What follows the header in `toString`. */
  function Body(c: SetParamsCmd): string {
    " " + Entries(c.newGui) + Entries(c.newLogic)
  }

  /** The stream once the GUI entries are read: with none, the space
      before the logic entries is left unread. */
  function AfterGui(c: SetParamsCmd): Stream {
    Open((if |c.newGui| == 0 then " " else "") + Entries(c.newLogic))
  }

  /** The stream once the logic entries are read too. */
  function AfterLogic(c: SetParamsCmd): Stream {
    Open(if |c.newLogic| == 0 && |c.newGui| == 0 then " " else "")
  }

  lemma HeaderOfText(c: SetParamsCmd)
    requires c.gid < ULongModulus && |c.newGui| < ULongModulus && |c.newLogic| < ULongModulus
    ensures ParseHeader(ToString(c)) == Ok((Open(Body(c)), c.gid, |c.newGui|, |c.newLogic|))
  {
    ToStringText(c);
    HeaderRoundTrip(c.gid, |c.newGui|, |c.newLogic|, Body(c));
  }

  lemma EntriesOfText(c: SetParamsCmd)
    requires Writable(c.newGui) && Writable(c.newLogic)
    ensures ReadParams(Open(Body(c)), |c.newGui|, Empty) == Ok((AfterGui(c), c.newGui))
    ensures ReadParams(AfterGui(c), |c.newLogic|, Empty) == Ok((AfterLogic(c), c.newLogic))
  {
    GuiRead(c.newGui, Entries(c.newLogic));
    LogicRead(if |c.newGui| == 0 then " " else "", c.newLogic);
  }

  /** `toString` is the header, a space and both lists of entries. */
  lemma ToStringText(c: SetParamsCmd)
    ensures ToString(c) == Header(c.gid, |c.newGui|, |c.newLogic|) + (" " + Entries(c.newGui) + Entries(c.newLogic))
  {
  }

  /** The GUI entries read back; with none, the space before the logic
      entries is left unread. */
  lemma GuiRead(gui: PMap, rest: string)
    requires Writable(gui)
    ensures ReadParams(Open(" " + Entries(gui) + rest), |gui|, Empty)
      == Ok((Open((if |gui| == 0 then " " else "") + rest), gui))
  {
    RebuildFromEntries(gui);
    ReadParamsOfText(" " + Entries(gui) + rest, " ", gui, rest, Empty);
    if |gui| > 0 {
      EmptyPlus(rest);
    }
  }

  /** The logic entries read back after the GUI ones. */
  lemma LogicRead(lead: string, logic: PMap)
    requires AllSpace(lead) && Writable(logic)
    ensures ReadParams(Open(lead + Entries(logic)), |logic|, Empty)
      == Ok((Open(if |logic| == 0 then lead else ""), logic))
  {
    RebuildFromEntries(logic);
    ReadParamsOfText(lead + Entries(logic), lead, logic, "", Empty);
    assert lead + "" == lead;
  }

  /** `ReadParamsOfEntries` for any text spelt as whitespace, entries and
      the rest. */
  lemma ReadParamsOfText(text: string, lead: string, es: PMap, rest: string, m: PMap)
    requires AllSpace(lead) && Writable(es) && text == lead + Entries(es) + rest
    ensures ReadParams(Open(text), |es|, m)
      == Ok((if |es| == 0 then Open(lead + rest) else Open(rest), PutAll(m, es)))
  {
    ReadParamsOfEntries(lead, es, rest, m);
  }

  /** `FromString` from the result of each stage. */
  lemma FromStringSteps(def: string, h: (Stream, nat, nat, nat), g: (Stream, PMap), l: (Stream, PMap))
    requires ParseHeader(def) == Ok(h)
    requires ReadParams(h.0, h.2, Empty) == Ok(g)
    requires ReadParams(g.0, h.3, Empty) == Ok(l)
    ensures FromString(def) == Ok(SetParamsCmd(h.1, true, g.1, l.1, g.1, l.1))
  {
  }

  /** A command read from text always has its old lists equal to its new
      lists, so its Undo sets the same values as its Do. */
  lemma FromStringUndoIsDo(def: string)
    requires FromString(def).Ok?
    ensures FromString(def).value.oldGui == FromString(def).value.newGui
    ensures FromString(def).value.oldLogic == FromString(def).value.newLogic
  {
  }

  // ---------------------------------------------------------------------
  // Do and Undo

  /** The logic parameters whose changes are not sent to the core: the
      dialog's FILE_IN and FILE_OUT logic parameters. */
  function Silenced(dlg: seq<DlgParam>): (r: set<string>)
    ensures forall n :: n in r <==> exists i :: (0 <= i < |dlg| && dlg[i].name == n && !dlg[i].isGui
      && (dlg[i].kind == "FILE_IN" || dlg[i].kind == "FILE_OUT"))
  {
    set i | 0 <= i < |dlg| && !dlg[i].isGui && (dlg[i].kind == "FILE_IN" || dlg[i].kind == "FILE_OUT") :: dlg[i].name
  }

  /** The messages for the logic parameters set, in key order. */
  function Messages(gid: nat, es: seq<Entry>, silenced: set<string>): (r: seq<CoreMessage>)
    ensures |r| <= |es|
    ensures forall msg :: msg in r <==> msg.gate == gid && (msg.name, msg.value) in es && msg.name !in silenced
    decreases |es|
  {
    if |es| == 0 then []
    else
      var rest := Messages(gid, es[1..], silenced);
      assert forall e :: e in es <==> e == es[0] || e in es[1..];
      if es[0].0 in silenced then rest else [SetGateParam(gid, es[0].0, es[0].1)] + rest
  }

  /** Each logic parameter, then each GUI parameter, set on the gate with
      the base `setLogicParam`/`setGUIParam`. */
  function SetAll(g: Gate, logic: PMap, gui: PMap): (r: Gate)
    ensures forall k :: Get(r.lparams, k) == if Has(logic, k) then Get(logic, k) else Get(g.lparams, k)
    ensures forall k :: Get(r.gparams, k) == if Has(gui, k) then Get(gui, k) else Get(g.gparams, k)
    ensures r.(lparams := g.lparams, gparams := g.gparams) == g
  {
    g.(lparams := PutAll(g.lparams, logic), gparams := PutAll(g.gparams, gui))
  }

  /** Sets one pair of lists on the gate: the result of `Do` (new lists) or
      `Undo` (old lists). `false` and nothing changed if the gate is gone. */
  function Apply(gates: map<GateId, Gate>, gid: nat, logic: PMap, gui: PMap, dlg: seq<DlgParam>)
    : (r: (bool, map<GateId, Gate>, seq<CoreMessage>))
    ensures r.0 <==> gid in gates
    ensures !r.0 ==> r.1 == gates && r.2 == []
    ensures r.1.Keys == gates.Keys
    ensures forall g :: g in gates && g != gid ==> r.1[g] == gates[g]
    ensures r.0 ==> r.1[gid] == SetAll(gates[gid], logic, gui)
    ensures r.0 ==> forall msg :: msg in r.2 <==>
      msg.gate == gid && (msg.name, msg.value) in logic && msg.name !in Silenced(dlg)
  {
    if gid !in gates then (false, gates, [])
    else (true, gates[gid := SetAll(gates[gid], logic, gui)], Messages(gid, logic, Silenced(dlg)))
  }

  function Do(c: SetParamsCmd, gates: map<GateId, Gate>, dlg: seq<DlgParam>): (r: (bool, map<GateId, Gate>, seq<CoreMessage>))
    ensures r.0 <==> c.gid in gates
    ensures r.0 ==> c.gid in r.1 && forall k :: Has(c.newLogic, k) ==> Get(r.1[c.gid].lparams, k) == Get(c.newLogic, k)
    ensures r.0 ==> c.gid in r.1 && forall k :: Has(c.newGui, k) ==> Get(r.1[c.gid].gparams, k) == Get(c.newGui, k)
  {
    Apply(gates, c.gid, c.newLogic, c.newGui, dlg)
  }

  function Undo(c: SetParamsCmd, gates: map<GateId, Gate>, dlg: seq<DlgParam>): (r: (bool, map<GateId, Gate>, seq<CoreMessage>))
    ensures r.0 <==> c.gid in gates
    ensures r.0 ==> c.gid in r.1 && forall k :: Has(c.oldLogic, k) ==> Get(r.1[c.gid].lparams, k) == Get(c.oldLogic, k)
    ensures r.0 ==> c.gid in r.1 && forall k :: Has(c.oldGui, k) ==> Get(r.1[c.gid].gparams, k) == Get(c.oldGui, k)
  {
    Apply(gates, c.gid, c.oldLogic, c.oldGui, dlg)
  }

  /** Undo after Do, for a command built from the gate's maps: every
      parameter the gate had gets its value back, and a parameter only Do
      introduced keeps Do's value (Undo does not remove it). */
  lemma UndoAfterDo(gates: map<GateId, Gate>, gid: nat, g: Option<PMap>, l: Option<PMap>,
                    setMode: bool, dlg: seq<DlgParam>, k: string)
    requires gid in gates
    ensures var c := FromMaps(gates, gid, g, l, setMode).value;
      var after := Undo(c, Do(c, gates, dlg).1, dlg).1[gid];
      var before := gates[gid];
      (Has(before.lparams, k) ==> Get(after.lparams, k) == Get(before.lparams, k)) &&
      (!Has(before.lparams, k) ==> Get(after.lparams, k) == Get(c.newLogic, k)) &&
      (Has(before.gparams, k) ==> Get(after.gparams, k) == Get(before.gparams, k)) &&
      (!Has(before.gparams, k) ==> Get(after.gparams, k) == Get(c.newGui, k)) &&
      after.(lparams := before.lparams, gparams := before.gparams) == before
  {
  }

  /** `setPointers`: the gate ID through the paste translation map, whose
      `operator[]` gives 0 for an ID it does not hold. */
  function SetPointers(c: SetParamsCmd, gateIds: map<nat, nat>): (r: SetParamsCmd)
    ensures c.gid in gateIds ==> r.gid == gateIds[c.gid]
    ensures c.gid !in gateIds ==> r.gid == 0
    ensures r.(gid := c.gid) == c
  {
    c.(gid := if c.gid in gateIds then gateIds[c.gid] else 0)
  }
}

=== FILE: settings.dfy ===
/** The settings `MainApp::loadSettings` reads at start-up: the directory
    of the executable, the fixed defaults when `res/settings.ini` cannot be
    opened, and otherwise one setting per line, each the text after the
    line's first '='. Floating-point and boolean settings are not kept. */
module Settings {
  import opened Wrappers
  import opened Strings
  import opened StreamExtract

  /** The kept part of `appSettings`. The window size is `unsigned int`;
      the position and the timings are `int`. */
  datatype AppSettings = AppSettings(
    gateLibFile: string,
    helpFile: string,
    textFontFile: string,
    width: nat,
    height: nat,
    left: int,
    top: int,
    timePerStep: int,
    refreshRate: int,
    lastDir: string)

  /** The settings and the global `timeStepMod`, which starts equal to
      `timePerStep`. */
  datatype Loaded = Loaded(settings: AppSettings, timeStepMod: int)

  // ---------------------------------------------------------------------
  // The executable's directory

  predicate IsSeparator(c: char) {
    c == '/' || c == '\\'
  }

  /** `pathToExe`: `argv[0]` with characters dropped from the end until it
      is empty or ends with a separator. */
  function ExeDir(argv0: string): (r: string)
    ensures |r| <= |argv0| && r == argv0[..|r|]
    ensures |r| > 0 ==> IsSeparator(r[|r| - 1])
    ensures forall i :: |r| <= i < |argv0| ==> !IsSeparator(argv0[i])
    decreases |argv0|
  {
    if |argv0| == 0 || IsSeparator(argv0[|argv0| - 1]) then argv0
    else ExeDir(argv0[..|argv0| - 1])
  }

  /** The directory is the longest prefix that ends with a separator: no
      longer prefix ends with one. */
  lemma ExeDirIsLongest(argv0: string, n: nat)
    requires 0 < n <= |argv0| && IsSeparator(argv0[n - 1])
    ensures n <= |ExeDir(argv0)|
  {
  }

  /** A directory ending with a separator, followed by a file name without
      one, gives the directory back. */
  lemma {:induction false} ExeDirOfPath(dir: string, name: string)
    requires |dir| == 0 || IsSeparator(dir[|dir| - 1])
    requires forall i :: 0 <= i < |name| ==> !IsSeparator(name[i])
    ensures ExeDir(dir + name) == dir
    decreases |name|
  {
    if |name| == 0 {
      assert dir + name == dir;
    } else {
      var p := dir + name;
      assert p[..|p| - 1] == dir + name[..|name| - 1];
      ExeDirOfPath(dir, name[..|name| - 1]);
    }
  }

  // ---------------------------------------------------------------------
  // One setting line

  /** The text after the first '=' of `line`; the whole line when there is
      none (`find` gives `npos`, which as an `int` is -1). */
  function ValueOf(line: string): (r: string)
    ensures '=' !in line ==> r == line
    ensures '=' in line ==> |r| < |line| && line == line[..|line| - |r| - 1] + "=" + r
    ensures '=' in line ==> '=' !in line[..|line| - |r| - 1]
  {
    var pos := IndexOf(line, '=');
    if pos == -1 then
      assert '=' !in line;
      line
    else
      assert line == line[..pos] + "=" + line[pos + 1..];
      assert '=' !in line[..pos];
      line[pos + 1..]
  }

  /** A setting line written as `key=value`, with no '=' in the key. */
  function SettingLine(key: string, value: string): string {
    key + "=" + value
  }

  /** The value of a `key=value` line is the value, '=' signs and all. */
  lemma ValueOfSettingLine(key: string, value: string)
    requires '=' !in key
    ensures ValueOf(SettingLine(key, value)) == value
  {
    var line := SettingLine(key, value);
    assert line[|key|] == '=';
    var pos := IndexOf(line, '=');
    assert pos == |key| by {
      assert forall i :: 0 <= i < |key| ==> line[i] == key[i];
    }
    assert line[|key| + 1..] == value;
  }

  /** `getline` into `line`, then `line` replaced by its value, as the
      source does for the numeric settings. */
  function NumberLine(st: Stream, line: string): (r: (Stream, string))
    ensures !st.Good() ==> r == (st.(fail := true), ValueOf(line))
  {
    var (st', l) := GetLine(st, line, '\n');
    (st', ValueOf(l))
  }

  // ---------------------------------------------------------------------
  // Defaults and checks

  const DefaultWidth: nat := 600
  const DefaultHeight: nat := 600
  const DefaultLeft: int := 20
  const DefaultTop: int := 20
  const DefaultTimePerStep: int := 25
  const DefaultRefreshRate: int := 60

  /** The settings used when the file cannot be opened. `lastDir` is not
      set there and keeps what it held. */
  function Defaults(exe: string, prior: AppSettings): (r: AppSettings)
    ensures r.width == 600 && r.height == 600 && r.left == 20 && r.top == 20
    ensures r.timePerStep == 25 && r.refreshRate == 60 && r.lastDir == prior.lastDir
    ensures StartsWith(r.gateLibFile, exe) && StartsWith(r.helpFile, exe) && StartsWith(r.textFontFile, exe)
  {
    AppSettings(exe + "res/cl_gatedefs.xml", exe + "res/KLS_Logic.chm", exe + "res/arial.glf",
      DefaultWidth, DefaultHeight, DefaultLeft, DefaultTop, DefaultTimePerStep, DefaultRefreshRate,
      prior.lastDir)
  }

  /** A refresh rate of 0 or less is replaced by 60. */
  function CheckRefreshRate(rate: int): (r: int)
    ensures r > 0
    ensures rate > 0 ==> r == rate
    ensures rate <= 0 ==> r == DefaultRefreshRate
  {
    if rate <= 0 then DefaultRefreshRate else rate
  }

  /** The window fits a screen of `screenWidth` by `screenHeight`: its
      right and bottom edges, with the size cast to `signed int`, are on
      the screen. */
  predicate Fits(s: AppSettings, screenWidth: int, screenHeight: int) {
    s.left + Wrap32(s.width) <= screenWidth && s.top + Wrap32(s.height) <= screenHeight
  }

  /** A window that does not fit is moved to (20,20) and sized 600x600;
      nothing else changes. */
  function FitScreen(s: AppSettings, screenWidth: int, screenHeight: int): (r: AppSettings)
    ensures Fits(s, screenWidth, screenHeight) ==> r == s
    ensures !Fits(s, screenWidth, screenHeight) ==>
      r.width == 600 && r.height == 600 && r.left == 20 && r.top == 20
    ensures r.(width := s.width, height := s.height, left := s.left, top := s.top) == s
  {
    if Fits(s, screenWidth, screenHeight) then s
    else s.(width := DefaultWidth, height := DefaultHeight, left := DefaultLeft, top := DefaultTop)
  }

  /** On a screen of at least 620 by 620 pixels the checked window fits,
      and checking again changes nothing. */
  lemma FitScreenFits(s: AppSettings, screenWidth: int, screenHeight: int)
    requires screenWidth >= 620 && screenHeight >= 620
    ensures Fits(FitScreen(s, screenWidth, screenHeight), screenWidth, screenHeight)
    ensures FitScreen(FitScreen(s, screenWidth, screenHeight), screenWidth, screenHeight) ==
      FitScreen(s, screenWidth, screenHeight)
  {
  }

  // ---------------------------------------------------------------------
  // Loading

  /** The three file-name lines, each read by `getline` into the same
      `line`. */
  function NameLines(st: Stream): (r: (Stream, string, string, string)) {
    var (s1, l1) := GetLine(st, "", '\n');
    var (s2, l2) := GetLine(s1, l1, '\n');
    var (s3, l3) := GetLine(s2, l2, '\n');
    (s3, l1, l2, l3)
  }

  /** `n` numeric lines, each read by `getline` into `line`, which then
      holds the line's value; the values in order. */
  function NumberLines(st: Stream, line: string, n: nat): (r: (Stream, seq<string>))
    ensures |r.1| == n
    decreases n
  {
    if n == 0 then (st, [])
    else
      var (st', v) := NumberLine(st, line);
      var (st'', vs) := NumberLines(st', v, n - 1);
      (st'', [v] + vs)
  }

  /** The settings read from the file's text: three file names (made
      relative to the executable's directory), the window size and
      position, the time per step, the refresh rate (checked) and the last
      directory. A setting that cannot be read keeps what `prior` held. */
  function ReadSettings(exe: string, text: string, prior: AppSettings): (r: AppSettings)
    ensures StartsWith(r.gateLibFile, exe) && StartsWith(r.helpFile, exe) && StartsWith(r.textFontFile, exe)
    ensures r.refreshRate > 0
    ensures r.width < UIntModulus || r.width == prior.width
    ensures r.height < UIntModulus || r.height == prior.height
    ensures IntMin <= r.left <= IntMax || r.left == prior.left
    ensures IntMin <= r.top <= IntMax || r.top == prior.top
    ensures IntMin <= r.timePerStep <= IntMax || r.timePerStep == prior.timePerStep
  {
    var (s3, l1, l2, l3) := NameLines(Open(text));
    var (s9, v) := NumberLines(s3, l3, 6);
    var (s10, l10) := GetLine(s9, v[5], '\n');
    AppSettings(
      exe + ValueOf(l1), exe + ValueOf(l2), exe + ValueOf(l3),
      ReadUInt(Open(v[0]), prior.width).1,
      ReadUInt(Open(v[1]), prior.height).1,
      ReadInt(Open(v[2]), prior.left, 10).1,
      ReadInt(Open(v[3]), prior.top, 10).1,
      ReadInt(Open(v[4]), prior.timePerStep, 10).1,
      CheckRefreshRate(ReadInt(Open(v[5]), prior.refreshRate, 10).1),
      ValueOf(l10))
  }

  /** `loadSettings`. `file` is the text of `res/settings.ini` under the
      executable's directory, or nothing when it cannot be opened; `prior`
      is what `appSettings` held before (a setting the file does not set
      keeps it); the screen size is a parameter. */
  function LoadSettings(argv0: string, file: Option<string>, prior: AppSettings,
                        screenWidth: int, screenHeight: int): (r: Loaded)
    ensures r.timeStepMod == r.settings.timePerStep
    ensures r.settings.refreshRate > 0
    ensures file.None? ==> r.settings == Defaults(ExeDir(argv0), prior)
    ensures file.Some? ==> (Fits(r.settings, screenWidth, screenHeight) ||
      (r.settings.width == 600 && r.settings.height == 600 && r.settings.left == 20 && r.settings.top == 20))
    ensures StartsWith(r.settings.gateLibFile, ExeDir(argv0))
  {
    var exe := ExeDir(argv0);
    match file
    case None =>
      var s := Defaults(exe, prior);
      Loaded(s, s.timePerStep)
    case Some(text) =>
      var s := FitScreen(ReadSettings(exe, text, prior), screenWidth, screenHeight);
      Loaded(s, s.timePerStep)
  }

  // ---------------------------------------------------------------------
  // Reading back a written file

  /** The file a settings writer produces: one `key=value` line per setting,
      in the order the loader reads them; numbers in decimal as
      `operator<<` writes them, file names relative to the executable's
      directory. */
  function Values(s: AppSettings): (r: seq<string>)
    ensures |r| == 10
  {
    [s.gateLibFile, s.helpFile, s.textFontFile, NatToString(s.width), NatToString(s.height),
     IntToString(s.left), IntToString(s.top), IntToString(s.timePerStep), IntToString(s.refreshRate),
     s.lastDir]
  }

  function Written(keys: seq<string>, values: seq<string>): string
    requires |keys| == |values|
  {
    if |keys| == 0 then "" else SettingLine(keys[0], values[0]) + "\n" + Written(keys[1..], values[1..])
  }

  /** One line of a written file: `getline` gives it whatever `line`
      held, and the stream continues with the next line. */
  lemma GetLineOfWritten(keys: seq<string>, values: seq<string>, line: string)
    requires |keys| == |values| > 0
    requires '\n' !in SettingLine(keys[0], values[0])
    ensures GetLine(Open(Written(keys, values)), line, '\n') ==
      (Open(Written(keys[1..], values[1..])), SettingLine(keys[0], values[0]))
  {
    var l := SettingLine(keys[0], values[0]);
    var more := Written(keys[1..], values[1..]);
    GetLineOfLine(l, '\n', more);
    assert Written(keys, values) == l + ['\n'] + more;
  }

  predicate NoNewline(s: string) {
    '\n' !in s
  }

  /** What a readable settings file requires of its lines: no '=' in a
      key, no newline anywhere. */
  predicate WellWritten(keys: seq<string>, values: seq<string>) {
    |keys| == |values| &&
    (forall i :: 0 <= i < |keys| ==> '=' !in keys[i] && NoNewline(keys[i])) &&
    (forall i :: 0 <= i < |values| ==> NoNewline(values[i]))
  }

  lemma WrittenLine(keys: seq<string>, values: seq<string>)
    requires WellWritten(keys, values) && |keys| > 0
    ensures '\n' !in SettingLine(keys[0], values[0])
    ensures ValueOf(SettingLine(keys[0], values[0])) == values[0]
    ensures WellWritten(keys[1..], values[1..])
  {
    assert NoNewline(keys[0]) && NoNewline(values[0]);
    ValueOfSettingLine(keys[0], values[0]);
  }

  lemma WellWrittenSuffix(keys: seq<string>, values: seq<string>, i: nat)
    requires WellWritten(keys, values) && i <= |keys|
    ensures WellWritten(keys[i..], values[i..])
  {
    var ks, vs := keys[i..], values[i..];
    forall j | 0 <= j < |ks| ensures '=' !in ks[j] && NoNewline(ks[j]) {
      assert ks[j] == keys[i + j];
    }
    forall j | 0 <= j < |vs| ensures NoNewline(vs[j]) {
      assert vs[j] == values[i + j];
    }
  }

  /** The first line of a written file as the loader reads it: the stream
      after it and its value, and the rest is written the same way. */
  lemma ReadWritten(keys: seq<string>, values: seq<string>, line: string)
    requires WellWritten(keys, values) && |keys| > 0
    ensures GetLine(Open(Written(keys, values)), line, '\n') ==
      (Open(Written(keys[1..], values[1..])), SettingLine(keys[0], values[0]))
    ensures NumberLine(Open(Written(keys, values)), line) == (Open(Written(keys[1..], values[1..])), values[0])
    ensures WellWritten(keys[1..], values[1..])
  {
    WrittenLine(keys, values);
    GetLineOfWritten(keys, values, line);
  }

  /** Line `i` of a written file as the loader reads it: the stream after
      it, and its value. */
  lemma ReadAt(keys: seq<string>, values: seq<string>, i: nat, line: string)
    requires WellWritten(keys, values) && i < |keys|
    ensures GetLine(Open(Written(keys[i..], values[i..])), line, '\n') ==
      (Open(Written(keys[i + 1..], values[i + 1..])), SettingLine(keys[i], values[i]))
  {
    var ks, vs := keys[i..], values[i..];
    WellWrittenSuffix(keys, values, i);
    assert ks[0] == keys[i] && vs[0] == values[i];
    assert ks[1..] == keys[i + 1..] && vs[1..] == values[i + 1..];
    WrittenLine(ks, vs);
    GetLineOfWritten(ks, vs, line);
  }

  /** The file-name lines of a written file. */
  lemma NameLinesOfWritten(keys: seq<string>, values: seq<string>)
    requires WellWritten(keys, values) && |keys| >= 3
    ensures NameLines(Open(Written(keys, values))) == (Open(Written(keys[3..], values[3..])),
      SettingLine(keys[0], values[0]), SettingLine(keys[1], values[1]), SettingLine(keys[2], values[2]))
  {
    assert keys[0..] == keys && values[0..] == values;
    ReadAt(keys, values, 0, "");
    ReadAt(keys, values, 1, SettingLine(keys[0], values[0]));
    ReadAt(keys, values, 2, SettingLine(keys[1], values[1]));
  }

  /** The numeric lines of a written file give their values, whatever
      `line` held. */
  lemma {:induction false} NumberLinesOfWritten(keys: seq<string>, values: seq<string>, line: string, n: nat)
    requires WellWritten(keys, values) && n <= |keys|
    ensures NumberLines(Open(Written(keys, values)), line, n) == (Open(Written(keys[n..], values[n..])), values[..n])
    decreases n
  {
    if n == 0 {
      assert keys[0..] == keys && values[0..] == values;
    } else {
      ReadWritten(keys, values, line);
      NumberLinesOfWritten(keys[1..], values[1..], values[0], n - 1);
      DropDrop(keys, 1, n - 1);
      DropDrop(values, 1, n - 1);
      ConsTake(values, n);
    }
  }

  /** `ReadSettings` put together from what each of its reads gives. */
  lemma ReadSettingsSteps(exe: string, prior: AppSettings, text: string, t3: string, t9: string, t10: string,
                          l1: string, l2: string, l3: string, v: seq<string>, l10: string)
    requires |v| == 6
    requires NameLines(Open(text)) == (Open(t3), l1, l2, l3)
    requires NumberLines(Open(t3), l3, 6) == (Open(t9), v)
    requires GetLine(Open(t9), v[5], '\n') == (Open(t10), l10)
    ensures ReadSettings(exe, text, prior) == AppSettings(
      exe + ValueOf(l1), exe + ValueOf(l2), exe + ValueOf(l3),
      ReadUInt(Open(v[0]), prior.width).1, ReadUInt(Open(v[1]), prior.height).1,
      ReadInt(Open(v[2]), prior.left, 10).1, ReadInt(Open(v[3]), prior.top, 10).1,
      ReadInt(Open(v[4]), prior.timePerStep, 10).1,
      CheckRefreshRate(ReadInt(Open(v[5]), prior.refreshRate, 10).1),
      ValueOf(l10))
  {
  }

  /** The settings a written file describes, with the file names made
      relative to the executable's directory. */
  function FromDir(exe: string, s: AppSettings): AppSettings {
    s.(gateLibFile := exe + s.gateLibFile, helpFile := exe + s.helpFile, textFontFile := exe + s.textFontFile)
  }

  /** What a settings writer can store and the loader read back: sizes
      that fit `unsigned int`, numbers that fit `int`, a positive refresh
      rate. */
  predicate Storable(s: AppSettings) {
    s.width < UIntModulus && s.height < UIntModulus &&
    IntMin <= s.left <= IntMax && IntMin <= s.top <= IntMax &&
    IntMin <= s.timePerStep <= IntMax && 0 < s.refreshRate <= IntMax
  }

  /** Reading the values of a written file gives the settings back. */
  lemma ValuesReadBack(exe: string, s: AppSettings, prior: AppSettings)
    requires Storable(s)
    ensures AppSettings(
      exe + s.gateLibFile, exe + s.helpFile, exe + s.textFontFile,
      ReadUInt(Open(NatToString(s.width)), prior.width).1, ReadUInt(Open(NatToString(s.height)), prior.height).1,
      ReadInt(Open(IntToString(s.left)), prior.left, 10).1, ReadInt(Open(IntToString(s.top)), prior.top, 10).1,
      ReadInt(Open(IntToString(s.timePerStep)), prior.timePerStep, 10).1,
      CheckRefreshRate(ReadInt(Open(IntToString(s.refreshRate)), prior.refreshRate, 10).1),
      s.lastDir) == FromDir(exe, s)
  {
    SizeBack(s, prior);
    PositionBack(s, prior);
    TimingBack(s, prior);
  }

  lemma SizeBack(s: AppSettings, prior: AppSettings)
    requires Storable(s)
    ensures ReadUInt(Open(NatToString(s.width)), prior.width).1 == s.width
    ensures ReadUInt(Open(NatToString(s.height)), prior.height).1 == s.height
  {
    ReadUIntOfNat(s.width, prior.width);
    ReadUIntOfNat(s.height, prior.height);
  }

  lemma PositionBack(s: AppSettings, prior: AppSettings)
    requires Storable(s)
    ensures ReadInt(Open(IntToString(s.left)), prior.left, 10).1 == s.left
    ensures ReadInt(Open(IntToString(s.top)), prior.top, 10).1 == s.top
  {
    ReadIntOfInt(s.left, prior.left);
    ReadIntOfInt(s.top, prior.top);
  }

  lemma TimingBack(s: AppSettings, prior: AppSettings)
    requires Storable(s)
    ensures ReadInt(Open(IntToString(s.timePerStep)), prior.timePerStep, 10).1 == s.timePerStep
    ensures CheckRefreshRate(ReadInt(Open(IntToString(s.refreshRate)), prior.refreshRate, 10).1) == s.refreshRate
  {
    ReadIntOfInt(s.timePerStep, prior.timePerStep);
    ReadIntOfInt(s.refreshRate, prior.refreshRate);
  }

  /** Round trip: the loader reads back every kept setting of a file
      written one `key=value` line per setting, whatever the keys. */
  lemma ReadSettingsOfWritten(exe: string, keys: seq<string>, s: AppSettings, prior: AppSettings)
    requires Storable(s) && WellWritten(keys, Values(s))
    ensures ReadSettings(exe, Written(keys, Values(s)), prior) == FromDir(exe, s)
  {
    var vs := Values(s);
    var l1, l2, l3 := SettingLine(keys[0], vs[0]), SettingLine(keys[1], vs[1]), SettingLine(keys[2], vs[2]);
    var l10 := SettingLine(keys[9], vs[9]);
    NameLinesOfWritten(keys, vs);
    NumbersOfWritten(keys, vs);
    ReadAt(keys, vs, 9, vs[8]);
    ValueLines(keys, vs);
    NumberValues(s);
    ReadSettingsSteps(exe, prior, Written(keys, vs), Written(keys[3..], vs[3..]), Written(keys[9..], vs[9..]),
      Written(keys[10..], vs[10..]), l1, l2, l3, vs[3..9], l10);
    Assemble(exe, s, prior, Written(keys, vs), l1, l2, l3, l10, vs[3..9]);
  }

  /** The numeric lines of a written file of ten settings. */
  lemma NumbersOfWritten(keys: seq<string>, values: seq<string>)
    requires WellWritten(keys, values) && |keys| == 10
    ensures NumberLines(Open(Written(keys[3..], values[3..])), SettingLine(keys[2], values[2]), 6) ==
      (Open(Written(keys[9..], values[9..])), values[3..9])
  {
    WellWrittenSuffix(keys, values, 3);
    NumberLinesOfWritten(keys[3..], values[3..], SettingLine(keys[2], values[2]), 6);
    DropDrop(keys, 3, 6);
    DropDrop(values, 3, 6);
    DropTake(values, 3, 6);
  }

  lemma DropDrop<T>(a: seq<T>, i: nat, j: nat)
    requires i + j <= |a|
    ensures a[i..][j..] == a[i + j..]
  {
  }

  lemma ConsTake<T>(a: seq<T>, n: nat)
    requires 0 < n <= |a|
    ensures [a[0]] + a[1..][..n - 1] == a[..n]
  {
  }

  lemma DropTake<T>(a: seq<T>, i: nat, n: nat)
    requires i + n <= |a|
    ensures a[i..][..n] == a[i..i + n]
  {
  }

  lemma NumberValues(s: AppSettings)
    ensures Values(s)[3..9] == [NatToString(s.width), NatToString(s.height), IntToString(s.left),
      IntToString(s.top), IntToString(s.timePerStep), IntToString(s.refreshRate)]
  {
  }

  /** The values of the name lines and the last-directory line. */
  lemma ValueLines(keys: seq<string>, values: seq<string>)
    requires WellWritten(keys, values) && |keys| == 10
    ensures ValueOf(SettingLine(keys[0], values[0])) == values[0]
    ensures ValueOf(SettingLine(keys[1], values[1])) == values[1]
    ensures ValueOf(SettingLine(keys[2], values[2])) == values[2]
    ensures ValueOf(SettingLine(keys[9], values[9])) == values[9]
  {
    ValueOfSettingLine(keys[0], values[0]);
    ValueOfSettingLine(keys[1], values[1]);
    ValueOfSettingLine(keys[2], values[2]);
    ValueOfSettingLine(keys[9], values[9]);
  }

  /** The settings read, once each line's value is known. */
  lemma Assemble(exe: string, s: AppSettings, prior: AppSettings, text: string,
                 l1: string, l2: string, l3: string, l10: string, v: seq<string>)
    requires Storable(s)
    requires v == [NatToString(s.width), NatToString(s.height), IntToString(s.left), IntToString(s.top),
                   IntToString(s.timePerStep), IntToString(s.refreshRate)]
    requires ValueOf(l1) == s.gateLibFile && ValueOf(l2) == s.helpFile && ValueOf(l3) == s.textFontFile
    requires ValueOf(l10) == s.lastDir
    requires ReadSettings(exe, text, prior) == AppSettings(
      exe + ValueOf(l1), exe + ValueOf(l2), exe + ValueOf(l3),
      ReadUInt(Open(v[0]), prior.width).1, ReadUInt(Open(v[1]), prior.height).1,
      ReadInt(Open(v[2]), prior.left, 10).1, ReadInt(Open(v[3]), prior.top, 10).1,
      ReadInt(Open(v[4]), prior.timePerStep, 10).1,
      CheckRefreshRate(ReadInt(Open(v[5]), prior.refreshRate, 10).1),
      ValueOf(l10))
    ensures ReadSettings(exe, text, prior) == FromDir(exe, s)
  {
    ValuesReadBack(exe, s, prior);
  }

  /** The whole load of a written file on a screen the window fits: the
      settings come back as written and `timeStepMod` is the time per
      step. */
  lemma LoadWritten(argv0: string, keys: seq<string>, s: AppSettings, prior: AppSettings,
                    screenWidth: int, screenHeight: int)
    requires Storable(s) && WellWritten(keys, Values(s))
    requires Fits(s, screenWidth, screenHeight)
    ensures LoadSettings(argv0, Some(Written(keys, Values(s))), prior, screenWidth, screenHeight) ==
      Loaded(FromDir(ExeDir(argv0), s), s.timePerStep)
  {
    var text := Written(keys, Values(s));
    ReadSettingsOfWritten(ExeDir(argv0), keys, s, prior);
    LoadOfRead(argv0, text, prior, screenWidth, screenHeight, FromDir(ExeDir(argv0), s));
  }

  /** Loading a file whose settings read as `read`, on a screen `read`
      fits. */
  lemma LoadOfRead(argv0: string, text: string, prior: AppSettings, screenWidth: int, screenHeight: int,
                   read: AppSettings)
    requires ReadSettings(ExeDir(argv0), text, prior) == read
    requires Fits(read, screenWidth, screenHeight)
    ensures LoadSettings(argv0, Some(text), prior, screenWidth, screenHeight) == Loaded(read, read.timePerStep)
  {
  }
}

=== FILE: stream_extract.dfy ===
/** The parts of `std::istringstream` the editor relies on, with the
    semantics of the GNU C++ library under C++11: formatted extraction of a
    word, a character and an integer (`operator>>`), and `std::getline`.

    A stream is the text not yet consumed plus its `eofbit` and `failbit`.
    Every extraction first runs the stream's `sentry`; when the stream is not
    good, or when skipping whitespace reaches the end, the sentry fails, the
    target variable keeps the value it had (`prior`) and `failbit` is set. */
module StreamExtract {
  import opened Strings

  datatype Stream = Stream(rest: string, eof: bool, fail: bool) {
    predicate Good() {
      !eof && !fail
    }
  }

  /** A freshly constructed `istringstream` over `s`. */
  function Open(s: string): Stream {
    Stream(s, false, false)
  }

  /** `operator>>(istream&, std::string&)`: skip whitespace, then take the
      longest run of non-whitespace characters. */
  function ReadWord(st: Stream, prior: string): (r: (Stream, string))
    ensures !r.0.fail ==> st.Good() && |r.1| > 0 && NoSpace(r.1)
    ensures !r.0.fail ==> SkipSpaces(st.rest) == r.1 + r.0.rest
    ensures !r.0.fail ==> (r.0.eof <==> |r.0.rest| == 0)
    ensures !r.0.fail && |r.0.rest| > 0 ==> IsSpace(r.0.rest[0])
    ensures r.0.fail ==> r.1 == prior
    ensures r.0.fail <==> !st.Good() || |SkipSpaces(st.rest)| == 0
  {
    if !st.Good() then (st.(fail := true), prior)
    else
      var t := SkipSpaces(st.rest);
      if |t| == 0 then (Stream([], true, true), prior)
      else
        var n := WordLength(t);
        assert t == t[..n] + t[n..];
        (Stream(t[n..], n == |t|, false), t[..n])
  }

  /** `operator>>(istream&, char&)`: skip whitespace, then take one
      character, whatever it is. */
  function ReadChar(st: Stream, prior: char): (r: (Stream, char))
    ensures !r.0.fail ==> st.Good() && !IsSpace(r.1) && SkipSpaces(st.rest) == [r.1] + r.0.rest
    ensures r.0.fail ==> r.1 == prior
    ensures r.0.fail <==> !st.Good() || |SkipSpaces(st.rest)| == 0
  {
    if !st.Good() then (st.(fail := true), prior)
    else
      var t := SkipSpaces(st.rest);
      if |t| == 0 then (Stream([], true, true), prior)
      else
        assert t == [t[0]] + t[1..];
        (Stream(t[1..], false, false), t[0])
  }

  /** Splits `s` at the first `delim`: whether there is one, the text
      before it and the text after it. */
  function SplitFirst(s: string, delim: char): (r: (bool, string, string))
    ensures r.0 <==> delim in s
    ensures r.0 ==> s == r.1 + [delim] + r.2 && delim !in r.1
  {
    var k := IndexOf(s, delim);
    if k >= 0 then
      assert s[k] == delim;
      assert delim !in s[..k];
      assert s == s[..k] + [delim] + s[k + 1..];
      (true, s[..k], s[k + 1..])
    else
      (false, s, [])
  }

  /** `std::getline(is, s, delim)`: without skipping whitespace, take every
      character up to the delimiter, which is consumed but not stored. When
      the stream is not good nothing happens but `failbit`; otherwise the
      string is replaced, and extracting nothing at all (not even the
      delimiter) sets `failbit`. */
  function GetLine(st: Stream, prior: string, delim: char): (r: (Stream, string))
    ensures !st.Good() ==> r.0.fail && r.1 == prior
    ensures st.Good() && |st.rest| == 0 ==> r.0.fail && r.1 == []
    ensures st.Good() && |st.rest| > 0 ==> !r.0.fail
    ensures !r.0.fail && delim in st.rest ==>
      st.rest == r.1 + [delim] + r.0.rest && delim !in r.1 && !r.0.eof
    ensures !r.0.fail && delim !in st.rest ==> r.1 == st.rest && r.0.eof
  {
    if !st.Good() then (st.(fail := true), prior)
    else
      var (found, line, after) := SplitFirst(st.rest, delim);
      if found then (Stream(after, false, false), line)
      else (Stream([], true, |st.rest| == 0), st.rest)
  }

  // ---------------------------------------------------------------------
  // Integers

  /** The value of `c` as a digit in base 10 or 16 (either case). */
  function DigitValue(c: char, base: nat): (r: int)
    requires base == 10 || base == 16
    ensures -1 <= r < base
  {
    if '0' <= c <= '9' then c as int - '0' as int
    else if base == 16 && 'a' <= c <= 'f' then c as int - 'a' as int + 10
    else if base == 16 && 'A' <= c <= 'F' then c as int - 'A' as int + 10
    else -1
  }

  predicate IsDigitIn(c: char, base: nat)
    requires base == 10 || base == 16
  {
    DigitValue(c, base) >= 0
  }

  predicate AllDigitsIn(s: string, base: nat)
    requires base == 10 || base == 16
  {
    forall i :: 0 <= i < |s| ==> IsDigitIn(s[i], base)
  }

  /** The number a run of digits denotes, most significant first. */
  function ValueIn(s: string, base: nat): (v: nat)
    requires base == 10 || base == 16
    requires AllDigitsIn(s, base)
  {
    if |s| == 0 then 0
    else ValueIn(s[..|s| - 1], base) * base + DigitValue(s[|s| - 1], base)
  }

  /** Length of the longest prefix of `s` made of digits. */
  function DigitRun(s: string, base: nat): (n: nat)
    requires base == 10 || base == 16
    ensures n <= |s|
    ensures AllDigitsIn(s[..n], base)
    ensures n < |s| ==> !IsDigitIn(s[n], base)
    decreases |s|
  {
    if |s| == 0 || !IsDigitIn(s[0], base) then 0
    else
      var k := DigitRun(s[1..], base);
      assert s[..k + 1] == [s[0]] + s[1..][..k];
      k + 1
  }

  /** What the integer parser of `num_get` reads from `t`, the text after the
      sentry: an optional sign, in base 16 an optional `0x`/`0X` after which
      the digits start afresh, then digits. `found` is false when no digit
      was read (the caller then stores 0 and sets `failbit`). */
  datatype Scan = Scan(negative: bool, found: bool, magnitude: nat, rest: string)

  function ScanInteger(t: string, base: nat): (r: Scan)
    requires base == 10 || base == 16
    ensures |r.rest| <= |t|
  {
    var negative := |t| > 0 && t[0] == '-';
    var u := if |t| > 0 && (t[0] == '-' || t[0] == '+') then t[1..] else t;
    var w := if base == 16 && |u| >= 2 && u[0] == '0' && (u[1] == 'x' || u[1] == 'X') then u[2..] else u;
    var n := DigitRun(w, base);
    Scan(negative, n > 0, ValueIn(w[..n], base), w[n..])
  }

  const IntMax: int := 0x7FFF_FFFF
  const IntMin: int := -0x8000_0000
  /** `unsigned long` is 64 bits wide (the LP64 data model). */
  const ULongModulus: nat := 0x1_0000_0000_0000_0000
  /** `unsigned int` is 32 bits wide. */
  const UIntModulus: nat := 0x1_0000_0000

  /** `operator>>(istream&, int&)` in base 10 or 16: a value outside the
      range of `int` is stored as `INT_MAX` or `INT_MIN` and sets
      `failbit`; no digits at all stores 0 and sets `failbit`. */
  function ReadInt(st: Stream, prior: int, base: nat): (r: (Stream, int))
    requires base == 10 || base == 16
    ensures IntMin <= r.1 <= IntMax || r.1 == prior
    ensures (!st.Good() || |SkipSpaces(st.rest)| == 0) ==> r.0.fail && r.1 == prior
    ensures !r.0.fail ==> st.Good()
  {
    if !st.Good() then (st.(fail := true), prior)
    else
      var t := SkipSpaces(st.rest);
      if |t| == 0 then (Stream([], true, true), prior)
      else
        var s := ScanInteger(t, base);
        var eof := |s.rest| == 0;
        if !s.found then (Stream(s.rest, eof, true), 0)
        else
          var v: int := if s.negative then 0 - s.magnitude else s.magnitude;
          if v > IntMax then (Stream(s.rest, eof, true), IntMax)
          else if v < IntMin then (Stream(s.rest, eof, true), IntMin)
          else (Stream(s.rest, eof, false), v)
  }

  /** `operator>>` into an unsigned type with `modulus` values: a magnitude
      above the largest value stores the largest value and sets `failbit`;
      a leading `-` is accepted and negates modulo `modulus`. */
  function ReadUnsigned(st: Stream, prior: nat, modulus: nat): (r: (Stream, nat))
    requires modulus > 0
    ensures r.1 < modulus || r.1 == prior
    ensures (!st.Good() || |SkipSpaces(st.rest)| == 0) ==> r.0.fail && r.1 == prior
    ensures !r.0.fail ==> st.Good()
  {
    if !st.Good() then (st.(fail := true), prior)
    else
      var t := SkipSpaces(st.rest);
      if |t| == 0 then (Stream([], true, true), prior)
      else
        var s := ScanInteger(t, 10);
        var eof := |s.rest| == 0;
        if !s.found then (Stream(s.rest, eof, true), 0)
        else if s.magnitude >= modulus then (Stream(s.rest, eof, true), modulus - 1)
        else if s.negative then (Stream(s.rest, eof, false), (modulus - s.magnitude) % modulus)
        else (Stream(s.rest, eof, false), s.magnitude)
  }

  /** `operator>>(istream&, unsigned long&)` in base 10. */
  function ReadULong(st: Stream, prior: nat): (r: (Stream, nat))
    ensures r.1 < ULongModulus || r.1 == prior
    ensures (!st.Good() || |SkipSpaces(st.rest)| == 0) ==> r.0.fail && r.1 == prior
    ensures !r.0.fail ==> st.Good()
  {
    ReadUnsigned(st, prior, ULongModulus)
  }

  /** `operator>>(istream&, unsigned int&)` in base 10. */
  function ReadUInt(st: Stream, prior: nat): (r: (Stream, nat))
    ensures r.1 < UIntModulus || r.1 == prior
    ensures (!st.Good() || |SkipSpaces(st.rest)| == 0) ==> r.0.fail && r.1 == prior
    ensures !r.0.fail ==> st.Good()
  {
    ReadUnsigned(st, prior, UIntModulus)
  }

  // ---------------------------------------------------------------------
  // Reading back what was written

  lemma {:induction false} DigitRunOfDigits(d: string, more: string, base: nat)
    requires base == 10 || base == 16
    requires AllDigitsIn(d, base)
    requires |more| > 0 ==> !IsDigitIn(more[0], base)
    ensures DigitRun(d + more, base) == |d|
    decreases |d|
  {
    if |d| > 0 {
      assert (d + more)[1..] == d[1..] + more;
      DigitRunOfDigits(d[1..], more, base);
    } else {
      assert d + more == more;
    }
  }

  lemma {:induction false} ValueOfDecimal(s: string)
    requires AllDigits(s)
    ensures AllDigitsIn(s, 10) && ValueIn(s, 10) == DigitsValue(s)
    decreases |s|
  {
    if |s| > 0 {
      ValueOfDecimal(s[..|s| - 1]);
    }
  }

  /** Skipping whitespace in front of a word stops at the word. */
  lemma SkipSpacesBefore(sp: string, w: string)
    requires forall i :: 0 <= i < |sp| ==> IsSpace(sp[i])
    requires |w| > 0 && !IsSpace(w[0])
    ensures SkipSpaces(sp + w) == w
    decreases |sp|
  {
    if |sp| > 0 {
      assert (sp + w)[1..] == sp[1..] + w;
      SkipSpacesBefore(sp[1..], w);
    } else {
      assert sp + w == w;
    }
  }

  /** The integer parser reads a run of decimal digits that does not start
      with a sign, up to the first non-digit. */
  lemma ScanOfDecimal(d: string, more: string)
    requires |d| > 0 && AllDigits(d)
    requires |more| > 0 && !IsDigit(more[0])
    ensures ScanInteger(d + more, 10) == Scan(false, true, DigitsValue(d), more)
  {
    var t := d + more;
    assert t[0] == d[0];
    ValueOfDecimal(d);
    DigitRunOfDigits(d, more, 10);
    assert t[..|d|] == d && t[|d|..] == more;
  }

  /** Extracting an `unsigned long` that `operator<<` wrote, followed by a
      character that is not a digit, gives the number back. */
  lemma ReadULongOfNat(n: nat, lead: string, more: string)
    requires n < ULongModulus
    requires forall i :: 0 <= i < |lead| ==> IsSpace(lead[i])
    requires |more| > 0 && !IsDigit(more[0])
    ensures ReadULong(Open(lead + NatToString(n) + more), 0) == (Open(more), n)
  {
    ReadUnsignedOfNat(n, lead, more, ULongModulus);
  }

  lemma ReadUnsignedOfNat(n: nat, lead: string, more: string, modulus: nat)
    requires n < modulus
    requires forall i :: 0 <= i < |lead| ==> IsSpace(lead[i])
    requires |more| > 0 && !IsDigit(more[0])
    ensures ReadUnsigned(Open(lead + NatToString(n) + more), 0, modulus) == (Open(more), n)
  {
    var d := NatToString(n);
    assert IsDigit(d[0]);
    assert (d + more)[0] == d[0];
    SkipSpacesBefore(lead, d + more);
    assert lead + d + more == lead + (d + more);
    ScanOfDecimal(d, more);
    DigitsValueOfNatToString(n);
  }

  /** Extracting a word that is followed by whitespace gives the word back. */
  lemma ReadWordOfWord(lead: string, w: string, more: string)
    requires forall i :: 0 <= i < |lead| ==> IsSpace(lead[i])
    requires |w| > 0 && NoSpace(w)
    requires |more| > 0 && IsSpace(more[0])
    ensures ReadWord(Open(lead + w + more), "") == (Open(more), w)
  {
    var t := w + more;
    AppendAssoc(lead, w, more);
    SkipSpacesBefore(lead, t);
    WordLengthOfWordThen(w, more);
    ReadWordStep(Open(lead + t), t, |w|);
    SplitConcat(w, more);
  }

  lemma AppendAssoc<T>(a: seq<T>, b: seq<T>, c: seq<T>)
    ensures a + b + c == a + (b + c)
  {
  }

  lemma SplitConcat<T>(a: seq<T>, b: seq<T>)
    ensures (a + b)[..|a|] == a && (a + b)[|a|..] == b
  {
  }

  /** `ReadWord` on a good stream whose text, after the whitespace, starts
      with a word of `n` characters. */
  lemma ReadWordStep(st: Stream, t: string, n: nat)
    requires st.Good() && SkipSpaces(st.rest) == t && 0 < n == WordLength(t)
    ensures ReadWord(st, "") == (Stream(t[n..], n == |t|, false), t[..n])
  {
  }

  lemma {:induction false} WordLengthOfWordThen(w: string, more: string)
    requires NoSpace(w)
    requires |more| > 0 && IsSpace(more[0])
    ensures WordLength(w + more) == |w|
    decreases |w|
  {
    if |w| > 0 {
      assert (w + more)[1..] == w[1..] + more;
      WordLengthOfWordThen(w[1..], more);
    } else {
      assert w + more == more;
    }
  }

  /** `getline` up to a delimiter the text does not contain before it gives
      that text back and leaves the rest after the delimiter. */
  lemma GetLineOfLine(v: string, delim: char, more: string)
    requires delim !in v
    ensures GetLine(Open(v + [delim] + more), "", delim) == (Open(more), v)
  {
    var s := v + [delim] + more;
    assert s[|v|] == delim;
    var (found, line, after) := SplitFirst(s, delim);
    LeftCancel(line, after, v, more, delim);
  }

  /** Splitting at the first occurrence of a character is unique. */
  lemma {:induction false} LeftCancel(a: string, b: string, c: string, d: string, x: char)
    requires a + [x] + b == c + [x] + d
    requires x !in a && x !in c
    ensures a == c && b == d
    decreases |a|
  {
    var s, t := a + [x] + b, c + [x] + d;
    assert |a| > 0 <==> s[0] != x by {
      if |a| > 0 { assert s[0] == a[0]; }
    }
    assert |c| > 0 <==> t[0] != x by {
      if |c| > 0 { assert t[0] == c[0]; }
    }
    if |a| > 0 {
      assert a[0] == c[0] by {
        assert s[0] == a[0];
        assert t[0] == c[0];
      }
      assert a[1..] + [x] + b == c[1..] + [x] + d by {
        assert a[1..] + [x] + b == s[1..];
        assert c[1..] + [x] + d == t[1..];
      }
      LeftCancel(a[1..], b, c[1..], d, x);
      assert a == [a[0]] + a[1..] && c == [c[0]] + c[1..];
    } else {
      assert b == s[1..];
      assert d == t[1..];
    }
  }

  // ---------------------------------------------------------------------
  // atoi

  const LongMax: int := 0x7FFF_FFFF_FFFF_FFFF
  const LongMin: int := -0x8000_0000_0000_0000

  /** The conversion of an integer to a 32-bit `int`: the low 32 bits, read
      in two's complement. */
  function Wrap32(v: int): (r: int)
    ensures IntMin <= r <= IntMax
    ensures (r - v) % 0x1_0000_0000 == 0
    ensures IntMin <= v <= IntMax ==> r == v
  {
    var m := v % 0x1_0000_0000;
    if m > IntMax then m - 0x1_0000_0000 else m
  }

  /** `atoi` of the GNU C library, `(int) strtol(s, NULL, 10)`: skip
      whitespace, read an optional sign and decimal digits (none gives 0),
      clamp to the range of `long`, keep the low 32 bits. */
  function Atoi(s: string): (r: int)
    ensures IntMin <= r <= IntMax
    ensures !ScanInteger(SkipSpaces(s), 10).found ==> r == 0
  {
    var sc := ScanInteger(SkipSpaces(s), 10);
    var v: int := if sc.negative then 0 - sc.magnitude else sc.magnitude;
    var l := if v > LongMax then LongMax else if v < LongMin then LongMin else v;
    Wrap32(l)
  }

  /** `atoi` reads back a number that `operator<<` wrote, when it fits an
      `int`. */
  lemma AtoiOfNat(n: nat)
    requires n <= IntMax
    ensures Atoi(NatToString(n)) == n
  {
    var d := NatToString(n);
    assert SkipSpaces(d) == d by {
      assert IsDigit(d[0]);
      SkipSpacesBefore([], d);
      assert [] + d == d;
    }
    ScanOfNat(n);
  }

  /** Extracting an `int` that `operator<<` wrote gives the number back. */
  lemma ReadIntOfInt(v: int, prior: int)
    requires IntMin <= v <= IntMax
    ensures |SkipSpaces(IntToString(v))| > 0
    ensures ReadInt(Open(IntToString(v)), prior, 10).1 == v
  {
    var t := IntToString(v);
    assert SkipSpaces(t) == t by {
      assert t[0] == '-' || IsDigit(t[0]);
      SkipSpacesBefore([], t);
      assert [] + t == t;
    }
    if v < 0 {
      ScanOfNegative(-v);
    } else {
      ScanOfNat(v);
    }
  }

  lemma ScanOfNat(n: nat)
    ensures ScanInteger(NatToString(n), 10) == Scan(false, true, n, [])
  {
    var d := NatToString(n);
    assert IsDigit(d[0]);
    DigitRunOfDigits(d, [], 10);
    assert d + [] == d;
    ValueOfDecimal(d);
    DigitsValueOfNatToString(n);
    assert d[..|d|] == d;
  }

  lemma ScanOfNegative(n: nat)
    requires n > 0
    ensures ScanInteger("-" + NatToString(n), 10) == Scan(true, true, n, [])
  {
    var t := "-" + NatToString(n);
    assert t[1..] == NatToString(n);
    ScanOfNat(n);
  }

  /** Extracting an `unsigned int` that `operator<<` wrote gives the number
      back. */
  lemma ReadUIntOfNat(n: nat, prior: nat)
    requires n < UIntModulus
    ensures |SkipSpaces(NatToString(n))| > 0
    ensures ReadUInt(Open(NatToString(n)), prior).1 == n
  {
    var t := NatToString(n);
    assert SkipSpaces(t) == t by {
      assert IsDigit(t[0]);
      SkipSpacesBefore([], t);
      assert [] + t == t;
    }
    ScanOfNat(n);
  }
}

=== FILE: strings.dfy ===
/** Character and string helpers shared by the model: the "C" locale
    character classes, ASCII upper-casing, decimal rendering, the byte-wise
    ordering `std::string` uses for `<` and for `std::map` keys, and
    whitespace tokenisation as done by `operator>>` into a `std::string`. */
module Strings {

  /** `isspace` in the "C" locale. */
  predicate IsSpace(c: char) {
    c == ' ' || c == '\t' || c == '\n' || c == '\r' || c == '\U{000B}' || c == '\U{000C}'
  }

  predicate IsDigit(c: char) {
    '0' <= c <= '9'
  }

  predicate AllDigits(s: string) {
    forall i :: 0 <= i < |s| ==> IsDigit(s[i])
  }

  predicate NoSpace(s: string) {
    forall i :: 0 <= i < |s| ==> !IsSpace(s[i])
  }

  predicate StartsWith(s: string, prefix: string) {
    |prefix| <= |s| && s[..|prefix|] == prefix
  }

  predicate EndsWith(s: string, suffix: string) {
    |suffix| <= |s| && s[|s| - |suffix|..] == suffix
  }

  /** `s.substr(0, n) != p` with `|p| == n` is exactly `!StartsWith(s, p)`:
      `substr` clips at the end of a shorter string. */
  function Prefix(s: string, n: nat): (r: string)
    ensures |r| == if n <= |s| then n else |s|
    ensures r == s[..|r|]
  {
    if n <= |s| then s[..n] else s
  }

  lemma PrefixMatchIsStartsWith(s: string, p: string)
    ensures (Prefix(s, |p|) == p) <==> StartsWith(s, p)
  {
  }

  /** ASCII `toupper`. */
  function UpperChar(c: char): (r: char)
    ensures 'a' <= c <= 'z' ==> r as int == c as int - 32
    ensures !('a' <= c <= 'z') ==> r == c
    ensures !('a' <= r <= 'z')
  {
    if 'a' <= c <= 'z' then (c as int - 32) as char else c
  }

  function ToUpper(s: string): (r: string)
    ensures |r| == |s|
    ensures forall i :: 0 <= i < |s| ==> r[i] == UpperChar(s[i])
  {
    seq(|s|, i requires 0 <= i < |s| => UpperChar(s[i]))
  }

  predicate IsUpperCase(s: string) {
    forall i :: 0 <= i < |s| ==> !('a' <= s[i] <= 'z')
  }

  lemma ToUpperMakesUpper(s: string)
    ensures IsUpperCase(ToUpper(s))
  {
  }

  lemma ToUpperKeepsUpper(s: string)
    requires IsUpperCase(s)
    ensures ToUpper(s) == s
  {
  }

  function DigitChar(d: nat): (c: char)
    requires d < 10
    ensures IsDigit(c) && c as int - '0' as int == d
  {
    ('0' as int + d) as char
  }

  /** Decimal rendering of a natural number, as `operator<<` prints an
      unsigned integer. */
  function NatToString(n: nat): (r: string)
    ensures |r| >= 1 && AllDigits(r)
    ensures n < 10 ==> |r| == 1
    ensures n >= 10 ==> r[0] != '0'
    decreases n
  {
    if n < 10 then [DigitChar(n)] else NatToString(n / 10) + [DigitChar(n % 10)]
  }

  /** Decimal rendering of a signed integer. */
  function IntToString(i: int): (r: string)
    ensures i < 0 ==> r == "-" + NatToString(-i)
    ensures i >= 0 ==> r == NatToString(i)
  {
    if i < 0 then "-" + NatToString(-i) else NatToString(i)
  }

  /** The value of a run of decimal digits, most significant first. */
  function DigitsValue(s: string): (v: nat)
    requires AllDigits(s)
  {
    if |s| == 0 then 0
    else DigitsValue(s[..|s| - 1]) * 10 + (s[|s| - 1] as int - '0' as int)
  }

  lemma {:induction false} DigitsValueOfNatToString(n: nat)
    ensures DigitsValue(NatToString(n)) == n
    decreases n
  {
    if n >= 10 {
      var s := NatToString(n);
      assert s[..|s| - 1] == NatToString(n / 10);
      DigitsValueOfNatToString(n / 10);
    }
  }

  /** Lexicographic order on strings by character code: `std::string`'s
      `operator<` and the key order of `std::map<std::string, ...>`. */
  predicate Less(a: string, b: string)
    decreases |a|
  {
    if |a| == 0 then |b| > 0
    else if |b| == 0 then false
    else if a[0] != b[0] then a[0] < b[0]
    else Less(a[1..], b[1..])
  }

  lemma {:induction false} LessIrreflexive(a: string)
    ensures !Less(a, a)
    decreases |a|
  {
    if |a| > 0 {
      LessIrreflexive(a[1..]);
    }
  }

  lemma {:induction false} LessTransitive(a: string, b: string, c: string)
    requires Less(a, b) && Less(b, c)
    ensures Less(a, c)
    decreases |a|
  {
    if |a| > 0 && |b| > 0 && |c| > 0 && a[0] == b[0] && b[0] == c[0] {
      LessTransitive(a[1..], b[1..], c[1..]);
    }
  }

  lemma {:induction false} LessTotal(a: string, b: string)
    ensures a == b || Less(a, b) || Less(b, a)
    decreases |a|
  {
    if |a| > 0 && |b| > 0 && a[0] == b[0] {
      LessTotal(a[1..], b[1..]);
      if a[1..] == b[1..] {
        assert a == [a[0]] + a[1..] && b == [b[0]] + b[1..];
      }
    }
  }

  /** A common prefix does not change the order. */
  lemma {:induction false} LessAfterPrefix(p: string, a: string, b: string)
    requires Less(a, b)
    ensures Less(p + a, p + b)
    decreases |p|
  {
    if |p| == 0 {
      assert p + a == a && p + b == b;
    } else {
      LessAfterPrefix(p[1..], a, b);
      assert (p + a)[0] == p[0] == (p + b)[0];
      assert (p + a)[1..] == p[1..] + a;
      assert (p + b)[1..] == p[1..] + b;
    }
  }

  lemma LessAsymmetric(a: string, b: string)
    requires Less(a, b)
    ensures !Less(b, a) && a != b
  {
    if Less(b, a) {
      LessTransitive(a, b, a);
      LessIrreflexive(a);
    }
    LessIrreflexive(a);
  }

  /** Of two strings, exactly one of equal, below and above holds. */
  lemma LessTrichotomy(a: string, b: string)
    ensures a == b || Less(a, b) || Less(b, a)
    ensures !(Less(a, b) && Less(b, a)) && !(a == b && Less(a, b)) && !(a == b && Less(b, a))
  {
    LessTotal(a, b);
    LessIrreflexive(a);
    if Less(a, b) {
      LessAsymmetric(a, b);
    }
  }

  /** Index of the first occurrence of `c` in `s`, as `std::string::find`. */
  function IndexOf(s: string, c: char): (r: int)
    ensures -1 <= r < |s|
    ensures r >= 0 ==> s[r] == c && forall i :: 0 <= i < r ==> s[i] != c
    ensures r == -1 ==> forall i :: 0 <= i < |s| ==> s[i] != c
    decreases |s|
  {
    if |s| == 0 then -1
    else if s[0] == c then 0
    else var k := IndexOf(s[1..], c); if k == -1 then -1 else k + 1
  }

  /** Drops leading whitespace. */
  function SkipSpaces(s: string): (r: string)
    ensures |r| <= |s| && r == s[|s| - |r|..]
    ensures forall i :: 0 <= i < |s| - |r| ==> IsSpace(s[i])
    ensures |r| > 0 ==> !IsSpace(r[0])
    decreases |s|
  {
    if |s| > 0 && IsSpace(s[0]) then SkipSpaces(s[1..]) else s
  }

  /** Length of the longest prefix of `s` without whitespace. */
  function WordLength(s: string): (n: nat)
    ensures n <= |s|
    ensures NoSpace(s[..n])
    ensures n < |s| ==> IsSpace(s[n])
    ensures |s| > 0 && !IsSpace(s[0]) ==> n > 0
    decreases |s|
  {
    if |s| == 0 || IsSpace(s[0]) then 0 else 1 + WordLength(s[1..])
  }

  /** The whitespace-separated words of `s`, in order: what repeated
      `operator>>` into a `std::string` extracts. */
  function Tokens(s: string): seq<string>
    decreases |s|
  {
    var t := SkipSpaces(s);
    if |t| == 0 then []
    else
      var n := WordLength(t);
      [t[..n]] + Tokens(t[n..])
  }

  /** Each token is a non-empty run of non-whitespace characters. */
  lemma {:induction false} TokensAreWords(s: string)
    ensures forall i :: 0 <= i < |Tokens(s)| ==> |Tokens(s)[i]| > 0 && NoSpace(Tokens(s)[i])
    decreases |s|
  {
    var t := SkipSpaces(s);
    if |t| > 0 {
      var n := WordLength(t);
      TokensAreWords(t[n..]);
      var ts := Tokens(s);
      assert ts == [t[..n]] + Tokens(t[n..]);
      forall i | 0 <= i < |ts| ensures |ts[i]| > 0 && NoSpace(ts[i]) {
        if i > 0 {
          assert ts[i] == Tokens(t[n..])[i - 1];
        }
      }
    }
  }

  /** A string with no whitespace at all is a single token of itself. */
  lemma TokensOfWord(w: string)
    requires |w| > 0 && NoSpace(w)
    ensures Tokens(w) == [w]
  {
    assert SkipSpaces(w) == w;
    WordLengthOfWord(w);
    assert w[|w|..] == [];
    assert SkipSpaces(w[|w|..]) == [];
    assert w[..|w|] == w;
  }

  lemma {:induction false} WordLengthOfWord(w: string)
    requires NoSpace(w)
    ensures WordLength(w) == |w|
    decreases |w|
  {
    if |w| > 0 {
      WordLengthOfWord(w[1..]);
    }
  }
}

=== FILE: wire_registry.dfy ===
/** The canvas's wire list: a map from wire ID to wire. A bus wire owns one
    ID per bus line; its primary ID maps to the wire and every other ID it
    owns maps to a null placeholder (here `None`), which keeps the ID from
    being handed out again. */
module WireRegistry {
  import opened Wrappers
  import opened Gates

  /** A wire as the connection logic sees it: its primary ID, the IDs of
      its bus lines, and how many hotspots it ends at. */
  datatype Wire = Wire(id: WireId, ids: seq<WireId>, numConnections: nat)

  type Registry = map<WireId, Option<Wire>>

  /** Every wire entry sits under its own primary ID. */
  predicate Consistent(reg: Registry) {
    forall k :: k in reg && reg[k].Some? ==> reg[k].value.id == k
  }

  /** `insertWire`: every bus ID becomes a key mapped to the placeholder,
      then the primary ID is mapped to the wire. */
  function Insert(reg: Registry, w: Wire): (r: Registry)
    ensures r.Keys == reg.Keys + (set i | i in w.ids) + {w.id}
    ensures r[w.id] == Some(w)
    ensures forall i :: i in w.ids && i != w.id ==> r[i] == None
    ensures forall k :: k in reg && k !in w.ids && k != w.id ==> r[k] == reg[k]
  {
    Placeholders(reg, w.ids)[w.id := Some(w)]
  }

  /** Maps each of `ids` to the placeholder. */
  function Placeholders(reg: Registry, ids: seq<WireId>): (r: Registry)
    ensures r.Keys == reg.Keys + (set i | i in ids)
    ensures forall i :: i in ids ==> r[i] == None
    ensures forall k :: k in reg && k !in ids ==> r[k] == reg[k]
    decreases |ids|
  {
    if |ids| == 0 then reg
    else Placeholders(reg[ids[0] := None], ids[1..])
  }

  /** `removeWire`: an ID that is not in the list changes nothing; otherwise
      every bus ID of the wire stored there is erased. The source
      dereferences that entry, so it must not be a placeholder. */
  function Remove(reg: Registry, id: WireId): (r: Registry)
    requires id in reg ==> reg[id].Some?
    ensures id !in reg ==> r == reg
    ensures id in reg ==> r.Keys == reg.Keys - (set i | i in reg[id].value.ids)
    ensures forall k :: k in r ==> r[k] == reg[k]
  {
    if id !in reg then reg
    else
      var doomed := set i | i in reg[id].value.ids;
      map k | k in reg && k !in doomed :: reg[k]
  }

  /** Inserting a wire keeps the list consistent. */
  lemma InsertConsistent(reg: Registry, w: Wire)
    requires Consistent(reg)
    ensures Consistent(Insert(reg, w))
  {
  }

  /** Removing a wire keeps the list consistent. */
  lemma RemoveConsistent(reg: Registry, id: WireId)
    requires Consistent(reg)
    requires id in reg ==> reg[id].Some?
    ensures Consistent(Remove(reg, id))
  {
  }

  /** Removing a freshly inserted wire whose bus IDs include its primary ID
      gives back the list as it was before the insertion. */
  lemma RemoveAfterInsert(reg: Registry, w: Wire)
    requires w.id in w.ids
    requires forall i :: i in w.ids ==> i !in reg
    ensures Remove(Insert(reg, w), w.id) == reg
  {
    var r := Remove(Insert(reg, w), w.id);
    assert r.Keys == reg.Keys;
  }

  /** When the primary ID is not among the bus IDs, removal leaves the
      primary entry behind. */
  lemma RemoveKeepsUnlistedPrimary(reg: Registry, w: Wire)
    requires w.id !in w.ids
    ensures w.id in Remove(Insert(reg, w), w.id)
  {
  }
}

=== FILE: wrappers.dfy ===
/** Failure-carrying values used throughout the model: `Option` stands for a
    nullable pointer or a "no command" result, `Result` for an operation that
    can stop with an error message. */
module Wrappers {

  datatype Option<+T> = None | Some(value: T) {
    function GetOr(default: T): T {
      match this
      case Some(v) => v
      case None => default
    }
  }

  datatype Result<+T, +E> = Ok(value: T) | Err(error: E) {
    predicate IsFailure() {
      Err?
    }

    function PropagateFailure<U>(): Result<U, E>
      requires Err?
    {
      Err(error)
    }

    function Extract(): T
      requires Ok?
    {
      value
    }
  }
}
